=== FILE: README.md ===
# dotblog content pipeline in Dafny

A model of the content pipeline of dotblog, a small Go blog server. Two
variants of the server are modelled, each as its own module:

- `dotblog_server.go`, the current variant, is modelled by `DotblogServer`.
- `blog.go`, an older variant with a different post format, is modelled by
  `LegacyBlog`.

Both variants keep the whole site in nine global maps. There are live maps,
which the request handler reads, and pending maps (`new_...`), which a
background content cycle fills. Each cycle does the following:

1. It walks `posts/` and re-parses every `.blog` file whose bytes differ from
   a stored page. A post file has three blocks: header lines (`date: `,
   `categories: `, `title: `), the HTML shown in the recent-posts list, and
   the HTML of the full post.
2. It rebuilds the site when the template `main/index.html` or a post
   changed. The rebuild makes the category list and the date-ordered post
   fragments, and splits the template at its marker lines into the index
   page, a header and a footer.
3. It publishes: every live map is cleared and then receives the non-empty
   pending entries.

The request handler picks a route from the URL path and answers from the
live maps.

Module layout (one file per module):

| module | file | what it holds |
|---|---|---|
| `GoStrings` | go_strings.dfy | `strings.Index`, `Split`, `Join`, `TrimPrefix`, `Replace(…, 1)`, `strconv.ParseInt`/`FormatInt`, and the string-building loop `acc += part + term` |
| `GoSort` | go_sort.dfy | `sort.Strings` and `sort.Ints`, as the unique sorted permutation |
| `ContentStore` | content_store.dfy | the class `Store` with the nine maps, the publish step, `get_post_title`/`get_post_ts`, and map loops in any iteration order |
| `PostFormat` | post_format.dfy | header-line syntax, category lists, the site-wide category list, the date-lookup loops and the walk entry, shared by both variants |
| `IndexTemplate` | index_template.dfy | the template split, parametrised by the marker names and the line terminator |
| `HttpCommon` | http_common.dfy | route selection, Content-Type choice, the responses other than the category page, and the log writer's IP extraction (identical in both files) |
| `DotblogServer` | dotblog_server.dfy | parser, snapshot, walk, cycle and handler of `dotblog_server.go` |
| `LegacyBlog` | blog.dfy | parser, snapshot, walk, cycle and handler of `blog.go` |

How the model relates to the Go code:

- **Map iteration order.** Go leaves it unspecified. Every loop over a map is
  a loop that picks some key it has not visited yet (`:|`), and the order
  visited is returned as a ghost sequence. Every proof therefore holds for
  every order Go may choose. No contract fixes an order the Go code does not
  fix.
- **`time.Time`.** It is `ZeroTime` (the zero value, `Unix()` =
  -62135596800) or `UnixTime(seconds)`.
- **State-changing code.** The parser, the rebuild loops, the walk and the
  publish step are methods with loops over the `Store` fields. Each is
  proved against a function that specifies it (`ParseFrom`, `Terminated`,
  `CategoriesEntries`, `ShortsOf`, `NonEmpty`, …). The properties are then
  proved about those functions as lemmas.

Behaviour of the code that the model keeps, with the lemma showing each:

- The current walk compares a file's raw bytes with the stored full page.
  That page always starts with `<div class="post">`, so a post file that does
  not is parsed again in every cycle (`DotblogServer.StoredPostDiffersFromSource`).
- The older walk looks up `"url:/posts/" + path`, where `path` already starts
  with `posts/`. A file is therefore compared with another file's page
  (`LegacyBlog.ComparedKeyIsAnotherFiles`).
- The index page adds a line break after every template line, so a template
  without markers never equals its page and every cycle rebuilds
  (`DotblogServer.PlainTemplateRebuilds`). The older page drops line breaks,
  so a template without markers that holds at least one line break is
  longer than its page and also rebuilds every cycle
  (`LegacyBlog.PlainTemplateRebuilds`).
- When two posts share a stamp, the lookup may pick the same post twice
  (`DotblogServer.TiedStampsMayRepeat`).
- The older stamp list starts with one zero per dated post, and every zero
  finds a post dated 0. With `n` dated posts of which exactly one is dated
  0, that post is listed `n + 1` times
  (`LegacyBlog.EpochPostListedPerPost`); the only post of a site, dated 0,
  is listed twice (`LegacyBlog.EpochPostListedTwice`).
- `timeago` uses "m" for both minutes and months
  (`DotblogServer.MinutesLookLikeMonths`).
- A path under `/posts/` is served from the post map even when it holds
  `/..` (`HttpCommon.PostPrefixWins`).
- The `.blog` test `strings.Index(path, ".blog") == len(path) - 5` also
  accepts every four-character path (`PostFormat.BlogPathCases`). Walked
  paths begin with `posts/`, so this never triggers in the walk itself.

Further behaviour of the code worth noting:

- **Blank lines.** In `dotblog_server.go` blocks advance on every second
  blank line since the last advance, and a non-blank line does not reset
  the count. In `blog.go` a block advances every three non-comment lines,
  blank or not (`LegacyBlog.ParseShape`).
- **Caps.** In `dotblog_server.go` the recent-posts and title fragments are
  capped at 20 and 40 posts. Both caps are constants, and there is no
  pagination. `blog.go` lists every post found, with no cap.
- **Ties.** Each sorted stamp runs a fresh lookup over the dates map, so a
  tied stamp may pick the same post again and drop the other
  (`DotblogServer.TiedStampsMayRepeat`).
- **Older walk.** In `blog.go` a non-`.blog` path aborts the walk.
- **Change detection.** Files are compared with the rendered page.

## Model

| member | source | states |
|---|---|---|
| GoStrings.Index | dotblog_server.go:80 | the result is -1 exactly when `sub` does not occur; otherwise `sub` occurs there and at no earlier position |
| GoStrings.IndexZeroIsPrefix | dotblog_server.go:80-89 | the prefix tests `strings.Index(s, p) == 0` are exactly `strings.HasPrefix` |
| GoStrings.ContainsIff | dotblog_server.go:585 | `strings.Index(s, sub) != -1` holds exactly when `sub` occurs somewhere in `s` |
| GoStrings.TrimPrefix | dotblog_server.go:93 | with the prefix present, prefix + result is the input; without it, the input is unchanged |
| GoStrings.Split | dotblog_server.go:76 | `strings.Split` on a non-empty separator gives at least one piece, and no piece contains the separator; with `SplitJoin` the pieces are exactly the text between successive separators |
| GoStrings.SplitJoin | dotblog_server.go:76 | joining the pieces with the separator gives the input back |
| GoStrings.SplitNoSeparator | dotblog_server.go:605-608 | a string without the separator splits into itself alone |
| GoStrings.SplitLast | dotblog_server.go:605-608 | the last piece of `a + sep + b` is `b` when `b` holds no separator |
| GoStrings.TerminatedOfSplit | dotblog_server.go:360-399 | writing every piece of a split followed by the separator gives the input plus one separator |
| GoStrings.TerminatedAppend | dotblog_server.go:361-399 | the string-building loop over `a + b` is the loop over `a` then the loop over `b` |
| GoStrings.ReplaceFirst | dotblog_server.go:406-409 | without the target the text is unchanged; with it, exactly the first occurrence is replaced |
| GoStrings.ParseInt64 | dotblog_server.go:93 | a parsed value lies in the int64 range and comes from a non-empty string |
| GoStrings.ParseUnsigned | dotblog_server.go:93 | a digit string within range parses to its decimal value |
| GoStrings.ParseNegative | dotblog_server.go:93 | "-" and a digit string within range parses to the negated value |
| GoStrings.FormatInt | dotblog_server.go:97 | `strconv.FormatInt(n, 10)` is never empty |
| GoStrings.ParseFormatRoundTrip | dotblog_server.go:93-97 | parsing what `FormatInt` printed gives the number back, for every int64 |
| GoSort.SortSorted | dotblog_server.go:274 | the sort's result is ascending |
| GoSort.SortPermutes | dotblog_server.go:274 | the sort's result is a permutation of its input |
| GoSort.SortedPermutationUnique | dotblog_server.go:274 | two ascending permutations of the same list are equal, so stability does not matter |
| GoSort.StrLeIsTotalOrder | dotblog_server.go:274 | byte-wise lexicographic order is a total order |
| GoSort.IntLeIsTotalOrder | dotblog_server.go:296 | `<=` on integers is a total order |
| GoSort.SortStrings | dotblog_server.go:274 | `sort.Strings` returns an ascending permutation of its input |
| GoSort.SortInts | dotblog_server.go:296 | `sort.Ints` returns an ascending permutation of its input |
| ContentStore.MergedIntoEmpty | dotblog_server.go:446-510 | a merge into a cleared map keeps exactly the non-empty pending entries |
| ContentStore.NonEmptyEntries | dotblog_server.go:446-510 | a key is kept exactly when its pending value is not the empty value, and keeps that value |
| ContentStore.MergedPointwise | dotblog_server.go:446-510 | a map that keeps every non-empty pending entry, keeps live entries the pending map does not name, and drops the rest is exactly the merge |
| ContentStore.ClearAll | dotblog_server.go:422-444 | a delete-every-key loop leaves the map empty |
| ContentStore.MergeAll | dotblog_server.go:447-460 | a merge loop drains the pending map; the live map gets non-empty entries copied in, empty entries deleted, and other keys kept |
| ContentStore.ScanFor | dotblog_server.go:641-648 | a scan that stops at `key` reads the map's value, or the zero value when the key is absent |
| ContentStore.ListContains | dotblog_server.go:158-164 | a scan of a slice that stops at `x` finds it exactly when `x` is in the slice |
| ContentStore.EnumerationsPermute | dotblog_server.go:270-272 | two map-order listings of the same keys are permutations of each other |
| ContentStore.CollectKeys | dotblog_server.go:269-272 | the keys appended by a map loop list every key exactly once |
| ContentStore.HasKey | dotblog_server.go:276-284 | a map loop that stops at `key` finds it exactly when `key` is a key of the map |
| ContentStore.Store.constructor | dotblog_server.go:710-718 | at start-up every map is empty and no publish step is running |
| ContentStore.Store.ClearLive | dotblog_server.go:421-444 | the five delete loops empty `short_posts` and the four live maps |
| ContentStore.Store.MergeCategories | dotblog_server.go:446-460 | the categories become the non-empty pending lists, and the pending map is drained |
| ContentStore.Store.MergePostsByDate | dotblog_server.go:462-476 | the dates become the pending dates other than the zero time, and the pending map is drained |
| ContentStore.Store.MergeTitles | dotblog_server.go:478-492 | the titles become the non-empty pending titles, and the pending map is drained |
| ContentStore.Store.MergeContent | dotblog_server.go:494-510 | the content becomes the non-empty pending pages, and the pending map is drained |
| ContentStore.Store.StoreIndex | dotblog_server.go:403-412 | the index page, header and footer are stored under `url:/`, `header` and `footer` |
| ContentStore.Store.Publish | dotblog_server.go:416-515 | after publishing, every pending map and `short_posts` is empty, each live map is exactly the non-empty part of its old pending map, and `updating_content` is false |
| ContentStore.Store.GetPostTitle | dotblog_server.go:638-652 | `get_post_title` is the live title, or "" for a post without one |
| ContentStore.Store.GetPostTs | dotblog_server.go:654-672 | `get_post_ts` is the Unix seconds of the pending or live date, or -62135596800 for a post without one |
| PostFormat.AddToCategoriesAppend | dotblog_server.go:107-112 | filing a post under the labels `a + b` is filing it under `a` and then under `b` |
| PostFormat.AddToCategoriesSpec | dotblog_server.go:107-112 | a category exists afterwards exactly when it existed or is labelled; its list is the old one with the post appended once per label that names it |
| PostFormat.FileUnder | dotblog_server.go:107-112 | the label loop files the post under every label, in order |
| PostFormat.Stamps | dotblog_server.go:291-294 | position `i` holds the Unix seconds of the `i`-th listed post |
| PostFormat.CollectStamps | dotblog_server.go:290-294 | the stamp loop lists the Unix seconds of every pending date, once per post, in the map order it used |
| PostFormat.FindByStamp | dotblog_server.go:312-313 | the lookup returns a post with that stamp, or none exactly when no post has it |
| PostFormat.StampOwner | dotblog_server.go:311-313 | every stamp of the sorted list belongs to some post |
| PostFormat.BlogPathCases | dotblog_server.go:226 | the `.blog` test accepts exactly the paths whose first ".blog" ends them, plus every four-character path |
| PostFormat.DoubleExtensionSkipped | dotblog_server.go:226 | a name with ".blog" before its final ".blog" is not taken for a post file |
| PostFormat.NonCommentAppend | dotblog_server.go:80-83 | dropping comment lines from `a + b` drops them from `a` and from `b` |
| IndexTemplate.RenderLines | dotblog_server.go:361-384 | each template line becomes its fragment when it is a marker, and stays itself otherwise |
| IndexTemplate.FirstIndex | dotblog_server.go:370-377 | the position of the first posts marker, with no marker before it, or the line count when there is none |
| IndexTemplate.SplitLines | dotblog_server.go:360-401 | the template loop gives the index page with every marker line replaced and each line terminated; the header is the lines before the first posts marker, and the footer is the later lines that are not posts markers |
| IndexTemplate.SplitTemplate | dotblog_server.go:360-412 | the template step additionally fills the first categories marker and the first titles marker in the header and in the footer |
| IndexTemplate.HeaderFooterPartition | dotblog_server.go:386-397 | the header lines followed by the footer lines are the template lines without the posts markers |
| IndexTemplate.WithoutAppend | dotblog_server.go:386-397 | dropping the posts markers from `a + b` drops them from `a` and from `b` |
| IndexTemplate.NoPostsMarker | dotblog_server.go:370-397 | without a posts marker every line goes to the header and the footer is empty |
| IndexTemplate.PlainTemplate | dotblog_server.go:361-399 | a template without marker lines is copied to the index page line by line |
| HttpCommon.SelectRouteCases | dotblog_server.go:538-594 | the routes, in priority order: exactly "/"; the category prefix; the post prefix; any other path with "/.."; a static file under `main`, which never holds "/.." |
| HttpCommon.PostPrefixWins | dotblog_server.go:571-585 | every path under "/posts/", even one holding "/..", takes the post branch |
| HttpCommon.ContentTypeWithoutDot | dotblog_server.go:605-614 | a path without "." is sent as `application/octet-stream` |
| HttpCommon.ContentTypeOfExtension | dotblog_server.go:605-614 | the type is the table entry for what follows the last "." ("" when the table has none), or octet-stream when that is empty |
| HttpCommon.CommonResponse | dotblog_server.go:536-632 | every response carries the cache header; "/.." gives 403 with an empty body; a post is its page framed by the live header and footer, or 404 when it is empty; a file that does not open gives 404 |
| HttpCommon.LogWrite | dotblog_server.go:839-871 | `Write` always reports the whole input written, and passes an IP on only for a line that mentions a TLS handshake error |
| HttpCommon.HandshakeLineWords | dotblog_server.go:845-854 | a handshake-error line is five fixed words, the word "ip:port:" and the error text |
| HttpCommon.HandshakeSixthWord | dotblog_server.go:849-854 | the sixth space-separated word of a handshake-error line is "ip:port:" |
| HttpCommon.AddressPieces | dotblog_server.go:854-858 | "ip:port:" splits on ":" into exactly three pieces, the first being the IP |
| HttpCommon.HandshakeLineMentionsError | dotblog_server.go:845 | a handshake-error line passes the "TLS handshake error" test |
| HttpCommon.HandshakeIpRoundTrip | dotblog_server.go:845-864 | for an address without spaces or colons, the writer passes exactly that IP to the limiter, whatever the error text |
| DotblogServer.BlockRule | dotblog_server.go:182-193 | the block is half the number of non-comment blank lines, capped at 2, and those blank lines need not be adjacent |
| DotblogServer.CounterBounds | dotblog_server.go:182-193 | the block stays between 0 and 2; at most one blank line is pending, and none once in block 2 |
| DotblogServer.BlockMonotone | dotblog_server.go:182-193 | the block never goes back as lines are read, and never passes 2 |
| DotblogServer.ParseShape | dotblog_server.go:77-195 | after any lines: the counter follows the block rule; the header fields are those of the block-0 lines alone; the full block started exactly when a block-2 line was read; the full page is the opening tag, then the heading and every block-2 line followed by "\n" |
| DotblogServer.CommentsIgnored | dotblog_server.go:80-83 | "//" lines change nothing, wherever they are |
| DotblogServer.ParseIndependent | dotblog_server.go:146-176 | the recent-posts category links matter only once the full block has started |
| DotblogServer.HeaderDates | dotblog_server.go:89-100 | a date is recorded only from a line whose value parses as an int64; the last such line wins, and other date lines change nothing |
| DotblogServer.HeaderTitles | dotblog_server.go:119-133 | the last title line sets the post's title and title markup |
| DotblogServer.HeaderCategories | dotblog_server.go:102-117 | each label of every categories line files the post once, in order, and adds its link |
| DotblogServer.EmptyCategoriesLine | dotblog_server.go:102-112 | an empty categories line files the post under the empty label |
| DotblogServer.AddCategories | dotblog_server.go:107-117 | the label loop files the post under every label and appends their links |
| DotblogServer.CatLinksAppend | dotblog_server.go:107-117 | the category links of labels `a + b` are the links of `a` followed by those of `b` |
| DotblogServer.ReadHeaderLine | dotblog_server.go:85-134 | the header branch reads a line as `Header` specifies and starts the recent-posts entry on a title line |
| DotblogServer.RecentCategories | dotblog_server.go:152-166 | the recent-posts entry links each pending category that lists the post exactly once, in map order |
| DotblogServer.StartFull | dotblog_server.go:146-175 | at the start of the full block the entry is closed and its date and category placeholders are filled |
| DotblogServer.CountLine | dotblog_server.go:182-193 | the counter update at the end of the loop body |
| DotblogServer.ParseLine | dotblog_server.go:78-193 | the loop body performs one step of the parser |
| DotblogServer.ParsePost | dotblog_server.go:60-202 | `parse_post` leaves the pending maps, `short_posts` and the page under "url:/" + path as the parse of the file's lines gives them, and changes no other entries |
| DotblogServer.StoredFullPost | dotblog_server.go:66-198 | the stored page starts with `<div class="post">` and ends with `</div></div>`; between them come the heading and every block-2 line, blank or not, each followed by "\n" |
| DotblogServer.StoredPostDiffersFromSource | dotblog_server.go:234 | a file that does not start with the opening tag never equals its stored page |
| DotblogServer.CategoriesHtml | dotblog_server.go:266-284 | the category list links every pending category once, in ascending byte-wise order |
| DotblogServer.SortedCategoriesUnique | dotblog_server.go:269-274 | there is only one such order, whatever the map order |
| DotblogServer.Reverse | dotblog_server.go:298-308 | the reversal loop gives the stamps in reverse order |
| DotblogServer.Reversed | dotblog_server.go:298-308 | the reversal has the same length, with position `i` holding the element at `n - 1 - i` |
| DotblogServer.ReversedMultiset | dotblog_server.go:298-308 | reversal keeps every stamp with its multiplicity |
| DotblogServer.ReversedDescending | dotblog_server.go:296-308 | the reversed sorted stamps are descending and a permutation of the stamps |
| DotblogServer.RecentPosts | dotblog_server.go:286-353 | the posts are picked newest first, one per stamp; the recent-posts fragment holds the first 20 and the titles list the first 40 |
| DotblogServer.PickPosts | dotblog_server.go:310-353 | the lookup loop picks a post with each stamp in turn and adds entries while under the caps |
| DotblogServer.FragmentsStep | dotblog_server.go:318-348 | one more pick adds its recent-posts entry below 20 and its title link below 40 |
| DotblogServer.NewestFirst | dotblog_server.go:290-353 | with distinct stamps every dated post is picked exactly once, strictly newest first, and undated posts never are |
| DotblogServer.TiedStampsMayRepeat | dotblog_server.go:311-352 | with a tied stamp the same post may be picked twice and the other never |
| DotblogServer.Snapshot | dotblog_server.go:265-412 | the rebuild's fragments and the template split, in terms of the sorted categories and the picked posts |
| DotblogServer.Rebuild | dotblog_server.go:256-412 | the rebuild stores the index page, header and footer built from the pending maps as they were |
| DotblogServer.PlainTemplateRebuilds | dotblog_server.go:360-403 | a template without markers gives an index page one "\n" longer than itself |
| DotblogServer.WalkLength | dotblog_server.go:218-243 | the walk visits entries up to the first error |
| DotblogServer.ReparsedAreBlogFiles | dotblog_server.go:224-237 | only `.blog` paths other than the root are parsed, each from a readable entry whose bytes differ from the page under "url:/" + path |
| DotblogServer.VisitEntry | dotblog_server.go:224-241 | the callback parses exactly the selected entries; a parsed entry leaves the pending maps as the parse of that file into them (with its category links in some map order), and a skipped entry changes nothing |
| DotblogServer.WalkNext | dotblog_server.go:218-247 | one more entry of the walk extends the walk-order fold of parses by that entry's parse, or leaves it as it was when the entry is skipped |
| DotblogServer.Walk | dotblog_server.go:218-247 | the walk parses the selected entries in walk order up to the first error; the pending maps are then the fold of those parses over the old pending maps, and an update is reported exactly when an entry was parsed |
| DotblogServer.WalkedPages | dotblog_server.go:198 | after the walk every parsed post has a short entry and a non-empty pending page |
| DotblogServer.PublishedPages | dotblog_server.go:495-509 | publishing keeps the index page, header and footer and the non-empty page of every parsed post |
| DotblogServer.RebuildAndPublish | dotblog_server.go:256-515 | after a rebuild and publish, the rebuild is the snapshot of the pending maps; the pending maps are drained; the live categories, dates and titles are the non-empty pending entries, and the live pages are the non-empty entries of the pending pages updated with the index page, header and footer |
| DotblogServer.ContentCycle | dotblog_server.go:214-515 | an unreadable template exits; the pending maps after the walk are the walk-order fold of parses; the cycle publishes exactly when the template differs from the live index or a post was parsed, changes nothing otherwise, and a publish leaves the live maps as the non-empty entries of the walked maps with the rebuilt index page, header and footer |
| DotblogServer.CategoryEntriesAppend | dotblog_server.go:555-562 | a category page lists its posts in list order |
| DotblogServer.CategoryResponse | dotblog_server.go:544-569 | a category is served (200) exactly when its live list is non-empty, and is "not found" otherwise |
| DotblogServer.CategoryPage | dotblog_server.go:544-569 | the category branch builds that response one post at a time, using the title and date lookups |
| DotblogServer.Respond | dotblog_server.go:536-632 | every response carries the cache header |
| DotblogServer.HandleRequest | dotblog_server.go:523-636 | the handler answers as the route selection and the live maps give |
| DotblogServer.PublishedPostServed | dotblog_server.go:571-583 | a post whose page is live is served at "/" + path, framed by the live header and footer |
| DotblogServer.CategoryServed | dotblog_server.go:544-569 | an existing category is served with its entries between the live header and footer; any other is 404 |
| DotblogServer.UndatedPostStamp | dotblog_server.go:654-670 | a post without a live date is listed with the zero time's stamp |
| DotblogServer.AgoParts | dotblog_server.go:674-704 | `timeago` picks years, months (30 days), days, hours, minutes or seconds by range, with the truncated count in each |
| DotblogServer.MinutesLookLikeMonths | dotblog_server.go:686-701 | two minutes ago and two months ago read the same |
| LegacyBlog.ParseShape | blog.go:48-103 | the k-th non-comment line is read in block k/3: header lines set the maps and title entries; the short fragment ends with block 1; the full fragment is block 2, concatenated |
| LegacyBlog.LaterLinesDropped | blog.go:90-101 | once nine non-comment lines are read, further lines change nothing but the line count |
| LegacyBlog.ReadHeaderLine | blog.go:56-85 | the header branch records a parsed date, files the post under each label, and records the title and its entry |
| LegacyBlog.ParseLine | blog.go:49-101 | the loop body performs one step of the parser and keeps both counters at count mod 3 and count / 3 |
| LegacyBlog.ParseLines | blog.go:47-103 | the parse loop computes the parse of the lines |
| LegacyBlog.ParsePost | blog.go:37-110 | `parse_post` leaves the pending maps, `short_posts` and the page under "url:/" + path as the parse gives them |
| LegacyBlog.WalkLength | blog.go:126-149 | the walk visits entries up to the first error or non-`.blog` path |
| LegacyBlog.ReparsedAreBlogFiles | blog.go:131-143 | only `.blog` paths other than the root are parsed, each from a readable entry whose bytes differ from the page under "url:/posts/" + path |
| LegacyBlog.ComparedKeyIsAnotherFiles | blog.go:140 | the key a file is compared under is the key of the file at "posts/" + path, never its own |
| LegacyBlog.VisitEntry | blog.go:131-147 | the callback parses exactly the selected entries; a parsed entry leaves the pending maps as the parse of that file into them, and a skipped entry changes nothing |
| LegacyBlog.WalkNext | blog.go:126-153 | one more entry of the walk extends the walk-order fold of parses by that entry's parse, or leaves it as it was when the entry is skipped |
| LegacyBlog.Walk | blog.go:126-153 | the walk parses the selected entries in walk order and stops at the first error or non-`.blog` path; the pending maps are then the fold of those parses over the old pending maps |
| LegacyBlog.CategoriesHtml | blog.go:171-177 | the category list links every pending category once, in map order |
| LegacyBlog.Zeros | blog.go:184 | the stamp slice starts as one zero per dated post |
| LegacyBlog.ListPosts | blog.go:191-219 | for each sorted stamp the loop finds a post with that stamp, or none, and appends its entries |
| LegacyBlog.OldestFirst | blog.go:183-219 | with distinct non-zero stamps every dated post is listed exactly once, strictly oldest first, without a cap |
| LegacyBlog.DatedPostsListed | blog.go:184-219 | with distinct stamps every dated post is listed |
| LegacyBlog.NonZeroStampOnce | blog.go:184-189 | with distinct stamps, a non-zero stamp occurs at most once in the padded list |
| LegacyBlog.ZerosCount | blog.go:184 | the padding holds one zero per dated post |
| LegacyBlog.ZeroStampCount | blog.go:185-187 | when one post is dated 0, the collected stamps hold exactly one zero |
| LegacyBlog.PresentZeroCount | blog.go:191-193 | every zero stamp finds the only post dated 0 and no other stamp does |
| LegacyBlog.EpochPostListedPerPost | blog.go:184-219 | the only post dated 0 is listed once per dated post plus once for its own stamp |
| LegacyBlog.EpochPostListedTwice | blog.go:184-219 | a site whose single post is dated 0 lists it twice |
| LegacyBlog.Snapshot | blog.go:162-278 | the rebuild's fragments and the template split, with the older markers and no line breaks |
| LegacyBlog.Rebuild | blog.go:162-278 | the rebuild stores the index page, header and footer built from the pending maps as they were |
| LegacyBlog.PlainTemplateRebuilds | blog.go:226-269 | a template without markers but with a line break gives a shorter index page |
| LegacyBlog.PublishedPages | blog.go:361-375 | publishing keeps the index page, header and footer and each parsed post's pending page |
| LegacyBlog.RebuildAndPublish | blog.go:162-381 | after a rebuild and publish, the rebuild is the snapshot of the pending maps; the pending maps are drained; the live categories, dates and titles are the non-empty pending entries, and the live pages are the non-empty entries of the pending pages updated with the index page, header and footer |
| LegacyBlog.ContentCycle | blog.go:122-381 | an unreadable template exits; the pending maps after the walk are the walk-order fold of parses; the cycle publishes exactly when the template differs from the live index or a post was parsed, changes nothing otherwise, and a publish leaves the live maps as the non-empty entries of the walked maps with the rebuilt index page, header and footer |
| LegacyBlog.CategoryLinksAppend | blog.go:420-424 | a category page links its posts in list order, each by its path |
| LegacyBlog.CategoryResponse | blog.go:410-431 | a category is served exactly when its live list is non-empty, and is "not found" otherwise |
| LegacyBlog.CategoryPage | blog.go:410-431 | the category branch builds that response one link at a time |
| LegacyBlog.Respond | blog.go:401-494 | every response carries the cache header |
| LegacyBlog.HandleRequest | blog.go:389-498 | the handler answers as the route selection and the live maps give |
| LegacyBlog.CategoryServed | blog.go:410-431 | an existing category lists one link per entry of its list, between the live header and footer |

## Left out

- TLS, the listener and server setup (`main`, `createServerConfig`, `httpLogger`), and the JSON configuration: these are library plumbing.
- The call to `ipac.TestIpAllowed`: the admission-control library is not part of this model. `LogWrite` returns the IP it would pass.
- File-system access (`filepath.Walk`, `ioutil.ReadFile`, `os.Open`): the walk is a given sequence of `WalkEntry` values (path, error flag, bytes if read), the template is an `Option<string>`, and the openable static files are a set.
- The 1024-byte streaming loop for static files: a file response is `FileContents(path)`. That loop writes the whole buffer every time, padding with NUL bytes, and this is not modelled.
- Concurrency: the `updating_content` retry loop, the `sending_content` counter and the self-re-spawning `content_loop` are not modelled. `HandleRequest` models a request once no publish step runs, and `ContentCycle` models one cycle.
- `os.Exit(1)` on an unreadable template is the `Exited` outcome of a cycle. The log lines printed with `fmt.Println` are not modelled.
- Wall-clock time: `time.Now()` in `timeago` is the parameter `now` of `TimeAgo`.
- The `Content-Type` header set after `WriteHeader(404)` is ignored by `net/http`, so a 404 carries no Content-Type from the handler (`net/http` sniffs one from the body).
- Go strings are byte strings; the model uses `seq<char>`, which agrees on the ASCII separators and markers the code searches for.
- GoStrings.Split: only non-empty separators are modelled, the only kind the code uses.
- DotblogServer.Rebuild: the Go code (dotblog_server.go:262-263) first sets the header and footer entries to "" and then overwrites them; only the final values are modelled, as nothing reads the intermediate ones.
- LegacyBlog.Rebuild: as for `DotblogServer.Rebuild`, the code (blog.go:168-169) first sets the header and footer entries to ""; only the final values are modelled, as nothing reads the intermediate ones.
- DotblogServer.RecentCategories: the order of the category links is any order a map loop may take; no particular order is asserted, since Go does not fix one.
- LegacyBlog.CategoriesHtml: the category order is any map order, for the same reason.

=== FILE: blog.dfy ===
/**
 * The older server variant, `blog.go`: the same content pipeline as the
 * current one, with a simpler post parser and a different rebuild.
 *
 * Its post files have the same three blocks, but a block is three
 * non-comment lines, whatever they hold: the k-th non-comment line (from 0)
 * belongs to block k / 3. Block 0 holds header lines, block 1 the short HTML,
 * block 2 the full HTML; later lines are dropped. Lines are concatenated
 * without separators.
 */
module LegacyBlog {
  import opened GoStrings
  import opened GoSort
  import opened ContentStore
  import opened HttpCommon
  import opened IndexTemplate
  import opened PostFormat

  // ---------------------------------------------------------------------
  // The post parser

  const EntryOpen: string := "<div class=\"recent_posts_entry\"><h1><a href=\""
  const EntryClose: string := "</a></h1></div>"

  /** The recent-posts entry a title line adds to the short fragment. */
  function TitleEntry(path: string, title: string): string {
    EntryOpen + path + TagEnd + title + EntryClose
  }

  /** The parser's state: the number of non-comment lines read, the short
      and full fragments, and the pending maps it writes. */
  datatype Post = Post(
    count: nat,
    short: string,
    full: string,
    dates: map<string, Time>,
    cats: map<string, seq<string>>,
    titles: map<string, string>)

  function Init(dates: map<string, Time>, cats: map<string, seq<string>>, titles: map<string, string>): Post {
    Post(0, "", "", dates, cats, titles)
  }

  /** A header line: a date that parses is recorded, a categories line adds
      the post to each label, a title line records the title and adds the
      post's entry to the short fragment; anything else is dropped. */
  function Header(path: string, st: Post, line: string): Post {
    match Classify(line)
    case DateLine(value) =>
      (match ParseInt64(value)
       case Some(d) => st.(dates := st.dates[path := UnixTime(d)])
       case None => st)
    case CategoriesLine(list) => st.(cats := AddToCategories(st.cats, path, Split(list, ", ")))
    case TitleLine(title) => st.(titles := st.titles[path := title], short := st.short + TitleEntry(path, title))
    case OtherLine => st
  }

  /** One line of the file. */
  function Step(path: string, st: Post, line: string): Post {
    if IsComment(line) then st
    else
      var block := st.count / 3;
      var st1 :=
        if block == 0 then Header(path, st, line)
        else if block == 1 then st.(short := st.short + line)
        else if block == 2 then st.(full := st.full + line)
        else st;
      st1.(count := st.count + 1)
  }

  function ParseFrom(path: string, st: Post, lines: seq<string>): Post {
    if |lines| == 0 then st
    else Step(path, ParseFrom(path, st, lines[..|lines| - 1]), lines[|lines| - 1])
  }

  lemma ParseSnoc(path: string, st: Post, lines: seq<string>, line: string)
    ensures ParseFrom(path, st, lines + [line]) == Step(path, ParseFrom(path, st, lines), line)
  {
    assert (lines + [line])[..|lines|] == lines;
  }

  // ---------------------------------------------------------------------
  // The block rule

  /** Block `k` of the non-comment lines `ls`: lines 3k, 3k+1 and 3k+2. */
  function Block(ls: seq<string>, k: nat): seq<string> {
    ls[Min(3 * k, |ls|)..Min(3 * k + 3, |ls|)]
  }

  /** A new non-comment line joins the block its position gives. */
  lemma BlockSnoc(ls: seq<string>, line: string, k: nat)
    ensures Block(ls + [line], k) == Block(ls, k) + (if |ls| / 3 == k then [line] else [])
  {
    var n := |ls|;
    var ls' := ls + [line];
    if n / 3 == k {
      assert 3 * k <= n < 3 * k + 3;
      assert ls'[3 * k..n + 1] == ls[3 * k..n] + [line];
    } else if n / 3 < k {
      assert n < 3 * k;
    } else {
      assert 3 * k + 3 <= n;
      assert ls'[3 * k..3 * k + 3] == ls[3 * k..3 * k + 3];
    }
  }

  /** The header lines read one after the other. */
  function HeaderFold(path: string, st: Post, hs: seq<string>): Post {
    if |hs| == 0 then st
    else Header(path, HeaderFold(path, st, hs[..|hs| - 1]), hs[|hs| - 1])
  }

  lemma HeaderFoldSnoc(path: string, st: Post, hs: seq<string>, line: string)
    ensures HeaderFold(path, st, hs + [line]) == Header(path, HeaderFold(path, st, hs), line)
  {
    assert (hs + [line])[..|hs|] == hs;
  }

  /** The parser's state after the non-comment lines `ls`: the maps and the
      title entries come from the header block, the short fragment ends with
      block 1 and the full fragment is block 2, each concatenated. */
  ghost predicate Shaped(path: string, st0: Post, ls: seq<string>, st: Post) {
    var h := HeaderFold(path, st0, Block(ls, 0));
    st.count == |ls| &&
    st.dates == h.dates && st.cats == h.cats && st.titles == h.titles &&
    st.short == h.short + Terminated(Block(ls, 1), "") &&
    st.full == st0.full + Terminated(Block(ls, 2), "")
  }

  /** Header lines change neither the count nor the full fragment. */
  lemma HeaderKeeps(path: string, st: Post, hs: seq<string>)
    ensures HeaderFold(path, st, hs).count == st.count && HeaderFold(path, st, hs).full == st.full
  {
  }

  /** A header line reads and writes only the fragment and the maps. */
  lemma HeaderAgree(path: string, a: Post, b: Post, line: string)
    requires a.short == b.short && a.dates == b.dates && a.cats == b.cats && a.titles == b.titles
    ensures var a', b' := Header(path, a, line), Header(path, b, line);
      a'.short == b'.short && a'.dates == b'.dates && a'.cats == b'.cats && a'.titles == b'.titles &&
      a'.count == a.count && a'.full == a.full
  {
    match Classify(line)
    case DateLine(value) =>
    case CategoriesLine(list) =>
    case TitleLine(title) =>
    case OtherLine =>
  }

  /** A line of the header block. */
  lemma ShapedHeader(path: string, st0: Post, ls: seq<string>, st: Post, line: string)
    requires |ls| < 3 && Shaped(path, st0, ls, st)
    ensures Shaped(path, st0, ls + [line], Header(path, st, line).(count := st.count + 1))
  {
    BlockSnoc(ls, line, 0);
    var h := HeaderFold(path, st0, Block(ls, 0));
    HeaderFoldSnoc(path, st0, Block(ls, 0), line);
    var ls' := ls + [line];
    assert Block(ls, 1) == [] && Block(ls, 2) == [] && Block(ls', 1) == [] && Block(ls', 2) == [];
    HeaderKeeps(path, st0, Block(ls, 0));
    HeaderAgree(path, st, h, line);
    HeaderAgree(path, h, h, line);
  }

  /** A line of block 1 or 2. */
  lemma ShapedBody(path: string, st0: Post, ls: seq<string>, st: Post, line: string)
    requires 3 <= |ls| < 9 && Shaped(path, st0, ls, st)
    ensures Shaped(path, st0, ls + [line],
      if |ls| / 3 == 1 then st.(short := st.short + line, count := st.count + 1)
      else st.(full := st.full + line, count := st.count + 1))
  {
    var ls' := ls + [line];
    BlockSnoc(ls, line, 0);
    BlockSnoc(ls, line, 1);
    BlockSnoc(ls, line, 2);
    assert Block(ls', 0) == Block(ls, 0) by {
      assert Block(ls, 0) + [] == Block(ls, 0);
    }
    var h := HeaderFold(path, st0, Block(ls, 0));
    if |ls| / 3 == 1 {
      TerminatedSnoc(Block(ls, 1), line, "");
      ConcatAssoc(h.short, Terminated(Block(ls, 1), ""), line);
      assert Block(ls', 2) == Block(ls, 2) by {
        assert Block(ls, 2) + [] == Block(ls, 2);
      }
    } else {
      TerminatedSnoc(Block(ls, 2), line, "");
      ConcatAssoc(st0.full, Terminated(Block(ls, 2), ""), line);
      assert Block(ls', 1) == Block(ls, 1) by {
        assert Block(ls, 1) + [] == Block(ls, 1);
      }
    }
  }

  /** A line after the third block. */
  lemma ShapedLate(path: string, st0: Post, ls: seq<string>, st: Post, line: string)
    requires 9 <= |ls| && Shaped(path, st0, ls, st)
    ensures Shaped(path, st0, ls + [line], st.(count := st.count + 1))
  {
    var ls' := ls + [line];
    BlockSnoc(ls, line, 0);
    BlockSnoc(ls, line, 1);
    BlockSnoc(ls, line, 2);
    assert Block(ls', 0) == Block(ls, 0) && Block(ls', 1) == Block(ls, 1) && Block(ls', 2) == Block(ls, 2) by {
      assert Block(ls, 0) + [] == Block(ls, 0);
      assert Block(ls, 1) + [] == Block(ls, 1);
      assert Block(ls, 2) + [] == Block(ls, 2);
    }
  }

  lemma ShapedStep(path: string, st0: Post, ls: seq<string>, st: Post, line: string)
    requires !IsComment(line) && Shaped(path, st0, ls, st)
    ensures Shaped(path, st0, ls + [line], Step(path, st, line))
  {
    if |ls| < 3 {
      ShapedHeader(path, st0, ls, st, line);
    } else if |ls| < 9 {
      ShapedBody(path, st0, ls, st, line);
    } else {
      ShapedLate(path, st0, ls, st, line);
    }
  }

  /** The block rule: reading a file from the initial state gives the state
      `Shaped` describes for its non-comment lines. */
  lemma {:induction false} ParseShape(path: string, st0: Post, lines: seq<string>)
    requires st0.count == 0
    ensures Shaped(path, st0, NonComment(lines), ParseFrom(path, st0, lines))
  {
    if |lines| == 0 {
      assert Block([], 0) == [] && Block([], 1) == [] && Block([], 2) == [];
    } else {
      var init := lines[..|lines| - 1];
      var line := lines[|lines| - 1];
      ParseShape(path, st0, init);
      assert lines == init + [line];
      if !IsComment(line) {
        assert NonComment(lines) == NonComment(init) + [line];
        ShapedStep(path, st0, NonComment(init), ParseFrom(path, st0, init), line);
      } else {
        assert NonComment(lines) == NonComment(init) + [];
        assert NonComment(init) + [] == NonComment(init);
      }
    }
  }

  /** Once nine non-comment lines are read, the rest of the file changes
      nothing but the line count. */
  lemma LaterLinesDropped(path: string, st0: Post, a: seq<string>, b: seq<string>)
    requires st0.count == 0 && |NonComment(a)| >= 9
    ensures ParseFrom(path, st0, a + b).(count := 0) == ParseFrom(path, st0, a).(count := 0)
  {
    ParseShape(path, st0, a);
    ParseShape(path, st0, a + b);
    NonCommentAppend(a, b);
    var ls, ls' := NonComment(a), NonComment(a + b);
    assert ls' == ls + NonComment(b);
    assert Block(ls', 0) == Block(ls, 0);
    assert Block(ls', 1) == Block(ls, 1);
    assert Block(ls', 2) == Block(ls, 2);
  }

  // ---------------------------------------------------------------------
  // parse_post

  /** A header line as the loop body reads it. */
  method ReadHeaderLine(path: string, st: Post, line: string) returns (st': Post)
    ensures st' == Header(path, st, line)
  {
    st' := st;
    if Index(line, "date: ") == 0 {
      var date := ParseInt64(TrimPrefix(line, "date: "));
      if date.Some? {
        st' := st'.(dates := st'.dates[path := UnixTime(date.value)]);
      }
    } else if Index(line, "categories: ") == 0 {
      var labels := Split(TrimPrefix(line, "categories: "), ", ");
      var cats := FileUnder(st'.cats, path, labels);
      st' := st'.(cats := cats);
    } else if Index(line, "title: ") == 0 {
      var title := TrimPrefix(line, "title: ");
      st' := st'.(titles := st'.titles[path := title], short := st'.short + TitleEntry(path, title));
    }
  }

  /** The body of the parse loop; `newlines` and `block` are the two
      counters of the source, `count % 3` and `count / 3`. */
  method ParseLine(path: string, st: Post, newlines: int, block: int, line: string)
    returns (st': Post, newlines': int, block': int)
    requires newlines == st.count % 3 && block == st.count / 3
    ensures st' == Step(path, st, line)
    ensures newlines' == st'.count % 3 && block' == st'.count / 3
  {
    st', newlines', block' := st, newlines, block;
    if Index(line, "//") != 0 {
      if block == 0 {
        st' := ReadHeaderLine(path, st, line);
      } else if block == 1 {
        st' := st'.(short := st'.short + line);
      } else if block == 2 {
        st' := st'.(full := st'.full + line);
      }
      newlines' := newlines' + 1;
      if newlines' == 3 {
        block' := block' + 1;
        newlines' := 0;
      }
      st' := st'.(count := st.count + 1);
    }
  }

  /** The parse loop over the lines of a file. */
  method ParseLines(path: string, st0: Post, lines: seq<string>) returns (st: Post)
    requires st0.count == 0
    ensures st == ParseFrom(path, st0, lines)
  {
    st := st0;
    var newlines, block := 0, 0;
    var l := 0;
    while l < |lines|
      invariant 0 <= l <= |lines|
      invariant st == ParseFrom(path, st0, lines[..l])
      invariant newlines == st.count % 3 && block == st.count / 3
    {
      assert lines[..l + 1] == lines[..l] + [lines[l]];
      ParseSnoc(path, st0, lines[..l], lines[l]);
      st, newlines, block := ParseLine(path, st, newlines, block, lines[l]);
      l := l + 1;
    }
    assert lines[..l] == lines;
  }

  /** `parse_post`: reads the lines of `p` and records the post's date,
      categories and title in the pending maps, its short fragment in
      `short_posts` and its full fragment in the pending content under
      "url:/" + path. */
  method ParsePost(store: Store, path: string, p: string)
    modifies store`newPostsByDate, store`newCategories, store`newTitles, store`shortPosts, store`newContent
    ensures var st := ParseFrom(path, Init(old(store.newPostsByDate), old(store.newCategories), old(store.newTitles)),
                                Split(p, "\n"));
      store.newPostsByDate == st.dates &&
      store.newCategories == st.cats &&
      store.newTitles == st.titles &&
      store.shortPosts == old(store.shortPosts)[path := st.short] &&
      store.newContent == old(store.newContent)["url:/" + path := st.full]
  {
    var st := ParseLines(path, Init(store.newPostsByDate, store.newCategories, store.newTitles), Split(p, "\n"));
    store.newPostsByDate := st.dates;
    store.newCategories := st.cats;
    store.newTitles := st.titles;
    store.shortPosts := store.shortPosts[path := st.short];
    store.newContent := store.newContent["url:/" + path := st.full];
  }

  // ---------------------------------------------------------------------
  // The walk

  /** Whether the walk stops at an entry: the walk reported an error, or a
      path other than the root is not a ".blog" file. */
  predicate Stops(e: WalkEntry) {
    e.err || (e.path != "posts" && !IsBlogPath(e.path))
  }

  /** The entries the walk visits: up to the first one it stops at. */
  function WalkLength(entries: seq<WalkEntry>): (n: nat)
    ensures n <= |entries|
    ensures forall i :: 0 <= i < n ==> !Stops(entries[i])
    ensures n < |entries| ==> Stops(entries[n])
  {
    if |entries| == 0 || Stops(entries[0]) then 0 else 1 + WalkLength(entries[1..])
  }

  /** Whether the callback parses an entry it does not stop at: a file other
      than the root, read without error, whose bytes differ from the live
      value under "url:/posts/" + path. */
  predicate Reparse(content: map<string, string>, e: WalkEntry) {
    e.path != "posts" && IsBlogPath(e.path) && e.file.Some? && Get(content, "url:/posts/" + e.path, "") != e.file.value
  }

  /** The paths parsed among `entries`, in walk order. */
  function Reparsed(content: map<string, string>, entries: seq<WalkEntry>): seq<string> {
    if |entries| == 0 then []
    else
      var e := entries[|entries| - 1];
      Reparsed(content, entries[..|entries| - 1]) + (if Reparse(content, e) then [e.path] else [])
  }

  /** Only ".blog" paths other than the root are ever parsed, and each one
      is a readable entry whose bytes differ from what is stored under
      `"url:/posts/" + path`. */
  lemma {:induction false} ReparsedAreBlogFiles(content: map<string, string>, entries: seq<WalkEntry>)
    ensures forall p :: p in Reparsed(content, entries) ==> p != "posts" && IsBlogPath(p)
    ensures forall p :: p in Reparsed(content, entries) ==>
      exists e :: e in entries && e.path == p && e.file.Some? && Get(content, "url:/posts/" + p, "") != e.file.value
  {
    if |entries| > 0 {
      var init := entries[..|entries| - 1];
      ReparsedAreBlogFiles(content, init);
      forall p | p in Reparsed(content, entries)
        ensures exists e :: e in entries && e.path == p && e.file.Some? && Get(content, "url:/posts/" + p, "") != e.file.value
      {
        if p in Reparsed(content, init) {
          var e :| e in init && e.path == p && e.file.Some? && Get(content, "url:/posts/" + p, "") != e.file.value;
          assert e in entries;
        } else {
          assert entries[|entries| - 1] in entries;
        }
      }
    }
  }

  /** The walk's paths already begin with "posts/", so the key a file is
      compared under is the key a parse stores only for the file at
      "posts/" + path: a post is compared with the full page of another
      file, never with its own. */
  lemma ComparedKeyIsAnotherFiles(p: string, q: string)
    ensures "url:/posts/" + p == "url:/" + q <==> q == "posts/" + p
  {
    if "url:/posts/" + p == "url:/" + q {
      assert ("url:/" + q)[5..] == q;
      assert ("url:/posts/" + p)[5..] == "posts/" + p;
    }
  }

  /** The pending maps after `parse_post(path, file)`. */
  function ParsedInto(s: Pending, path: string, file: string): Pending {
    var st := ParseFrom(path, Init(s.dates, s.cats, s.titles), Split(file, "\n"));
    Pending(st.dates, st.cats, st.titles, s.shorts[path := st.short], s.content["url:/" + path := st.full])
  }

  /** The pending maps after the walk over `entries`: the selected entries
      parsed one after the other in walk order. */
  function Walked(s: Pending, content: map<string, string>, entries: seq<WalkEntry>): Pending
    decreases |entries|
  {
    if |entries| == 0 then s
    else
      var e := entries[|entries| - 1];
      var before := Walked(s, content, entries[..|entries| - 1]);
      if Reparse(content, e) then ParsedInto(before, e.path, e.file.value) else before
  }

  /** The walk after its first `i` entries: `parsed` are the paths parsed
      and `cur` the pending maps. */
  ghost predicate WalkedSoFar(start: Pending, content: map<string, string>, entries: seq<WalkEntry>, i: int,
                              parsed: seq<string>, cur: Pending)
  {
    0 <= i <= |entries| && parsed == Reparsed(content, entries[..i]) && cur == Walked(start, content, entries[..i])
  }

  /** One more entry of the walk: a selected entry is parsed into the
      pending maps, any other leaves them as they are. */
  lemma WalkNext(start: Pending, content: map<string, string>, entries: seq<WalkEntry>, i: int,
                 parsed: seq<string>, cur: Pending, next: Pending)
    requires i < |entries| && WalkedSoFar(start, content, entries, i, parsed, cur)
    requires var e := entries[i];
      next == if Reparse(content, e) then ParsedInto(cur, e.path, e.file.value) else cur
    ensures var e := entries[i];
      WalkedSoFar(start, content, entries, i + 1, parsed + (if Reparse(content, e) then [e.path] else []), next)
  {
    var pre := entries[..i + 1];
    assert pre[..|pre| - 1] == entries[..i] && pre[|pre| - 1] == entries[i];
  }

  /** The callback for one entry it does not stop at: parses it when
      `Reparse` selects it. */
  method VisitEntry(store: Store, e: WalkEntry) returns (parsed: bool)
    requires !Stops(e)
    modifies store`newPostsByDate, store`newCategories, store`newTitles, store`shortPosts, store`newContent
    ensures parsed == Reparse(store.content, e)
    ensures parsed ==> store.PendingMaps() == ParsedInto(old(store.PendingMaps()), e.path, e.file.value)
    ensures !parsed ==> unchanged(store`newPostsByDate, store`newCategories, store`newTitles, store`shortPosts, store`newContent)
  {
    parsed := false;
    if e.path != "posts" {
      if e.file.Some? && Get(store.content, "url:/posts/" + e.path, "") != e.file.value {
        ParsePost(store, e.path, e.file.value);
        parsed := true;
      }
    }
  }


  /** The walk over the post files: parses each entry `Reparse` selects, in
      walk order, and stops at the first entry with an error or a path that
      is not a ".blog" file. */
  method Walk(store: Store, entries: seq<WalkEntry>) returns (update: bool, ghost parsed: seq<string>)
    modifies store`newPostsByDate, store`newCategories, store`newTitles, store`shortPosts, store`newContent
    ensures parsed == Reparsed(store.content, entries[..WalkLength(entries)])
    ensures update <==> |parsed| > 0
    ensures store.PendingMaps() == Walked(old(store.PendingMaps()), store.content, entries[..WalkLength(entries)])
    ensures !update ==> unchanged(store`newPostsByDate, store`newCategories, store`newTitles, store`shortPosts, store`newContent)
  {
    update, parsed := false, [];
    ghost var n := WalkLength(entries);
    ghost var start := store.PendingMaps();
    var i := 0;
    while i < |entries|
      invariant i <= n
      invariant WalkedSoFar(start, store.content, entries, i, parsed, store.PendingMaps())
      invariant update <==> |parsed| > 0
      invariant !update ==> store.PendingMaps() == start
    {
      var e := entries[i];
      if e.err {
        break;
      }
      if e.path != "posts" && Index(e.path, ".blog") != |e.path| - 5 {
        break;
      }
      ghost var cur := store.PendingMaps();
      var p := VisitEntry(store, e);
      WalkNext(start, store.content, entries, i, parsed, cur, store.PendingMaps());
      if p {
        update := true;
        parsed := parsed + [e.path];
      }
      i := i + 1;
    }
    assert entries[..i] == entries[..n];
  }

  // ---------------------------------------------------------------------
  // The snapshot

  /** The category list of a rebuild: every pending category once, in the
      order the loop over the map visits them. */
  method CategoriesHtml(cats: map<string, seq<string>>) returns (html: string, ghost order: seq<string>)
    ensures Enumerates(order, cats.Keys)
    ensures html == CategoriesEntries(order)
  {
    html, order := "", [];
    var rest := cats.Keys;
    while rest != {}
      invariant rest <= cats.Keys
      invariant Distinct(order)
      invariant forall c :: c in order ==> c in cats && c !in rest
      invariant forall c :: c in cats && c !in rest ==> c in order
      invariant html == CategoriesEntries(order)
      decreases |rest|
    {
      var c :| c in rest;
      CategoriesEntriesNext(order + [c], |order|);
      assert (order + [c])[..|order|] == order && (order + [c])[..|order| + 1] == order + [c];
      html := html + CategoriesEntry(c);
      order := order + [c];
      rest := rest - {c};
    }
  }

  /** `n` zero stamps: the slice of length `n` the stamps are appended to. */
  function Zeros(n: nat): (r: seq<int>)
    ensures |r| == n && forall i :: 0 <= i < n ==> r[i] == 0
  {
    seq(n, i => 0)
  }

  const ListEntryClass: string := "\" class=\"list_all_posts_entry\">"

  /** An entry of the list of all posts. */
  function ListEntry(path: string, title: string): string {
    RootLinkOpen + path + ListEntryClass + title + LinkClose
  }

  /** The list entries of `paths`; a path without a title adds nothing. */
  function ListOf(titles: map<string, string>, paths: seq<string>): string {
    if |paths| == 0 then ""
    else
      var p := paths[|paths| - 1];
      ListOf(titles, paths[..|paths| - 1]) + (if p in titles then ListEntry(p, titles[p]) else "")
  }

  /** How the stamp loop found its posts: for each sorted stamp, a post
      with that stamp, or none when no post has it. */
  ghost predicate Matched(dates: map<string, Time>, sorted: seq<int>, found: seq<Option<string>>) {
    |found| == |sorted| &&
    forall i :: 0 <= i < |found| ==>
      (found[i].Some? ==> found[i].value in dates && Unix(dates[found[i].value]) == sorted[i]) &&
      (found[i].None? ==> forall k :: k in dates ==> Unix(dates[k]) != sorted[i])
  }

  /** The posts found, in stamp order. */
  function Present(found: seq<Option<string>>): seq<string> {
    if |found| == 0 then []
    else
      var d := found[|found| - 1];
      Present(found[..|found| - 1]) + (if d.Some? then [d.value] else [])
  }

  lemma PresentSnoc(found: seq<Option<string>>, d: Option<string>)
    ensures Present(found + [d]) == Present(found) + (if d.Some? then [d.value] else [])
  {
    assert (found + [d])[..|found|] == found;
  }

  lemma ListOfSnoc(titles: map<string, string>, paths: seq<string>, path: string)
    ensures ListOf(titles, paths + [path]) ==
      ListOf(titles, paths) + (if path in titles then ListEntry(path, titles[path]) else "")
  {
    assert (paths + [path])[..|paths|] == paths;
  }

  /** One more stamp adds the found post's entries, or nothing. */
  lemma ListStep(shortPosts: map<string, string>, titles: map<string, string>, found: seq<Option<string>>, d: Option<string>)
    ensures ShortsOf(shortPosts, Present(found + [d])) ==
      ShortsOf(shortPosts, Present(found)) + (if d.Some? then Get(shortPosts, d.value, "") else "")
    ensures ListOf(titles, Present(found + [d])) ==
      ListOf(titles, Present(found)) + (if d.Some? && d.value in titles then ListEntry(d.value, titles[d.value]) else "")
  {
    PresentSnoc(found, d);
    if d.Some? {
      ShortsOfSnoc(shortPosts, Present(found), d.value);
      ListOfSnoc(titles, Present(found), d.value);
    } else {
      assert Present(found) + [] == Present(found);
    }
  }

  lemma MatchedSnoc(dates: map<string, Time>, sorted: seq<int>, found: seq<Option<string>>, ts: int, d: Option<string>)
    requires Matched(dates, sorted, found)
    requires d.Some? ==> d.value in dates && Unix(dates[d.value]) == ts
    requires d.None? ==> forall k :: k in dates ==> Unix(dates[k]) != ts
    ensures Matched(dates, sorted + [ts], found + [d])
  {
  }

  /** The stamp loop of a rebuild: for each sorted stamp, the first post in
      map order with that stamp adds its recent-posts entry and its list
      entry. */
  method ListPosts(dates: map<string, Time>, sorted: seq<int>, shortPosts: map<string, string>, titles: map<string, string>)
    returns (recentHtml: string, listHtml: string, ghost found: seq<Option<string>>)
    ensures Matched(dates, sorted, found)
    ensures recentHtml == ShortsOf(shortPosts, Present(found))
    ensures listHtml == ListOf(titles, Present(found))
  {
    recentHtml, listHtml, found := "", "", [];
    var k := 0;
    while k < |sorted|
      invariant 0 <= k <= |sorted|
      invariant Matched(dates, sorted[..k], found)
      invariant recentHtml == ShortsOf(shortPosts, Present(found))
      invariant listHtml == ListOf(titles, Present(found))
    {
      var d := FindByStamp(dates, sorted[k]);
      ListStep(shortPosts, titles, found, d);
      if d.Some? {
        var has := HasKey(shortPosts, d.value);
        if has {
          recentHtml := recentHtml + shortPosts[d.value];
        }
        var titled := HasKey(titles, d.value);
        if titled {
          listHtml := listHtml + ListEntry(d.value, titles[d.value]);
        }
      }
      assert sorted[..k + 1] == sorted[..k] + [sorted[k]];
      MatchedSnoc(dates, sorted[..k], found, sorted[k], d);
      found := found + [d];
      k := k + 1;
    }
    assert sorted[..k] == sorted;
  }

  /** Where the posts of `Present(found)` were found. */
  lemma {:induction false} PresentAt(found: seq<Option<string>>) returns (pos: seq<int>)
    ensures |pos| == |Present(found)|
    ensures forall i :: 0 <= i < |pos| ==> 0 <= pos[i] < |found| && found[pos[i]] == Some(Present(found)[i])
    ensures forall i, j :: 0 <= i < j < |pos| ==> pos[i] < pos[j]
    ensures forall p :: 0 <= p < |found| && found[p].Some? ==> found[p].value in Present(found)
  {
    if |found| == 0 {
      pos := [];
    } else {
      var init := found[..|found| - 1];
      var last := found[|found| - 1];
      var pos0 := PresentAt(init);
      assert found == init + [last];
      var tail := if last.Some? then [last.value] else [];
      var ps := Present(found);
      assert ps == Present(init) + tail by {
        PresentSnoc(init, last);
      }
      pos := pos0 + (if last.Some? then [|found| - 1] else []);
      forall i | 0 <= i < |pos| ensures 0 <= pos[i] < |found| && found[pos[i]] == Some(ps[i]) {
        if i < |pos0| {
          assert pos[i] == pos0[i] && ps[i] == Present(init)[i];
        }
      }
      forall p | 0 <= p < |found| && found[p].Some? ensures found[p].value in ps {
        if p < |init| {
          assert found[p] == init[p];
        }
      }
    }
  }

  /** With distinct, non-zero stamps every dated post is listed exactly
      once, oldest first, and posts without a date never are. */
  lemma OldestFirst(dates: map<string, Time>, keys: seq<string>, sorted: seq<int>, found: seq<Option<string>>)
    requires Enumerates(keys, dates.Keys)
    requires SortedBy(sorted, IntLe) && multiset(sorted) == multiset(Zeros(|dates|) + Stamps(dates, keys))
    requires Matched(dates, sorted, found)
    requires forall a, b :: a in dates && b in dates && a != b ==> Unix(dates[a]) != Unix(dates[b])
    requires forall a :: a in dates ==> Unix(dates[a]) != 0
    ensures Enumerates(Present(found), dates.Keys)
    ensures forall i, j :: 0 <= i < j < |Present(found)| ==>
      Unix(dates[Present(found)[i]]) < Unix(dates[Present(found)[j]])
  {
    var ps := Present(found);
    var pos := PresentAt(found);
    forall i, j | 0 <= i < j < |ps| ensures Unix(dates[ps[i]]) < Unix(dates[ps[j]]) {
      NonZeroStampOnce(dates, keys, sorted, sorted[pos[i]]);
      if sorted[pos[i]] == sorted[pos[j]] {
        CountTwice(sorted, pos[i], pos[j]);
      }
    }
    DatedPostsListed(dates, keys, sorted, found);
  }

  /** Every post whose stamp no other post shares is found. */
  lemma DatedPostsListed(dates: map<string, Time>, keys: seq<string>, sorted: seq<int>, found: seq<Option<string>>)
    requires Enumerates(keys, dates.Keys)
    requires multiset(sorted) == multiset(Zeros(|dates|) + Stamps(dates, keys))
    requires Matched(dates, sorted, found)
    requires forall a, b :: a in dates && b in dates && a != b ==> Unix(dates[a]) != Unix(dates[b])
    ensures forall k :: k in dates ==> k in Present(found)
  {
    var pos := PresentAt(found);
    var all := Stamps(dates, keys);
    var zs := Zeros(|dates|);
    forall k | k in dates ensures k in Present(found) {
      var j :| 0 <= j < |keys| && keys[j] == k;
      assert all[j] in multiset(zs + all);
      assert all[j] in sorted;
      var p :| 0 <= p < |sorted| && sorted[p] == all[j];
      assert found[p].Some?;
    }
  }

  /** A non-zero stamp occurs in the sorted stamps at most once when no two
      posts share a stamp. */
  lemma NonZeroStampOnce(dates: map<string, Time>, keys: seq<string>, sorted: seq<int>, v: int)
    requires Enumerates(keys, dates.Keys)
    requires multiset(sorted) == multiset(Zeros(|dates|) + Stamps(dates, keys))
    requires forall a, b :: a in dates && b in dates && a != b ==> Unix(dates[a]) != Unix(dates[b])
    requires v != 0
    ensures multiset(sorted)[v] <= 1
  {
    var all := Stamps(dates, keys);
    var zs := Zeros(|dates|);
    assert Distinct(all) by {
      forall i, j | 0 <= i < j < |all| ensures all[i] != all[j] {
        assert keys[i] != keys[j];
      }
    }
    DistinctCounts(all);
    assert multiset(zs + all)[v] == multiset(zs)[v] + multiset(all)[v];
    assert v !in zs;
  }

  /** The zero padding holds `n` zeros. */
  lemma {:induction false} ZerosCount(n: nat)
    ensures multiset(Zeros(n))[0] == n
  {
    if n > 0 {
      assert Zeros(n) == Zeros(n - 1) + [0];
      ZerosCount(n - 1);
    }
  }

  /** When `p` is the only post dated 0, its stamp is the only zero among
      the stamps of distinct keys. */
  lemma {:induction false} ZeroStampCount(dates: map<string, Time>, keys: seq<string>, p: string)
    requires Distinct(keys) && forall k :: k in keys ==> k in dates
    requires p in dates && Unix(dates[p]) == 0
    requires forall k :: k in dates && Unix(dates[k]) == 0 ==> k == p
    ensures multiset(Stamps(dates, keys))[0] == if p in keys then 1 else 0
  {
    if |keys| > 0 {
      var init := keys[..|keys| - 1];
      var last := keys[|keys| - 1];
      assert keys == init + [last];
      assert Distinct(init);
      assert Stamps(dates, keys) == Stamps(dates, init) + [Unix(dates[last])];
      ZeroStampCount(dates, init, p);
      assert last == p ==> p !in init;
    }
  }

  /** Every zero stamp finds `p` when `p` is the only post dated 0, and no
      other stamp does, so `p` is listed once per zero. */
  lemma {:induction false} PresentZeroCount(dates: map<string, Time>, sorted: seq<int>, found: seq<Option<string>>, p: string)
    requires Matched(dates, sorted, found)
    requires p in dates && Unix(dates[p]) == 0
    requires forall k :: k in dates && Unix(dates[k]) == 0 ==> k == p
    ensures multiset(Present(found))[p] == multiset(sorted)[0]
  {
    if |found| > 0 {
      var n := |found| - 1;
      assert sorted == sorted[..n] + [sorted[n]];
      assert Matched(dates, sorted[..n], found[..n]);
      PresentZeroCount(dates, sorted[..n], found[..n], p);
      if sorted[n] == 0 {
        assert found[n] == Some(p);
      } else {
        assert found[n] != Some(p);
      }
    }
  }

  /** A post dated at the Unix epoch shares its stamp with the zero padding
      of the stamp list: when it is the only post dated 0, it is listed
      once for its own stamp and once more for every dated post. */
  lemma EpochPostListedPerPost(dates: map<string, Time>, keys: seq<string>, sorted: seq<int>,
                               found: seq<Option<string>>, p: string)
    requires Enumerates(keys, dates.Keys)
    requires multiset(sorted) == multiset(Zeros(|dates|) + Stamps(dates, keys)) && Matched(dates, sorted, found)
    requires p in dates && Unix(dates[p]) == 0
    requires forall k :: k in dates && Unix(dates[k]) == 0 ==> k == p
    ensures multiset(Present(found))[p] == |dates| + 1
  {
    ZerosCount(|dates|);
    ZeroStampCount(dates, keys, p);
    PresentZeroCount(dates, sorted, found, p);
  }

  /** The smallest case: the only post of a site, dated 0, is listed twice. */
  lemma EpochPostListedTwice(p: string, sorted: seq<int>, found: seq<Option<string>>)
    requires var dates := map[p := UnixTime(0)];
      multiset(sorted) == multiset(Zeros(1) + Stamps(dates, [p])) && Matched(dates, sorted, found)
    ensures Present(found) == [p, p]
  {
    var dates := map[p := UnixTime(0)];
    assert Zeros(1) + Stamps(dates, [p]) == [0, 0];
    assert |sorted| == |multiset(sorted)| == 2;
    assert sorted[0] in multiset(sorted) && sorted[1] in multiset(sorted);
    assert found[0] == Some(p) && found[1] == Some(p);
    assert found == [Some(p)] + [Some(p)] && [Some(p)] == [] + [Some(p)];
    PresentSnoc([], Some(p));
    PresentSnoc([Some(p)], Some(p));
  }

  // ---------------------------------------------------------------------
  // The template

  /** The marker lines of `main/index.html`; template lines are joined with
      nothing between them. */
  const LegacyMarks: Markers := Markers(
    "<!-- ######categories###### -->",
    "<!-- ######recent_posts###### -->",
    "<!-- ######list_all_posts###### -->",
    "")

  /** The fragments of a rebuild, in terms of the category order and the
      posts found. */
  function SnapshotFragments(order: seq<string>, listed: seq<string>,
                             shortPosts: map<string, string>, titles: map<string, string>): Fragments {
    Fragments(CategoriesEntries(order), ShortsOf(shortPosts, listed), ListOf(titles, listed))
  }

  /** What a rebuild produces: the categories in some map order, the posts
      found for the sorted stamps (padded with one zero per dated post),
      and the index page, header and footer the template gives with those
      fragments. */
  ghost predicate Snapshotted(categories: map<string, seq<string>>, dates: map<string, Time>,
                              shortPosts: map<string, string>, titles: map<string, string>, index: string,
                              order: seq<string>, keys: seq<string>, sorted: seq<int>, found: seq<Option<string>>,
                              page: string, header: string, footer: string)
  {
    Enumerates(order, categories.Keys) && Enumerates(keys, dates.Keys) &&
    SortedBy(sorted, IntLe) && multiset(sorted) == multiset(Zeros(|dates|) + Stamps(dates, keys)) &&
    Matched(dates, sorted, found) &&
    var f := SnapshotFragments(order, Present(found), shortPosts, titles);
    var lines := Split(index, "\n");
    page == Terminated(RenderLines(LegacyMarks, f, lines), "") &&
    header == Fill(LegacyMarks, f, RawHeader(LegacyMarks, lines)) &&
    footer == Fill(LegacyMarks, f, RawFooter(LegacyMarks, lines))
  }

  /** The fragments and the template split of a rebuild. */
  method Snapshot(categories: map<string, seq<string>>, dates: map<string, Time>,
                  shortPosts: map<string, string>, titles: map<string, string>, index: string)
    returns (page: string, header: string, footer: string,
             ghost order: seq<string>, ghost keys: seq<string>, ghost sorted: seq<int>, ghost found: seq<Option<string>>)
    ensures Snapshotted(categories, dates, shortPosts, titles, index, order, keys, sorted, found, page, header, footer)
  {
    var categoriesHtml;
    categoriesHtml, order := CategoriesHtml(categories);
    var stamps;
    stamps, keys := CollectStamps(dates);
    var sr := SortInts(Zeros(|dates|) + stamps);
    sorted := sr;
    var recentHtml, listHtml;
    recentHtml, listHtml, found := ListPosts(dates, sr, shortPosts, titles);
    assert Fragments(categoriesHtml, recentHtml, listHtml) == SnapshotFragments(order, Present(found), shortPosts, titles);
    page, header, footer := SplitTemplate(LegacyMarks, Fragments(categoriesHtml, recentHtml, listHtml), index);
  }

  /** The rebuild of `content_loop`, stored as the pending index page,
      header and footer. */
  method Rebuild(store: Store, index: string)
    returns (page: string, header: string, footer: string,
             ghost order: seq<string>, ghost keys: seq<string>, ghost sorted: seq<int>, ghost found: seq<Option<string>>)
    modifies store`newContent
    ensures var w := old(store.PendingMaps());
      Snapshotted(w.cats, w.dates, w.shorts, w.titles, index, order, keys, sorted, found, page, header, footer)
    ensures store.newContent == old(store.newContent)["url:/" := page]["header" := header]["footer" := footer]
  {
    var categories, dates, shortPosts, titles := store.newCategories, store.newPostsByDate, store.shortPosts, store.newTitles;
    page, header, footer, order, keys, sorted, found := Snapshot(categories, dates, shortPosts, titles, index);
    // The header and footer entries are cleared first and then overwritten;
    // nothing reads them in between, so only the final values are written.
    store.StoreIndex(page, header, footer);
  }

  lemma {:induction false} TerminatedLength(parts: seq<string>, term: string)
    ensures |Terminated(parts, term)| == |Terminated(parts, "")| + |parts| * |term|
  {
    if |parts| > 0 {
      TerminatedLength(parts[1..], term);
    }
  }

  /** The index page drops the template's line breaks: a template without
      marker lines that holds a "\n" gives a shorter page, so it never
      equals the live page and every cycle rebuilds. */
  lemma PlainTemplateRebuilds(f: Fragments, index: string)
    requires var lines := Split(index, "\n");
      LegacyMarks.categories !in lines && LegacyMarks.posts !in lines && LegacyMarks.titles !in lines
    requires Contains(index, "\n")
    ensures |Terminated(RenderLines(LegacyMarks, f, Split(index, "\n")), "")| < |index|
  {
    var lines := Split(index, "\n");
    PlainTemplate(LegacyMarks, f, index);
    assert LegacyMarks.eol == "";
    assert Terminated(RenderLines(LegacyMarks, f, lines), "") == Terminated(lines, "");
    TerminatedOfSplit(index, "\n");
    TerminatedLength(lines, "\n");
    assert |lines| >= 2;
    assert |lines| * |"\n"| == |lines|;
    assert |Terminated(lines, "")| + |lines| == |index| + 1;
  }

  // ---------------------------------------------------------------------
  // The content cycle

  /** The state after a rebuild and publish from the pending maps `w`: the
      rebuild is the snapshot of `w` and the template `index`; every pending
      map and `short_posts` is drained; each live map holds exactly the
      non-empty entries of its pending map, the pending pages including the
      index page, header and footer. */
  ghost predicate PublishedState(store: Store, w: Pending, index: string,
                                 order: seq<string>, keys: seq<string>, sorted: seq<int>, found: seq<Option<string>>,
                                 page: string, header: string, footer: string)
    reads store
  {
    Snapshotted(w.cats, w.dates, w.shorts, w.titles, index, order, keys, sorted, found, page, header, footer) &&
    !store.updatingContent &&
    store.newContent == map[] && store.newCategories == map[] && store.newPostsByDate == map[] &&
    store.newTitles == map[] && store.shortPosts == map[] &&
    store.categories == NonEmpty(w.cats, []) &&
    store.postsByDate == NonEmpty(w.dates, ZeroTime) &&
    store.titles == NonEmpty(w.titles, "") &&
    store.content == NonEmpty(w.content["url:/" := page]["header" := header]["footer" := footer], "")
  }

  /** The pages a publish step makes live: the index page, header and
      footer, and the pending page of every parsed post. */
  lemma PublishedPages(pending: map<string, string>, page: string, header: string, footer: string, parsed: seq<string>)
    requires forall p :: p in parsed ==> |p| > 0
    ensures var live := NonEmpty(pending["url:/" := page]["header" := header]["footer" := footer], "");
      Get(live, "url:/", "") == page && Get(live, "header", "") == header && Get(live, "footer", "") == footer &&
      forall p :: p in parsed ==> Get(live, "url:/" + p, "") == Get(pending, "url:/" + p, "")
  {
    var m := pending["url:/" := page]["header" := header]["footer" := footer];
    EntryKeysDistinct("posts");
    ThreeUpdates(pending, "url:/", "header", "footer", page, header, footer, "");
    GetNonEmpty(m, "url:/", "");
    GetNonEmpty(m, "header", "");
    GetNonEmpty(m, "footer", "");
    forall p | p in parsed ensures Get(NonEmpty(m, ""), "url:/" + p, "") == Get(pending, "url:/" + p, "") {
      EntryKeysDistinct(p);
      GetNonEmpty(m, "url:/" + p, "");
    }
  }

  /** The rebuild and the publish step of a cycle. */
  method RebuildAndPublish(store: Store, index: string)
    returns (ghost page: string, ghost header: string, ghost footer: string,
             ghost order: seq<string>, ghost keys: seq<string>, ghost sorted: seq<int>, ghost found: seq<Option<string>>)
    modifies store
    ensures PublishedState(store, old(store.PendingMaps()), index, order, keys, sorted, found, page, header, footer)
  {
    ghost var w := store.PendingMaps();
    page, header, footer, order, keys, sorted, found := Rebuild(store, index);
    assert store.newContent == w.content["url:/" := page]["header" := header]["footer" := footer];
    store.Publish();
  }

  /** One cycle of `content_loop`: the walk, the template read (`None` when
      it fails), the rebuild when the template differs from the live index
      page or a post was parsed, and the publish step after a rebuild. */
  method ContentCycle(store: Store, entries: seq<WalkEntry>, index: Option<string>)
    returns (r: Cycle, ghost parsed: seq<string>, ghost walked: Pending,
             ghost page: string, ghost header: string, ghost footer: string,
             ghost order: seq<string>, ghost keys: seq<string>, ghost sorted: seq<int>, ghost found: seq<Option<string>>)
    modifies store
    ensures parsed == Reparsed(old(store.content), entries[..WalkLength(entries)])
    ensures walked == Walked(old(store.PendingMaps()), old(store.content), entries[..WalkLength(entries)])
    ensures r == Exited <==> index.None?
    ensures index.Some? ==>
      (r == Published <==> index.value != Get(old(store.content), "url:/", "") || |parsed| > 0)
    ensures r == Kept ==> unchanged(store)
    ensures r != Published ==> store.PendingMaps() == walked
    ensures r == Published ==>
      PublishedState(store, walked, index.value, order, keys, sorted, found, page, header, footer) &&
      Get(store.content, "url:/", "") == page &&
      Get(store.content, "header", "") == header &&
      Get(store.content, "footer", "") == footer &&
      (forall p :: p in parsed ==> Get(store.content, "url:/" + p, "") == Get(walked.content, "url:/" + p, ""))
  {
    page, header, footer, order, keys, sorted, found := "", "", "", [], [], [], [];
    var update;
    update, parsed := Walk(store, entries);
    walked := store.PendingMaps();
    if index.None? {
      r := Exited;
      return;
    }
    if index.value != Get(store.content, "url:/", "") || update {
      ReparsedAreBlogFiles(old(store.content), entries[..WalkLength(entries)]);
      forall p | p in parsed ensures |p| > 0 {
        BlogPathCases(p);
      }
      page, header, footer, order, keys, sorted, found := RebuildAndPublish(store, index.value);
      PublishedPages(walked.content, page, header, footer, parsed);
      r := Published;
    } else {
      r := Kept;
    }
  }


  // ---------------------------------------------------------------------
  // Requests

  const CategoryPostClass: string := "\" class=\"category_post_entry\">"

  /** One line of a category page: the post's path as a link to it. */
  function CategoryLink(path: string): string {
    RootLinkOpen + path + CategoryPostClass + path + LinkClose
  }

  /** The links of a category page for `posts`, in list order. */
  function CategoryLinks(posts: seq<string>): string {
    if |posts| == 0 then ""
    else CategoryLinks(posts[..|posts| - 1]) + CategoryLink(posts[|posts| - 1])
  }

  /** The links of a list are those of its two parts, one after the other. */
  lemma {:induction false} CategoryLinksAppend(a: seq<string>, b: seq<string>)
    ensures CategoryLinks(a + b) == CategoryLinks(a) + CategoryLinks(b)
    decreases |b|
  {
    if |b| == 0 {
      assert a + b == a;
    } else {
      var b' := b[..|b| - 1];
      assert (a + b)[..|a + b| - 1] == a + b';
      CategoryLinksAppend(a, b');
      ConcatAssoc(CategoryLinks(a), CategoryLinks(b'), CategoryLink(b[|b| - 1]));
    }
  }

  /** The category branch of the handler: the live header, the links and
      the live footer when the live list of `cat` is non-empty, "not found"
      otherwise. */
  function CategoryResponse(categories: map<string, seq<string>>, content: map<string, string>, cat: string): (r: Response)
    ensures r.status == 200 <==> |Get(categories, cat, [])| > 0
    ensures r.status != 200 ==> r == NotFound()
  {
    var posts := Get(categories, cat, []);
    if |posts| > 0 then
      Response(200, CacheControl, Some("text/html"),
               Text(Get(content, "header", "") + (CategoryLinks(posts) + Get(content, "footer", ""))))
    else NotFound()
  }

  /** The category branch as the handler runs it, one link at a time. */
  method CategoryPage(store: Store, cat: string) returns (r: Response)
    ensures r == CategoryResponse(store.categories, store.content, cat)
  {
    var posts := Get(store.categories, cat, []);
    if |posts| > 0 {
      var s := "";
      var i := 0;
      while i < |posts|
        invariant 0 <= i <= |posts|
        invariant s == CategoryLinks(posts[..i])
      {
        assert posts[..i + 1][..i] == posts[..i];
        var postPath := posts[i];
        s := s + CategoryLink(postPath);
        i := i + 1;
      }
      assert posts[..i] == posts;
      r := Response(200, CacheControl, Some("text/html"),
                    Text(Get(store.content, "header", "") + (s + Get(store.content, "footer", ""))));
    } else {
      r := NotFound();
    }
  }

  /** The response to a request for `path` from the live maps; `openable`
      are the files under the main directory that open. */
  function Respond(categories: map<string, seq<string>>, content: map<string, string>,
                   openable: set<string>, path: string): (r: Response)
    ensures r.cacheControl == CacheControl
  {
    match SelectRoute(path)
    case CategoryView(cat) => CategoryResponse(categories, content, cat)
    case _ => CommonResponse(SelectRoute(path), content, openable, path)
  }

  /** `handle_http_request`, once no publish step is running. */
  method HandleRequest(store: Store, path: string, openable: set<string>) returns (r: Response)
    ensures r == Respond(store.categories, store.content, openable, path)
  {
    if path == "/" {
      r := Response(200, CacheControl, Some("text/html"), Text(Get(store.content, "url:/", "")));
    } else if Index(path, "/categories/") == 0 {
      r := CategoryPage(store, TrimPrefix(path, "/categories/"));
    } else {
      r := CommonResponse(SelectRoute(path), store.content, openable, path);
    }
  }

  /** A category page links each of its posts once per listing, in the
      category's order. */
  lemma CategoryServed(categories: map<string, seq<string>>, content: map<string, string>,
                       openable: set<string>, cat: string)
    ensures var r := Respond(categories, content, openable, "/categories/" + cat);
      var posts := Get(categories, cat, []);
      (|posts| > 0 ==>
         r.status == 200 &&
         r.body == Text(Get(content, "header", "") + (CategoryLinks(posts) + Get(content, "footer", "")))) &&
      (|posts| == 0 ==> r == NotFound())
  {
    var path := "/categories/" + cat;
    assert path[..|"/categories/"|] == "/categories/";
    assert path != "/" by {
      assert |path| > 1;
    }
    SelectRouteCases(path);
  }
}

=== FILE: content_store.dfy ===
/**
 * The blog's in-memory content: the nine global maps both server variants
 * declare, split into live maps (read by request handlers) and pending
 * "new_" maps (filled by the post parser), and the publish step that moves
 * the pending entries into the live maps.
 *
 * Go's map iteration order is unspecified; every loop over a map is modelled
 * by repeatedly choosing some key not yet visited (`:|`), so each proof holds
 * for every order Go may use.
 */
module ContentStore {

  /** Go's `time.Time` as the blog uses it: the zero value `time.Time{}` or an
      instant built by `time.Unix(seconds, 0)`. The two never compare equal
      with `==`, even for the same instant, because the zero value carries no
      location. */
  datatype Time = ZeroTime | UnixTime(seconds: int)

  /** `time.Time{}.Unix()`: 1 January of year 1, in Unix seconds. */
  const ZeroUnix: int := -62135596800

  /** `t.Unix()`. */
  function Unix(t: Time): int {
    match t
    case ZeroTime => ZeroUnix
    case UnixTime(s) => s
  }

  /** Reading `m[k]` in Go: the zero value when `k` is absent. */
  function Get<V>(m: map<string, V>, k: string, zero: V): V {
    if k in m then m[k] else zero
  }

  /** The entries of a pending map whose value is not `empty`. */
  function NonEmpty<V(==)>(pending: map<string, V>, empty: V): map<string, V> {
    map k | k in pending && pending[k] != empty :: pending[k]
  }

  /** A live map after a merge loop: each pending entry with a non-empty value
      is copied in, each pending entry with the empty value deletes its key,
      and keys absent from `pending` keep their live value. */
  function Merged<V(==)>(live: map<string, V>, pending: map<string, V>, empty: V): map<string, V> {
    map k | k in live.Keys + pending.Keys && (k in pending ==> pending[k] != empty) ::
      if k in pending then pending[k] else live[k]
  }

  /** Merging into a cleared map keeps exactly the non-empty pending entries. */
  lemma MergedIntoEmpty<V>(pending: map<string, V>, empty: V)
    ensures Merged(map[], pending, empty) == NonEmpty(pending, empty)
  {
  }

  /** What `NonEmpty` keeps: every pending entry whose value is not `empty`,
      with its value, and nothing else. */
  lemma NonEmptyEntries<V>(pending: map<string, V>, empty: V)
    ensures forall k :: k in NonEmpty(pending, empty) <==> k in pending && pending[k] != empty
    ensures forall k | k in NonEmpty(pending, empty) :: NonEmpty(pending, empty)[k] == pending[k]
  {
  }

  /** The pointwise description of a merge result determines it. */
  lemma MergedPointwise<V>(merged: map<string, V>, live: map<string, V>, pending: map<string, V>, empty: V)
    requires forall k :: k in merged <==> if k in pending then pending[k] != empty else k in live
    requires forall k | k in merged :: merged[k] == if k in pending then pending[k] else live[k]
    ensures merged == Merged(live, pending, empty)
  {
    var m := Merged(live, pending, empty);
    assert merged.Keys == m.Keys;
    assert forall k | k in m :: m[k] == merged[k];
  }

  /** A loop `for k := range m { delete(m, k) }`. */
  method ClearAll<V>(m: map<string, V>) returns (r: map<string, V>)
    ensures r == map[]
  {
    r := m;
    while r != map[]
      decreases |r|
    {
      var k :| k in r;
      r := r - {k};
    }
  }

  /** A merge loop of the publish step: for every pending key, delete it from
      the live map when its value is `empty`, copy it otherwise, and delete it
      from the pending map. */
  method MergeAll<V(==)>(live: map<string, V>, pending: map<string, V>, empty: V)
    returns (merged: map<string, V>, drained: map<string, V>)
    ensures drained == map[]
    ensures merged == Merged(live, pending, empty)
  {
    merged, drained := live, pending;
    ghost var done: set<string> := {};
    while drained != map[]
      invariant done <= pending.Keys && drained.Keys == pending.Keys - done
      invariant forall k | k in drained :: drained[k] == pending[k]
      invariant forall k :: k in merged <==>
        if k in done then pending[k] != empty else k in live
      invariant forall k | k in merged :: merged[k] == if k in done then pending[k] else live[k]
      decreases |drained|
    {
      var k :| k in drained;
      if drained[k] == empty {
        merged := merged - {k};
      } else {
        merged := merged[k := drained[k]];
      }
      drained := drained - {k};
      done := done + {k};
    }
    MergedPointwise(merged, live, pending, empty);
  }

  /** A loop over the keys of `m` that stops at `key` and reads its value,
      starting from the zero value. */
  method ScanFor<V>(m: map<string, V>, key: string, zero: V) returns (v: V)
    ensures v == Get(m, key, zero)
  {
    var rest := m.Keys;
    while rest != {}
      invariant rest <= m.Keys
      invariant key in m ==> key in rest
      decreases |rest|
    {
      var k :| k in rest;
      if k == key {
        return m[k];
      }
      rest := rest - {k};
    }
    return zero;
  }

  /** No element occurs twice. */
  predicate Distinct<T(==)>(xs: seq<T>) {
    forall i, j :: 0 <= i < j < |xs| ==> xs[i] != xs[j]
  }

  /** `order` lists each element of `s` exactly once: one of the orders in
      which a loop over a map with keys `s` may visit them. */
  predicate Enumerates<T(==)>(order: seq<T>, s: set<T>) {
    Distinct(order) && (forall x :: x in order ==> x in s) && (forall x :: x in s ==> x in order)
  }

  /** In a list without repeats each element occurs once. */
  lemma {:induction false} DistinctCounts<T>(xs: seq<T>)
    requires Distinct(xs)
    ensures forall x :: multiset(xs)[x] == if x in xs then 1 else 0
  {
    if |xs| > 0 {
      var init := xs[..|xs| - 1];
      var last := xs[|xs| - 1];
      assert xs == init + [last];
      assert Distinct(init);
      assert last !in init;
      DistinctCounts(init);
    }
  }

  /** Two enumerations of the same set differ only in order. */
  lemma EnumerationsPermute<T>(o1: seq<T>, o2: seq<T>, s: set<T>)
    requires Enumerates(o1, s) && Enumerates(o2, s)
    ensures multiset(o1) == multiset(o2) && |o1| == |o2| == |s|
  {
    DistinctCounts(o1);
    DistinctCounts(o2);
    assert multiset(o1) == multiset(o2);
    assert |o1| == |multiset(o1)| == |multiset(o2)| == |o2|;
    assert |o1| == |s| by {
      assert multiset(o1) == multiset(s) by {
        forall x ensures multiset(o1)[x] == multiset(s)[x] {
        }
      }
    }
  }

  lemma CountTwice<T>(xs: seq<T>, i: int, j: int)
    requires 0 <= i < j < |xs| && xs[i] == xs[j]
    ensures multiset(xs)[xs[i]] >= 2
  {
    var x := xs[i];
    assert xs == xs[..j] + [x] + xs[j + 1..];
    assert x in xs[..j];
    assert multiset(xs) == multiset(xs[..j]) + multiset{x} + multiset(xs[j + 1..]);
  }

  /** A reordering of an enumeration is an enumeration. */
  lemma PermutedEnumeration<T>(o: seq<T>, o': seq<T>, s: set<T>)
    requires Enumerates(o, s) && multiset(o') == multiset(o)
    ensures Enumerates(o', s)
  {
    DistinctCounts(o);
    forall i, j | 0 <= i < j < |o'| ensures o'[i] != o'[j] {
      if o'[i] == o'[j] {
        CountTwice(o', i, j);
      }
    }
    forall x | x in o' ensures x in s {
      assert x in multiset(o');
    }
    forall x | x in s ensures x in o' {
      assert x in multiset(o);
    }
  }

  /** A list without repeats drawn from `s` and as long as `s` lists all of it. */
  lemma {:induction false} FullEnumeration<T>(xs: seq<T>, s: set<T>)
    requires Distinct(xs) && (forall x :: x in xs ==> x in s) && |xs| == |s|
    ensures Enumerates(xs, s)
    decreases |xs|
  {
    if |xs| > 0 {
      var init := xs[..|xs| - 1];
      var last := xs[|xs| - 1];
      assert xs == init + [last];
      assert last !in init;
      assert last in s;
      FullEnumeration(init, s - {last});
    }
  }

  /** A loop over a slice that stops at the first element equal to `x`. */
  method ListContains(list: seq<string>, x: string) returns (found: bool)
    ensures found <==> x in list
  {
    var i := 0;
    while i < |list|
      invariant 0 <= i <= |list|
      invariant x !in list[..i]
    {
      if list[i] == x {
        return true;
      }
      i := i + 1;
    }
    assert list[..i] == list;
    return false;
  }

  /** The maps a walk over the post files writes: the pending dates,
      categories, titles and pages, and `short_posts`. */
  datatype Pending = Pending(dates: map<string, Time>, cats: map<string, seq<string>>, titles: map<string, string>,
                             shorts: map<string, string>, content: map<string, string>)

  class Store {
    /** Whether a publish step is in progress; request handlers wait on it. */
    var updatingContent: bool
    /** Category label to the paths of its posts, in the order they were parsed. */
    var categories: map<string, seq<string>>
    var newCategories: map<string, seq<string>>
    /** Post path to its `date: ` header. */
    var postsByDate: map<string, Time>
    var newPostsByDate: map<string, Time>
    /** Post path to its `title: ` header. */
    var titles: map<string, string>
    var newTitles: map<string, string>
    /** Post path to its recent-posts fragment; it has no live counterpart. */
    var shortPosts: map<string, string>
    /** Page key (`url:/...`, `header`, `footer`) to its HTML. */
    var content: map<string, string>
    var newContent: map<string, string>

    /** The state of a server that has just started: every map empty. */
    constructor ()
      ensures !updatingContent
      ensures categories == map[] && newCategories == map[]
      ensures postsByDate == map[] && newPostsByDate == map[]
      ensures titles == newTitles == shortPosts == map[]
      ensures content == newContent == map[]
    {
      updatingContent := false;
      categories, newCategories := map[], map[];
      postsByDate, newPostsByDate := map[], map[];
      titles, newTitles, shortPosts := map[], map[], map[];
      content, newContent := map[], map[];
    }

    /** The maps the walk writes, as one value. */
    function PendingMaps(): Pending
      reads this
    {
      Pending(newPostsByDate, newCategories, newTitles, shortPosts, newContent)
    }

    /** The five delete loops of the publish step. */
    method ClearLive()
      modifies this`shortPosts, this`categories, this`postsByDate, this`titles, this`content
      ensures shortPosts == map[] && categories == map[] && postsByDate == map[]
      ensures titles == map[] && content == map[]
    {
      shortPosts := ClearAll(shortPosts);
      categories := ClearAll(categories);
      postsByDate := ClearAll(postsByDate);
      titles := ClearAll(titles);
      content := ClearAll(content);
    }

    method MergeCategories()
      modifies this`categories, this`newCategories
      requires categories == map[]
      ensures categories == NonEmpty(old(newCategories), [])
      ensures newCategories == map[]
    {
      MergedIntoEmpty(newCategories, []);
      categories, newCategories := MergeAll(categories, newCategories, []);
    }

    method MergePostsByDate()
      modifies this`postsByDate, this`newPostsByDate
      requires postsByDate == map[]
      ensures postsByDate == NonEmpty(old(newPostsByDate), ZeroTime)
      ensures newPostsByDate == map[]
    {
      MergedIntoEmpty(newPostsByDate, ZeroTime);
      postsByDate, newPostsByDate := MergeAll(postsByDate, newPostsByDate, ZeroTime);
    }

    method MergeTitles()
      modifies this`titles, this`newTitles
      requires titles == map[]
      ensures titles == NonEmpty(old(newTitles), "")
      ensures newTitles == map[]
    {
      MergedIntoEmpty(newTitles, "");
      titles, newTitles := MergeAll(titles, newTitles, "");
    }

    method MergeContent()
      modifies this`content, this`newContent
      requires content == map[]
      ensures content == NonEmpty(old(newContent), "")
      ensures newContent == map[]
    {
      MergedIntoEmpty(newContent, "");
      content, newContent := MergeAll(content, newContent, "");
    }

    /** The end of a rebuild: the index page, header and footer become
        pending content (`url:/`, `header`, `footer`). */
    method StoreIndex(page: string, header: string, footer: string)
      modifies this`newContent
      ensures newContent == old(newContent)["url:/" := page]["header" := header]["footer" := footer]
    {
      newContent := newContent["url:/" := page]["header" := header]["footer" := footer];
    }

    /** The publish step closing a content cycle that found changes: every live
        map and `shortPosts` is emptied, then each live map receives exactly
        the non-empty entries of its pending map, which is drained. */
    method Publish()
      modifies this
      ensures !updatingContent
      ensures shortPosts == map[]
      ensures newCategories == map[] && newPostsByDate == map[]
      ensures newTitles == map[] && newContent == map[]
      ensures categories == NonEmpty(old(newCategories), [])
      ensures postsByDate == NonEmpty(old(newPostsByDate), ZeroTime)
      ensures titles == NonEmpty(old(newTitles), "")
      ensures content == NonEmpty(old(newContent), "")
    {
      updatingContent := true;
      ClearLive();
      MergeCategories();
      MergePostsByDate();
      MergeTitles();
      MergeContent();
      updatingContent := false;
    }

    /** `get_post_title`: the live title of a post, "" when it has none. */
    method GetPostTitle(postPath: string) returns (title: string)
      ensures title == Get(titles, postPath, "")
    {
      title := ScanFor(titles, postPath, "");
    }

    /** `get_post_ts`: the Unix seconds of a post's date from the pending map
        (`useNew`) or the live one; a post without a date gives the zero
        time's -62135596800. */
    method GetPostTs(postPath: string, useNew: bool) returns (ts: int)
      ensures ts == Unix(Get(if useNew then newPostsByDate else postsByDate, postPath, ZeroTime))
      ensures postPath !in (if useNew then newPostsByDate else postsByDate) ==> ts == -62135596800
    {
      var from := if useNew then newPostsByDate else postsByDate;
      var date := ScanFor(from, postPath, ZeroTime);
      ts := Unix(date);
    }
  }

  /** The loop that appends every key of a map to a slice. */
  method CollectKeys<V>(m: map<string, V>) returns (keys: seq<string>)
    ensures Enumerates(keys, m.Keys)
  {
    keys := [];
    var rest := m.Keys;
    while rest != {}
      invariant rest <= m.Keys
      invariant Distinct(keys)
      invariant forall k :: k in keys ==> k in m && k !in rest
      invariant forall k :: k in m && k !in rest ==> k in keys
      decreases |rest|
    {
      var k :| k in rest;
      keys := keys + [k];
      rest := rest - {k};
    }
  }

  /** A loop over the keys of a map that stops at `key`. */
  method HasKey<V>(m: map<string, V>, key: string) returns (found: bool)
    ensures found <==> key in m
  {
    var rest := m.Keys;
    while rest != {}
      invariant rest <= m.Keys
      invariant key in m ==> key in rest
      decreases |rest|
    {
      var k :| k in rest;
      if k == key {
        return true;
      }
      rest := rest - {k};
    }
    return false;
  }
}

=== FILE: dotblog_server.dfy ===
/**
 * The current server variant, `dotblog_server.go`: the post parser, the
 * snapshot a content cycle builds (category links, recent posts and post
 * titles by date, the template split), the content cycle itself, and the
 * category page of the request handler.
 *
 * A post file is a sequence of lines in three blocks: header lines
 * (`date: `, `categories: `, `title: `), then the HTML shown in the recent
 * posts list, then the HTML of the full post. A block ends at the second
 * blank line ("" or "\r") since the previous block ended; lines starting with
 * "//" are comments.
 */
module DotblogServer {
  import opened GoStrings
  import opened GoSort
  import opened ContentStore
  import opened HttpCommon
  import opened IndexTemplate
  import opened PostFormat

  // ---------------------------------------------------------------------
  // The fixed HTML of a post

  const FullOpen: string := "<div class=\"post\">"
  const PostClose: string := "</div></div>"
  /** Placeholders in a recent-posts entry, filled once the full block starts. */
  const RpTsMarker: string := "<!--######rp_ts######-->"
  const RpCatsMarker: string := "<!--######rp_cats######-->"

  const TsOpen: string := "<span class=\"unix_ts post_date\">"
  const TitleOpen: string := "<span class=\"post_title\">"
  function TsSpan(ts: string): string {
    TsOpen + ts + SpanClose
  }

  function TitleSpan(title: string): string {
    TitleOpen + title + SpanClose
  }

  /** The link to a category page, as a post and its recent-posts entry show it. */
  function CatLink(cat: string): string {
    CatLinkOpen + cat + TagEnd + cat + LinkClose
  }

  /** The links of `cats`, in order. */
  function CatLinks(cats: seq<string>): string {
    if |cats| == 0 then "" else CatLinks(cats[..|cats| - 1]) + CatLink(cats[|cats| - 1])
  }

  /** The start of a post's recent-posts entry, with both placeholders. */
  function RecentEntry(path: string, title: string): string {
    RecentOpen + path + TagEnd + title + RecentDate + RpTsMarker + RecentCats + RpCatsMarker + RecentContent
  }

  const RecentOpen: string := "<div class=\"recent_posts_entry\"><a class=\"recent_post_title\" href=\""
  const RecentDate: string := "</a><span class=\"unix_ts recent_post_date\">"
  const RecentCats: string := "</span><div class=\"recent_post_categories\">"
  const RecentContent: string := "</div><div class=\"recent_post_content\">"

  // ---------------------------------------------------------------------
  // The block counter

  /** A line that counts towards the end of a block. */
  predicate IsBlank(line: string) {
    |line| == 0 || line == "\r"
  }

  datatype Counter = Counter(block: nat, newlines: nat)

  /** The counter update after a non-comment line: blank lines count only
      in blocks 0 and 1, and the second count moves to the next block. */
  function Count(c: Counter, line: string): Counter {
    var n := if c.block < 2 && IsBlank(line) then c.newlines + 1 else c.newlines;
    if n == 2 then Counter(c.block + 1, 0) else Counter(c.block, n)
  }

  /** The counter after `lines`, comments skipped. */
  function CounterAfter(lines: seq<string>): Counter {
    if |lines| == 0 then Counter(0, 0)
    else
      var c := CounterAfter(lines[..|lines| - 1]);
      var line := lines[|lines| - 1];
      if IsComment(line) then c else Count(c, line)
  }

  /** The number of blank lines in `lines` that are not comments. */
  function Blanks(lines: seq<string>): nat {
    if |lines| == 0 then 0
    else
      var line := lines[|lines| - 1];
      Blanks(lines[..|lines| - 1]) + (if !IsComment(line) && IsBlank(line) then 1 else 0)
  }

  /** The block is the number of blank lines halved, capped at 2; blank
      lines need not be adjacent, and once in block 2 they no longer count. */
  lemma {:induction false} BlockRule(lines: seq<string>)
    ensures var c := CounterAfter(lines);
      c.block == Min(2, Blanks(lines) / 2) &&
      c.newlines == (if Blanks(lines) >= 4 then 0 else Blanks(lines) % 2)
  {
    if |lines| > 0 {
      BlockRule(lines[..|lines| - 1]);
    }
  }

  /** The counter stays in block 2 once there, with no pending blank line. */
  lemma {:induction false} CounterBounds(lines: seq<string>)
    ensures var c := CounterAfter(lines);
      c.block <= 2 && c.newlines <= 1 && (c.block == 2 ==> c.newlines == 0)
  {
    if |lines| > 0 {
      CounterBounds(lines[..|lines| - 1]);
    }
  }

  /** Blank lines only accumulate: a prefix has at most as many. */
  lemma {:induction false} BlanksOfPrefix(lines: seq<string>, i: int)
    requires 0 <= i <= |lines|
    ensures Blanks(lines[..i]) <= Blanks(lines)
    decreases |lines| - i
  {
    if i < |lines| {
      var init := lines[..|lines| - 1];
      assert init[..i] == lines[..i];
      BlanksOfPrefix(init, i);
    } else {
      assert lines[..i] == lines;
    }
  }

  /** The block never goes back and never passes 2. */
  lemma BlockMonotone(lines: seq<string>, i: int)
    requires 0 <= i <= |lines|
    ensures CounterAfter(lines[..i]).block <= CounterAfter(lines).block <= 2
  {
    BlockRule(lines[..i]);
    BlockRule(lines);
    BlanksOfPrefix(lines, i);
  }

  /** The non-comment lines of `lines` that are read while the counter is in
      block `k`. */
  function InBlock(lines: seq<string>, k: nat): seq<string> {
    if |lines| == 0 then []
    else
      var init := lines[..|lines| - 1];
      var line := lines[|lines| - 1];
      InBlock(init, k) + (if !IsComment(line) && CounterAfter(init).block == k then [line] else [])
  }

  // ---------------------------------------------------------------------
  // The parser state

  /** What the header lines set: `title_string`, `ts_string`,
      `categories_string` and the three pending maps. */
  datatype Head = Head(
    titleHtml: string,
    tsHtml: string,
    catsHtml: string,
    dates: map<string, Time>,
    cats: map<string, seq<string>>,
    titles: map<string, string>)

  /** The local variables of `parse_post`: the block counter, `short_html`,
      `full_html`, `full_html_started` and the header fields. */
  datatype Post = Post(counter: Counter, short: string, full: string, started: bool, head: Head)

  function Init(dates: map<string, Time>, cats: map<string, seq<string>>, titles: map<string, string>): Post {
    Post(Counter(0, 0), "", FullOpen, false, Head("", "", "", dates, cats, titles))
  }

  /** A header line: a date that parses is recorded, a categories line adds
      the post to each of its labels, a title line records the title;
      anything else is ignored. */
  function Header(path: string, h: Head, line: string): Head {
    match Classify(line)
    case DateLine(value) =>
      (match ParseInt64(value)
       case Some(d) => h.(dates := h.dates[path := UnixTime(d)], tsHtml := TsSpan(FormatInt(d)))
       case None => h)
    case CategoriesLine(list) =>
      var labels := Split(list, ", ");
      h.(cats := AddToCategories(h.cats, path, labels), catsHtml := h.catsHtml + CatLinks(labels))
    case TitleLine(title) => h.(titles := h.titles[path := title], titleHtml := TitleSpan(title))
    case OtherLine => h
  }

  /** What a header line adds to `short_html`: a title line starts the
      recent-posts entry. */
  function HeaderEntry(path: string, line: string): string {
    match Classify(line)
    case TitleLine(title) => RecentEntry(path, title) + "\n"
    case _ => ""
  }

  /** The title, date and categories heading of the full post. */
  function FullHeader(h: Head): string {
    h.titleHtml + h.tsHtml + CategoriesOpen + h.catsHtml + DivClose + ContentOpen
  }

  const CategoriesOpen: string := "<div class=\"post_categories\"><span class=\"post_categories_title\">Categories</span>"
  const ContentOpen: string := "<div class=\"post_content\">"

  /** The recent-posts entry once the full block starts: closed, and its
      placeholders filled with the post's pending date and the category
      links `rpCats`. */
  function FinishEntry(path: string, rpCats: string, h: Head, short: string): string {
    var rpTs := FormatInt(Unix(Get(h.dates, path, ZeroTime)));
    ReplaceFirst(ReplaceFirst(short + PostClose + "\n", RpTsMarker, rpTs), RpCatsMarker, rpCats)
  }

  /** One line of the file. */
  function Step(path: string, rpCats: string, st: Post, line: string): Post {
    if IsComment(line) then st
    else
      var b := st.counter.block;
      var st1 :=
        if b == 0 then st.(head := Header(path, st.head, line), short := st.short + HeaderEntry(path, line))
        else if b == 1 then st.(short := st.short + line + "\n")
        else if b == 2 then
          if !st.started then
            st.(short := FinishEntry(path, rpCats, st.head, st.short),
                full := st.full + FullHeader(st.head) + line + "\n",
                started := true)
          else st.(full := st.full + line + "\n")
        else st;
      st1.(counter := Count(st.counter, line))
  }

  function ParseFrom(path: string, rpCats: string, st: Post, lines: seq<string>): Post {
    if |lines| == 0 then st
    else Step(path, rpCats, ParseFrom(path, rpCats, st, lines[..|lines| - 1]), lines[|lines| - 1])
  }

  lemma ParseSnoc(path: string, rpCats: string, st: Post, lines: seq<string>, line: string)
    ensures ParseFrom(path, rpCats, st, lines + [line]) == Step(path, rpCats, ParseFrom(path, rpCats, st, lines), line)
  {
    assert (lines + [line])[..|lines|] == lines;
  }

  lemma CounterSnoc(lines: seq<string>, line: string)
    ensures CounterAfter(lines + [line]) ==
      if IsComment(line) then CounterAfter(lines) else Count(CounterAfter(lines), line)
    ensures forall k: nat {:trigger InBlock(lines + [line], k)} ::
      InBlock(lines + [line], k) ==
        InBlock(lines, k) + (if !IsComment(line) && CounterAfter(lines).block == k then [line] else [])
  {
    assert (lines + [line])[..|lines|] == lines;
  }

  // ---------------------------------------------------------------------
  // What a whole file yields

  /** The header lines alone, read one after the other. */
  function HeaderFold(path: string, h: Head, hs: seq<string>): Head {
    if |hs| == 0 then h else Header(path, HeaderFold(path, h, hs[..|hs| - 1]), hs[|hs| - 1])
  }

  lemma HeaderFoldSnoc(path: string, h: Head, hs: seq<string>, line: string)
    ensures HeaderFold(path, h, hs + [line]) == Header(path, HeaderFold(path, h, hs), line)
  {
    assert (hs + [line])[..|hs|] == hs;
  }

  /** The shape of the parser state after `lines`, started from `st0`. */
  ghost predicate Shaped(path: string, st0: Post, lines: seq<string>, st: Post) {
    st.counter == CounterAfter(lines) &&
    (st.started ==> st.counter.block == 2) &&
    st.head == HeaderFold(path, st0.head, InBlock(lines, 0)) &&
    (st.started <==> InBlock(lines, 2) != []) &&
    st.full == FullOpen + (if st.started then FullHeader(st.head) + Terminated(InBlock(lines, 2), "\n") else "")
  }

  lemma ShapedStep(path: string, rpCats: string, st0: Post, lines: seq<string>, st: Post, line: string)
    requires Shaped(path, st0, lines, st)
    ensures Shaped(path, st0, lines + [line], Step(path, rpCats, st, line))
  {
    if IsComment(line) {
      CounterSnoc(lines, line);
      assert InBlock(lines + [line], 0) == InBlock(lines, 0) + [] == InBlock(lines, 0);
      assert InBlock(lines + [line], 2) == InBlock(lines, 2) + [] == InBlock(lines, 2);
    } else {
      var b := st.counter.block;
      if b == 0 {
        ShapedHeader(path, rpCats, st0, lines, st, line);
      } else if b == 1 {
        ShapedShort(path, rpCats, st0, lines, st, line);
      } else {
        ShapedFull(path, rpCats, st0, lines, st, line);
      }
    }
  }

  lemma ShapedHeader(path: string, rpCats: string, st0: Post, lines: seq<string>, st: Post, line: string)
    requires Shaped(path, st0, lines, st) && !IsComment(line) && st.counter.block == 0
    ensures Shaped(path, st0, lines + [line], Step(path, rpCats, st, line))
  {
    CounterSnoc(lines, line);
    var lines' := lines + [line];
    var st' := Step(path, rpCats, st, line);
    assert InBlock(lines', 0) == InBlock(lines, 0) + [line];
    assert InBlock(lines', 2) == InBlock(lines, 2);
    HeaderFoldSnoc(path, st0.head, InBlock(lines, 0), line);
    assert st'.head == Header(path, st.head, line);
    assert !st.started && !st'.started;
  }

  lemma ShapedShort(path: string, rpCats: string, st0: Post, lines: seq<string>, st: Post, line: string)
    requires Shaped(path, st0, lines, st) && !IsComment(line) && st.counter.block == 1
    ensures Shaped(path, st0, lines + [line], Step(path, rpCats, st, line))
  {
    CounterSnoc(lines, line);
    var lines' := lines + [line];
    assert InBlock(lines', 0) == InBlock(lines, 0);
    assert InBlock(lines', 2) == InBlock(lines, 2);
    assert !st.started;
  }

  lemma ShapedFull(path: string, rpCats: string, st0: Post, lines: seq<string>, st: Post, line: string)
    requires Shaped(path, st0, lines, st) && !IsComment(line) && st.counter.block >= 2
    ensures Shaped(path, st0, lines + [line], Step(path, rpCats, st, line))
  {
    CounterSnoc(lines, line);
    CounterBounds(lines);
    var lines' := lines + [line];
    var st' := Step(path, rpCats, st, line);
    assert st.counter.block == 2 && st.counter.newlines == 0;
    assert st'.counter == st.counter;
    assert InBlock(lines', 0) == InBlock(lines, 0);
    assert InBlock(lines', 2) == InBlock(lines, 2) + [line];
    assert st'.head == st.head && st'.started;
    var fh := FullHeader(st.head);
    var t0 := Terminated(InBlock(lines, 2), "\n");
    var t1 := Terminated(InBlock(lines', 2), "\n");
    TerminatedSnoc(InBlock(lines, 2), line, "\n");
    assert t1 == t0 + line + "\n";
    if !st.started {
      assert InBlock(lines, 2) == [];
      assert t0 == "";
      assert st.full == FullOpen;
      assert st'.full == FullOpen + fh + line + "\n";
      assert t1 == line + "\n";
      AppendRegroup(FullOpen, fh, "", line, "\n");
    } else {
      assert st.full == FullOpen + (fh + t0);
      assert st'.full == FullOpen + (fh + t0) + line + "\n";
      AppendRegroup(FullOpen, fh, t0, line, "\n");
    }
  }

  lemma AppendRegroup(a: string, b: string, c: string, d: string, e: string)
    ensures a + (b + c) + d + e == a + (b + (c + d + e))
    ensures c == "" ==> a + b + d + e == a + (b + (d + e))
  {
  }

  /** Reading a file from the initial state: the counter is the block rule's,
      the header fields are those of the block-0 lines read alone, the full
      block has started exactly when a block-2 line was read, and the full
      post is the opening tag, then (once started) the title, date and
      categories heading and the block-2 lines each followed by "\n". */
  lemma {:induction false} ParseShape(path: string, rpCats: string, st0: Post, lines: seq<string>)
    requires st0 == Init(st0.head.dates, st0.head.cats, st0.head.titles)
    ensures Shaped(path, st0, lines, ParseFrom(path, rpCats, st0, lines))
  {
    if |lines| > 0 {
      var init := lines[..|lines| - 1];
      ParseShape(path, rpCats, st0, init);
      ShapedStep(path, rpCats, st0, init, ParseFrom(path, rpCats, st0, init), lines[|lines| - 1]);
      assert init + [lines[|lines| - 1]] == lines;
    }
  }

  /** The category links of the recent-posts entry matter only once the
      full block has started. */
  lemma {:induction false} ParseIndependent(path: string, r1: string, r2: string, st0: Post, lines: seq<string>)
    requires !st0.started
    ensures !ParseFrom(path, r1, st0, lines).started ==>
      ParseFrom(path, r1, st0, lines) == ParseFrom(path, r2, st0, lines)
  {
    if |lines| > 0 {
      ParseIndependent(path, r1, r2, st0, lines[..|lines| - 1]);
    }
  }

  /** Comment lines change nothing, wherever they are. */
  lemma {:induction false} CommentsIgnored(path: string, rpCats: string, st0: Post, lines: seq<string>)
    ensures ParseFrom(path, rpCats, st0, lines) == ParseFrom(path, rpCats, st0, NonComment(lines))
  {
    if |lines| > 0 {
      var init := lines[..|lines| - 1];
      var line := lines[|lines| - 1];
      CommentsIgnored(path, rpCats, st0, init);
      assert lines == init + [line];
      ParseSnoc(path, rpCats, st0, init, line);
      if !IsComment(line) {
        assert NonComment(lines) == NonComment(init) + [line];
        ParseSnoc(path, rpCats, st0, NonComment(init), line);
      } else {
        assert NonComment(lines) == NonComment(init) + [];
        assert NonComment(init) + [] == NonComment(init);
      }
    }
  }

  // ---------------------------------------------------------------------
  // The header lines

  /** The value of the last date line whose value parses. */
  function LastDate(hs: seq<string>): Option<int> {
    if |hs| == 0 then None
    else
      match Classify(hs[|hs| - 1])
      case DateLine(value) =>
        if ParseInt64(value).Some? then ParseInt64(value) else LastDate(hs[..|hs| - 1])
      case _ => LastDate(hs[..|hs| - 1])
  }

  /** The last title line's title. */
  function LastTitle(hs: seq<string>): Option<string> {
    if |hs| == 0 then None
    else
      match Classify(hs[|hs| - 1])
      case TitleLine(title) => Some(title)
      case _ => LastTitle(hs[..|hs| - 1])
  }

  /** The labels of a categories line: its list split on ", ". */
  function LineLabels(line: string): seq<string> {
    match Classify(line)
    case CategoriesLine(list) => Split(list, ", ")
    case _ => []
  }

  /** The labels of all categories lines, in order. */
  function Labels(hs: seq<string>): seq<string> {
    if |hs| == 0 then [] else Labels(hs[..|hs| - 1]) + LineLabels(hs[|hs| - 1])
  }

  lemma HeaderCategoriesStep(path: string, h: Head, line: string)
    ensures Header(path, h, line).cats == AddToCategories(h.cats, path, LineLabels(line))
    ensures Header(path, h, line).catsHtml == h.catsHtml + CatLinks(LineLabels(line))
  {
    if !Classify(line).CategoriesLine? {
      assert h.catsHtml + "" == h.catsHtml;
    }
  }

  /** A date is recorded, for this post only, when its value parses as a
      64-bit integer; the last such line wins, and a line that does not
      parse leaves the previous date in place. */
  lemma {:induction false} HeaderDates(path: string, h0: Head, hs: seq<string>)
    ensures var h := HeaderFold(path, h0, hs);
      match LastDate(hs)
      case Some(d) => h.dates == h0.dates[path := UnixTime(d)] && h.tsHtml == TsSpan(FormatInt(d))
      case None => h.dates == h0.dates && h.tsHtml == h0.tsHtml
  {
    if |hs| > 0 {
      var init := hs[..|hs| - 1];
      HeaderDates(path, h0, init);
      HeaderDateStep(path, HeaderFold(path, h0, init), hs[|hs| - 1]);
    }
  }

  lemma HeaderDateStep(path: string, h: Head, line: string)
    ensures var h' := Header(path, h, line);
      match Classify(line)
      case DateLine(value) =>
        (match ParseInt64(value)
         case Some(d) => h'.dates == h.dates[path := UnixTime(d)] && h'.tsHtml == TsSpan(FormatInt(d))
         case None => h'.dates == h.dates && h'.tsHtml == h.tsHtml)
      case _ => h'.dates == h.dates && h'.tsHtml == h.tsHtml
  {
  }

  /** The last title line sets the post's title. */
  lemma {:induction false} HeaderTitles(path: string, h0: Head, hs: seq<string>)
    ensures var h := HeaderFold(path, h0, hs);
      match LastTitle(hs)
      case Some(t) => h.titles == h0.titles[path := t] && h.titleHtml == TitleSpan(t)
      case None => h.titles == h0.titles && h.titleHtml == h0.titleHtml
  {
    if |hs| > 0 {
      HeaderTitles(path, h0, hs[..|hs| - 1]);
    }
  }

  lemma {:induction false} CatLinksAppend(a: seq<string>, b: seq<string>)
    ensures CatLinks(a + b) == CatLinks(a) + CatLinks(b)
  {
    if |b| == 0 {
      assert a + b == a;
    } else {
      var b' := b[..|b| - 1];
      assert (a + b)[..|a + b| - 1] == a + b';
      assert (a + b)[|a + b| - 1] == b[|b| - 1];
      CatLinksAppend(a, b');
      var x, y, z := CatLinks(a), CatLinks(b'), CatLink(b[|b| - 1]);
      assert CatLinks(a + b) == x + y + z;
      assert x + y + z == x + (y + z);
    }
  }

  /** Every labelled category gains the post once per label, in label order,
      and so do all categories lines together. */
  lemma {:induction false} HeaderCategories(path: string, h0: Head, hs: seq<string>)
    ensures var h := HeaderFold(path, h0, hs);
      h.cats == AddToCategories(h0.cats, path, Labels(hs)) &&
      h.catsHtml == h0.catsHtml + CatLinks(Labels(hs))
  {
    if |hs| > 0 {
      var init := hs[..|hs| - 1];
      var line := hs[|hs| - 1];
      HeaderCategories(path, h0, init);
      var h := HeaderFold(path, h0, init);
      HeaderCategoriesStep(path, h, line);
      AddToCategoriesAppend(h0.cats, path, Labels(init), LineLabels(line));
      CatLinksAppend(Labels(init), LineLabels(line));
      ConcatAssoc(h0.catsHtml, CatLinks(Labels(init)), CatLinks(LineLabels(line)));
    }
  }

  /** An empty categories line files the post under the empty category. */
  lemma EmptyCategoriesLine(path: string, h: Head, line: string)
    requires Classify(line) == CategoriesLine("")
    ensures Header(path, h, line).cats == h.cats["" := Get(h.cats, "", []) + [path]]
  {
    SplitNoSeparator("", ", ");
    assert Split("", ", ") == [""];
    assert [""][..0] == [];
    assert AddToCategories(h.cats, path, [""]) == h.cats["" := Get(h.cats, "", []) + [path]];
  }

  // ---------------------------------------------------------------------
  // parse_post

  /** The loop over the labels of a categories line. */
  method AddCategories(cats: map<string, seq<string>>, path: string, labels: seq<string>, html: string)
    returns (cats': map<string, seq<string>>, html': string)
    ensures cats' == AddToCategories(cats, path, labels)
    ensures html' == html + CatLinks(labels)
  {
    cats', html' := cats, html;
    var c := 0;
    while c < |labels|
      invariant 0 <= c <= |labels|
      invariant cats' == AddToCategories(cats, path, labels[..c])
      invariant html' == html + CatLinks(labels[..c])
    {
      var cat := labels[c];
      ghost var seen := labels[..c + 1];
      assert seen[..|seen| - 1] == labels[..c] && seen[|seen| - 1] == cat;
      cats' := cats'[cat := Get(cats', cat, []) + [path]];
      html' := html' + CatLink(cat);
      c := c + 1;
    }
    assert labels[..c] == labels;
  }

  /** A header line, as the header branch of the parse loop reads it. */
  method ReadHeaderLine(path: string, h: Head, short: string, line: string) returns (h': Head, short': string)
    ensures h' == Header(path, h, line)
    ensures short' == short + HeaderEntry(path, line)
  {
    h', short' := h, short;
    if Index(line, "date: ") == 0 {
      var date := ParseInt64(TrimPrefix(line, "date: "));
      if date.Some? {
        h' := h'.(dates := h'.dates[path := UnixTime(date.value)], tsHtml := TsSpan(FormatInt(date.value)));
      }
    } else if Index(line, "categories: ") == 0 {
      var labels := Split(TrimPrefix(line, "categories: "), ", ");
      var cats, html := AddCategories(h'.cats, path, labels, h'.catsHtml);
      h' := h'.(cats := cats, catsHtml := html);
    } else if Index(line, "title: ") == 0 {
      var title := TrimPrefix(line, "title: ");
      h' := h'.(titles := h'.titles[path := title], titleHtml := TitleSpan(title));
      short' := short' + RecentEntry(path, title) + "\n";
    }
    if !Classify(line).TitleLine? {
      assert short + "" == short;
    }
  }

  /** The categories whose pending list holds `path`. */
  function CatsWith(path: string, cats: map<string, seq<string>>): set<string> {
    set c | c in cats && path in cats[c]
  }

  /** The loop over the pending categories that builds the category links
      of a recent-posts entry: one link per category listing the post, in
      the order the map loop visits them. */
  method RecentCategories(cats: map<string, seq<string>>, path: string) returns (rpCats: string, ghost order: seq<string>)
    ensures Enumerates(order, CatsWith(path, cats))
    ensures rpCats == CatLinks(order)
  {
    rpCats, order := "", [];
    var rest := cats.Keys;
    while rest != {}
      invariant rest <= cats.Keys
      invariant Distinct(order)
      invariant forall c :: c in order ==> c in CatsWith(path, cats) && c !in rest
      invariant forall c :: c in CatsWith(path, cats) && c !in rest ==> c in order
      invariant rpCats == CatLinks(order)
      decreases |rest|
    {
      var c :| c in rest;
      var found := ListContains(cats[c], path);
      if found {
        rpCats := rpCats + CatLink(c);
        assert (order + [c])[..|order|] == order;
        order := order + [c];
      }
      rest := rest - {c};
    }
  }

  /** What the parse loop keeps between lines: the counter's bounds, and
      the recent-posts category links once the full block has started. */
  ghost predicate LoopState(path: string, st: Post, rpCats: string, order: seq<string>) {
    st.counter.block <= 2 && st.counter.newlines <= 1 &&
    (st.counter.block == 2 ==> st.counter.newlines == 0) &&
    (st.started ==> st.counter.block == 2) &&
    (st.started ==> Enumerates(order, CatsWith(path, st.head.cats)) && rpCats == CatLinks(order)) &&
    (!st.started ==> rpCats == "" && order == [])
  }

  /** The start of the full block: the recent-posts entry is closed and its
      date and category placeholders are filled. */
  method StartFull(path: string, h: Head, short: string) returns (short': string, rpCats: string, ghost order: seq<string>)
    ensures short' == FinishEntry(path, rpCats, h, short)
    ensures Enumerates(order, CatsWith(path, h.cats)) && rpCats == CatLinks(order)
  {
    short' := short + PostClose + "\n";
    var rpTs := ScanFor(h.dates, path, ZeroTime);
    rpCats, order := RecentCategories(h.cats, path);
    short' := ReplaceFirst(short', RpTsMarker, FormatInt(Unix(rpTs)));
    short' := ReplaceFirst(short', RpCatsMarker, rpCats);
  }

  /** The blank-line count that ends the loop body. */
  method CountLine(c: Counter, line: string) returns (c': Counter)
    ensures c' == Count(c, line)
  {
    c' := c;
    if c'.block < 2 && (|line| == 0 || line == "\r") {
      c' := c'.(newlines := c'.newlines + 1);
    }
    if c'.newlines == 2 {
      c' := Counter(c'.block + 1, 0);
    }
  }

  /** The body of the parse loop: one line of the file. */
  method ParseLine(path: string, st: Post, line: string, ghost rpCats: string, ghost order: seq<string>)
    returns (st': Post, ghost rpCats': string, ghost order': seq<string>)
    requires LoopState(path, st, rpCats, order)
    ensures LoopState(path, st', rpCats', order')
    ensures st' == Step(path, rpCats', st, line)
    ensures st.started ==> rpCats' == rpCats
  {
    st', rpCats', order' := st, rpCats, order;
    if Index(line, "//") != 0 {
      if st.counter.block == 0 {
        var head, short := ReadHeaderLine(path, st.head, st.short, line);
        st' := st'.(head := head, short := short);
      } else if st.counter.block == 1 {
        st' := st'.(short := st'.short + line + "\n");
      } else if st.counter.block == 2 {
        if !st.started {
          var short, rp;
          ghost var o;
          short, rp, o := StartFull(path, st.head, st.short);
          st' := st'.(short := short, full := st'.full + FullHeader(st'.head), started := true);
          rpCats', order' := rp, o;
        }
        st' := st'.(full := st'.full + line + "\n");
      }
      var c := CountLine(st.counter, line);
      st' := st'.(counter := c);
    }
  }

  /** The parse loop's step: the links chosen when the full block starts do
      not change what the lines before it gave. */
  lemma ParseNext(path: string, rp: string, rp': string, st0: Post, lines: seq<string>, l: int, st: Post, st': Post)
    requires 0 <= l < |lines| && !st0.started
    requires st == ParseFrom(path, rp, st0, lines[..l])
    requires st' == Step(path, rp', st, lines[l])
    requires st.started ==> rp' == rp
    ensures st' == ParseFrom(path, rp', st0, lines[..l + 1])
  {
    assert lines[..l + 1] == lines[..l] + [lines[l]];
    if !st.started {
      ParseIndependent(path, rp, rp', st0, lines[..l]);
    }
    ParseSnoc(path, rp', st0, lines[..l], lines[l]);
  }

  /** `parse_post`: reads the lines of `p` and records the post's date,
      categories and title in the pending maps, its recent-posts entry in
      `short_posts` and its full page in the pending content under
      "url:/" + path. `rpCats` and `catOrder` are the category links the
      recent-posts entry received and the map order they came in. */
  method ParsePost(store: Store, path: string, p: string) returns (ghost rpCats: string, ghost catOrder: seq<string>)
    modifies store`newPostsByDate, store`newCategories, store`newTitles, store`shortPosts, store`newContent
    ensures var st := ParseFrom(path, rpCats,
                                Init(old(store.newPostsByDate), old(store.newCategories), old(store.newTitles)),
                                Split(p, "\n"));
      store.newPostsByDate == st.head.dates &&
      store.newCategories == st.head.cats &&
      store.newTitles == st.head.titles &&
      store.shortPosts == old(store.shortPosts)[path := st.short] &&
      store.newContent == old(store.newContent)["url:/" + path := st.full + PostClose] &&
      (st.started ==> Enumerates(catOrder, CatsWith(path, st.head.cats)) && rpCats == CatLinks(catOrder)) &&
      (!st.started ==> rpCats == "" && catOrder == [])
  {
    var st := Init(store.newPostsByDate, store.newCategories, store.newTitles);
    ghost var st0 := st;
    var lines := Split(p, "\n");
    rpCats, catOrder := "", [];
    var l := 0;
    while l < |lines|
      invariant 0 <= l <= |lines|
      invariant LoopState(path, st, rpCats, catOrder)
      invariant st == ParseFrom(path, rpCats, st0, lines[..l])
      invariant store.shortPosts == old(store.shortPosts) && store.newContent == old(store.newContent)
    {
      ghost var rp, prev := rpCats, st;
      st, rpCats, catOrder := ParseLine(path, st, lines[l], rpCats, catOrder);
      ParseNext(path, rp, rpCats, st0, lines, l, prev, st);
      l := l + 1;
    }
    assert lines[..l] == lines;
    store.newPostsByDate := st.head.dates;
    store.newCategories := st.head.cats;
    store.newTitles := st.head.titles;
    store.shortPosts := store.shortPosts[path := st.short];
    store.newContent := store.newContent["url:/" + path := st.full + PostClose];
  }

  // ---------------------------------------------------------------------
  // The snapshot: category links

  /** The category list of a rebuild: every pending category once, in
      ascending byte-wise order of its name. */
  method CategoriesHtml(cats: map<string, seq<string>>) returns (html: string, ghost sorted: seq<string>)
    ensures Enumerates(sorted, cats.Keys) && SortedBy(sorted, StrLe)
    ensures html == CategoriesEntries(sorted)
  {
    var srr := CollectKeys(cats);
    ghost var keys := srr;
    srr := SortStrings(srr);
    PermutedEnumeration(keys, srr, cats.Keys);
    html := "";
    var k := 0;
    while k < |srr|
      invariant 0 <= k <= |srr|
      invariant html == CategoriesEntries(srr[..k])
    {
      CategoriesEntriesNext(srr, k);
      assert srr[k] in cats;
      var found := HasKey(cats, srr[k]);
      if found {
        html := html + CategoriesEntry(srr[k]);
      }
      k := k + 1;
    }
    assert srr[..k] == srr;
    sorted := srr;
  }

  /** The category list does not depend on the map order: there is one
      sorted enumeration of the category names. */
  lemma SortedCategoriesUnique(o1: seq<string>, o2: seq<string>, cats: set<string>)
    requires Enumerates(o1, cats) && SortedBy(o1, StrLe)
    requires Enumerates(o2, cats) && SortedBy(o2, StrLe)
    ensures o1 == o2
  {
    EnumerationsPermute(o1, o2, cats);
    StrLeIsTotalOrder();
    SortedPermutationUnique(o1, o2, StrLe);
  }

  // ---------------------------------------------------------------------
  // The snapshot: recent posts and post titles by date

  /** The loop that moves the last element of `sr` to the end of `rev`
      until `sr` is empty. */
  method Reverse(sr: seq<int>) returns (rev: seq<int>)
    ensures |rev| == |sr|
    ensures forall i :: 0 <= i < |sr| ==> rev[i] == sr[|sr| - 1 - i]
  {
    rev := [];
    var rest := sr;
    var k := 0;
    while k < |sr|
      invariant 0 <= k <= |sr| && |rev| == k
      invariant rest == sr[..|sr| - k]
      invariant forall i :: 0 <= i < k ==> rev[i] == sr[|sr| - 1 - i]
    {
      rev := rev + [rest[|rest| - 1]];
      rest := rest[..|rest| - 1];
      k := k + 1;
    }
  }

  /** An entry of the post-titles list. */
  function TitleEntry(path: string, title: string): string {
    RootLinkOpen + path + TitleEntryClass + title + LinkClose
  }

  const TitleEntryClass: string := "\" class=\"post_titles_entry\">"

  /** The post-titles entries of `paths`; a path without a title adds nothing. */
  function TitlesOf(titles: map<string, string>, paths: seq<string>): string {
    if |paths| == 0 then ""
    else
      var p := paths[|paths| - 1];
      TitlesOf(titles, paths[..|paths| - 1]) + (if p in titles then TitleEntry(p, titles[p]) else "")
  }

  predicate Descending(s: seq<int>) {
    forall i, j :: 0 <= i < j < |s| ==> s[i] >= s[j]
  }

  /** How the posts of a rebuild are ordered: `stamps` are the Unix seconds
      of all pending dates (listed in the map order `keys`), newest first,
      and `picked[i]` is a post stamped `stamps[i]`. */
  ghost predicate ByDate(dates: map<string, Time>, keys: seq<string>, stamps: seq<int>, picked: seq<string>) {
    Enumerates(keys, dates.Keys) &&
    multiset(stamps) == multiset(Stamps(dates, keys)) &&
    Descending(stamps) &&
    |picked| == |stamps| &&
    forall i :: 0 <= i < |picked| ==> picked[i] in dates && Unix(dates[picked[i]]) == stamps[i]
  }

  lemma ReversedDescending(sorted: seq<int>, rev: seq<int>)
    requires SortedBy(sorted, IntLe)
    requires |rev| == |sorted| && forall i :: 0 <= i < |sorted| ==> rev[i] == sorted[|sorted| - 1 - i]
    ensures Descending(rev) && multiset(rev) == multiset(sorted)
  {
    assert rev == Reversed(sorted);
    ReversedMultiset(sorted);
  }

  function Reversed(s: seq<int>): (r: seq<int>)
    ensures |r| == |s| && forall i :: 0 <= i < |s| ==> r[i] == s[|s| - 1 - i]
  {
    if |s| == 0 then [] else [s[|s| - 1]] + Reversed(s[..|s| - 1])
  }

  lemma {:induction false} ReversedMultiset(s: seq<int>)
    ensures multiset(Reversed(s)) == multiset(s)
  {
    if |s| > 0 {
      ReversedMultiset(s[..|s| - 1]);
      assert s == s[..|s| - 1] + [s[|s| - 1]];
    }
  }

  /** The date loops of a rebuild: the recent-posts fragment holds the
      entries of the 20 newest posts and the post-titles fragment the title
      links of the 40 newest, where a tie between stamps may pick any post
      with that stamp. */
  method RecentPosts(dates: map<string, Time>, shortPosts: map<string, string>, titles: map<string, string>)
    returns (shortHtml: string, titlesHtml: string, ghost keys: seq<string>, ghost stamps: seq<int>, ghost picked: seq<string>)
    ensures ByDate(dates, keys, stamps, picked)
    ensures shortHtml == ShortsOf(shortPosts, picked[..Min(20, |picked|)])
    ensures titlesHtml == TitlesOf(titles, picked[..Min(40, |picked|)])
  {
    var sr;
    sr, keys := CollectStamps(dates);
    var sorted := SortInts(sr);
    var rev := Reverse(sorted);
    ReversedDescending(sorted, rev);
    stamps := rev;
    shortHtml, titlesHtml, picked := PickPosts(dates, keys, rev, shortPosts, titles);
  }

  /** Each picked post has the stamp at its position. */
  ghost predicate Owners(dates: map<string, Time>, picked: seq<string>, rev: seq<int>)
    requires |picked| <= |rev|
  {
    forall i :: 0 <= i < |picked| ==> picked[i] in dates && Unix(dates[picked[i]]) == rev[i]
  }

  lemma OwnersSnoc(dates: map<string, Time>, picked: seq<string>, rev: seq<int>, path: string)
    requires |picked| < |rev| && Owners(dates, picked, rev)
    requires path in dates && Unix(dates[path]) == rev[|picked|]
    ensures Owners(dates, picked + [path], rev)
  {
  }

  /** The loop over the stamps, newest first, that looks up a post with
      each stamp and appends its entries while under the caps. */
  method PickPosts(dates: map<string, Time>, ghost keys: seq<string>, rev: seq<int>,
                   shortPosts: map<string, string>, titles: map<string, string>)
    returns (shortHtml: string, titlesHtml: string, ghost picked: seq<string>)
    requires Enumerates(keys, dates.Keys) && multiset(rev) == multiset(Stamps(dates, keys))
    ensures |picked| == |rev|
    ensures forall i :: 0 <= i < |picked| ==> picked[i] in dates && Unix(dates[picked[i]]) == rev[i]
    ensures shortHtml == ShortsOf(shortPosts, picked[..Min(20, |picked|)])
    ensures titlesHtml == TitlesOf(titles, picked[..Min(40, |picked|)])
  {
    shortHtml, titlesHtml, picked := "", "", [];
    var count := 0;
    var k := 0;
    while k < |rev|
      invariant 0 <= k <= |rev| && count == |picked| == k
      invariant Owners(dates, picked, rev)
      invariant shortHtml == ShortsOf(shortPosts, picked[..Min(20, k)])
      invariant titlesHtml == TitlesOf(titles, picked[..Min(40, k)])
    {
      StampOwner(dates, keys, rev, k);
      var found := FindByStamp(dates, rev[k]);
      var path := found.value;
      FragmentsStep(shortPosts, titles, picked, path);
      ghost var short0, titles0 := shortHtml, titlesHtml;
      if count < 20 {
        var has := HasKey(shortPosts, path);
        if has {
          shortHtml := shortHtml + shortPosts[path];
        }
      }
      if count < 40 {
        var has := HasKey(titles, path);
        if has {
          titlesHtml := titlesHtml + TitleEntry(path, titles[path]);
        }
      }
      assert shortHtml == short0 + (if k < 20 then Get(shortPosts, path, "") else "");
      assert titlesHtml == titles0 + (if k < 40 && path in titles then TitleEntry(path, titles[path]) else "");
      count := count + 1;
      OwnersSnoc(dates, picked, rev, path);
      picked := picked + [path];
      k := k + 1;
    }
  }

  /** One more picked post adds its entries while under the caps. */
  lemma FragmentsStep(shortPosts: map<string, string>, titles: map<string, string>, picked: seq<string>, path: string)
    ensures var k := |picked|;
      ShortsOf(shortPosts, (picked + [path])[..Min(20, k + 1)]) ==
        ShortsOf(shortPosts, picked[..Min(20, k)]) + (if k < 20 then Get(shortPosts, path, "") else "")
    ensures var k := |picked|;
      TitlesOf(titles, (picked + [path])[..Min(40, k + 1)]) ==
        TitlesOf(titles, picked[..Min(40, k)]) + (if k < 40 && path in titles then TitleEntry(path, titles[path]) else "")
  {
    var k := |picked|;
    var next := picked + [path];
    if k < 20 {
      assert next[..k + 1] == picked[..k] + [path];
      ShortsOfSnoc(shortPosts, picked[..k], path);
    } else {
      assert next[..20] == picked[..20];
    }
    if k < 40 {
      assert next[..k + 1] == picked[..k] + [path];
      TitlesOfSnoc(titles, picked[..k], path);
    } else {
      assert next[..40] == picked[..40];
    }
  }

  lemma TitlesOfSnoc(titles: map<string, string>, paths: seq<string>, path: string)
    ensures TitlesOf(titles, paths + [path]) ==
      TitlesOf(titles, paths) + (if path in titles then TitleEntry(path, titles[path]) else "")
  {
    assert (paths + [path])[..|paths|] == paths;
  }

  /** With distinct stamps every dated post is picked exactly once, newest
      first, and posts without a date are never picked. */
  lemma NewestFirst(dates: map<string, Time>, keys: seq<string>, stamps: seq<int>, picked: seq<string>)
    requires ByDate(dates, keys, stamps, picked)
    requires forall a, b :: a in dates && b in dates && a != b ==> Unix(dates[a]) != Unix(dates[b])
    ensures Enumerates(picked, dates.Keys)
    ensures forall i, j :: 0 <= i < j < |picked| ==> Unix(dates[picked[i]]) > Unix(dates[picked[j]])
  {
    var all := Stamps(dates, keys);
    var values := set x | x in all;
    assert Enumerates(all, values) by {
      forall i, j | 0 <= i < j < |all| ensures all[i] != all[j] {
        assert keys[i] != keys[j];
      }
    }
    PermutedEnumeration(all, stamps, values);
    forall i, j | 0 <= i < j < |picked| ensures picked[i] != picked[j] {
      assert stamps[i] != stamps[j];
    }
    EnumerationsPermute(keys, keys, dates.Keys);
    FullEnumeration(picked, dates.Keys);
  }

  /** When two posts share a stamp, each lookup may find the same one: the
      model admits a listing that shows one of them twice and the other
      never. */
  lemma TiedStampsMayRepeat(a: string, b: string, t: int)
    requires a != b
    ensures var dates := map[a := UnixTime(t), b := UnixTime(t)];
      ByDate(dates, [a, b], [t, t], [a, a])
  {
    var dates := map[a := UnixTime(t), b := UnixTime(t)];
    assert Stamps(dates, [a, b]) == [t, t];
  }

  // ---------------------------------------------------------------------
  // The snapshot: the template

  /** The marker lines of `main/index.html`; each template line is followed
      by "\n". */
  const Marks: Markers := Markers(
    "<!-- ######categories###### -->",
    "<!-- ######posts###### -->",
    "<!-- ######post_titles###### -->",
    "\n")

  /** The fragments of a rebuild, in terms of the category order and the
      picked posts. */
  function SnapshotFragments(sorted: seq<string>, picked: seq<string>,
                             shortPosts: map<string, string>, titles: map<string, string>): Fragments {
    Fragments(CategoriesEntries(sorted),
              ShortsOf(shortPosts, picked[..Min(20, |picked|)]),
              TitlesOf(titles, picked[..Min(40, |picked|)]))
  }

  /** What a rebuild produces from the pending categories, dates, titles and
      recent-posts entries: the categories sorted by name, the posts ordered
      newest first (`ByDate`), and the index page, header and footer the
      template gives with those fragments. */
  ghost predicate Snapshotted(categories: map<string, seq<string>>, dates: map<string, Time>,
                              shortPosts: map<string, string>, titles: map<string, string>, index: string,
                              sorted: seq<string>, keys: seq<string>, stamps: seq<int>, picked: seq<string>,
                              page: string, header: string, footer: string)
  {
    Enumerates(sorted, categories.Keys) && SortedBy(sorted, StrLe) &&
    ByDate(dates, keys, stamps, picked) &&
    var f := SnapshotFragments(sorted, picked, shortPosts, titles);
    var lines := Split(index, "\n");
    page == Terminated(RenderLines(Marks, f, lines), "\n") &&
    header == Fill(Marks, f, RawHeader(Marks, lines)) &&
    footer == Fill(Marks, f, RawFooter(Marks, lines))
  }

  /** The rebuild of `content_loop`: the category list, the date-ordered
      fragments and the template split, stored as the pending index page,
      header and footer. */
  method Rebuild(store: Store, index: string)
    returns (page: string, header: string, footer: string,
             ghost sorted: seq<string>, ghost keys: seq<string>, ghost stamps: seq<int>, ghost picked: seq<string>)
    modifies store`newContent
    ensures var w := old(store.PendingMaps());
      Snapshotted(w.cats, w.dates, w.shorts, w.titles, index, sorted, keys, stamps, picked, page, header, footer)
    ensures store.newContent == old(store.newContent)["url:/" := page]["header" := header]["footer" := footer]
  {
    var categories, dates, shortPosts, titles := store.newCategories, store.newPostsByDate, store.shortPosts, store.newTitles;
    page, header, footer, sorted, keys, stamps, picked := Snapshot(categories, dates, shortPosts, titles, index);
    // The header and footer entries are cleared first and then overwritten;
    // nothing reads them in between, so only the final values are written.
    store.StoreIndex(page, header, footer);
  }

  /** The fragments and the template split of a rebuild, from the pending
      categories, dates and titles and the recent-posts entries. */
  method Snapshot(categories: map<string, seq<string>>, dates: map<string, Time>,
                  shortPosts: map<string, string>, titles: map<string, string>, index: string)
    returns (page: string, header: string, footer: string,
             ghost sorted: seq<string>, ghost keys: seq<string>, ghost stamps: seq<int>, ghost picked: seq<string>)
    ensures Snapshotted(categories, dates, shortPosts, titles, index, sorted, keys, stamps, picked, page, header, footer)
  {
    var categoriesHtml;
    categoriesHtml, sorted := CategoriesHtml(categories);
    var shortPostsHtml, postTitlesHtml;
    shortPostsHtml, postTitlesHtml, keys, stamps, picked := RecentPosts(dates, shortPosts, titles);
    assert Fragments(categoriesHtml, shortPostsHtml, postTitlesHtml) == SnapshotFragments(sorted, picked, shortPosts, titles);
    page, header, footer := SplitTemplate(Marks, Fragments(categoriesHtml, shortPostsHtml, postTitlesHtml), index);
  }

  /** A template without marker lines becomes an index page one "\n"
      longer than the template, so it never equals the template and every
      cycle rebuilds. */
  lemma PlainTemplateRebuilds(f: Fragments, index: string)
    requires var lines := Split(index, "\n");
      Marks.categories !in lines && Marks.posts !in lines && Marks.titles !in lines
    ensures Terminated(RenderLines(Marks, f, Split(index, "\n")), "\n") == index + "\n"
  {
    PlainTemplate(Marks, f, index);
    TerminatedOfSplit(index, "\n");
  }

  // ---------------------------------------------------------------------
  // The walk and the content cycle

  /** Whether the callback parses an entry: a ".blog" file other than the
      root, read without error, whose bytes differ from the stored full
      post under "url:/" + path. */
  predicate Reparse(content: map<string, string>, e: WalkEntry) {
    e.path != "posts" && IsBlogPath(e.path) && e.file.Some? && Get(content, "url:/" + e.path, "") != e.file.value
  }

  /** The entries the walk visits: up to the first one with an error. */
  function WalkLength(entries: seq<WalkEntry>): (n: nat)
    ensures n <= |entries|
    ensures forall i :: 0 <= i < n ==> !entries[i].err
    ensures n < |entries| ==> entries[n].err
  {
    if |entries| == 0 || entries[0].err then 0 else 1 + WalkLength(entries[1..])
  }

  /** The paths parsed among `entries`, in walk order. */
  function Reparsed(content: map<string, string>, entries: seq<WalkEntry>): seq<string> {
    if |entries| == 0 then []
    else
      var e := entries[|entries| - 1];
      Reparsed(content, entries[..|entries| - 1]) + (if Reparse(content, e) then [e.path] else [])
  }

  /** Only ".blog" paths other than the root are ever parsed, and each one
      is a readable entry whose bytes differ from what is stored under
      `"url:/" + path`. */
  lemma {:induction false} ReparsedAreBlogFiles(content: map<string, string>, entries: seq<WalkEntry>)
    ensures forall p :: p in Reparsed(content, entries) ==> p != "posts" && IsBlogPath(p)
    ensures forall p :: p in Reparsed(content, entries) ==>
      exists e :: e in entries && e.path == p && e.file.Some? && Get(content, "url:/" + p, "") != e.file.value
  {
    if |entries| > 0 {
      var init := entries[..|entries| - 1];
      ReparsedAreBlogFiles(content, init);
      forall p | p in Reparsed(content, entries)
        ensures exists e :: e in entries && e.path == p && e.file.Some? && Get(content, "url:/" + p, "") != e.file.value
      {
        if p in Reparsed(content, init) {
          var e :| e in init && e.path == p && e.file.Some? && Get(content, "url:/" + p, "") != e.file.value;
          assert e in entries;
        } else {
          assert entries[|entries| - 1] in entries;
        }
      }
    }
  }

  /** The full page a parse stores: the opening tag, then (once a block-2
      line was read) the title, date and categories heading and every
      block-2 line, blank or not, followed by "\n", then the closing tags. */
  lemma StoredFullPost(path: string, rpCats: string, st0: Post, lines: seq<string>)
    requires st0 == Init(st0.head.dates, st0.head.cats, st0.head.titles)
    ensures var st := ParseFrom(path, rpCats, st0, lines);
      var stored := st.full + PostClose;
      HasPrefix(stored, FullOpen) && HasSuffix(stored, PostClose) &&
      stored == FullOpen + (if InBlock(lines, 2) == [] then ""
                            else FullHeader(st.head) + Terminated(InBlock(lines, 2), "\n")) + PostClose
  {
    ParseShape(path, rpCats, st0, lines);
    var st := ParseFrom(path, rpCats, st0, lines);
    var mid := if InBlock(lines, 2) == [] then "" else FullHeader(st.head) + Terminated(InBlock(lines, 2), "\n");
    var stored := FullOpen + mid + PostClose;
    assert stored[..|FullOpen|] == FullOpen;
    assert stored[|stored| - |PostClose|..] == PostClose;
  }

  /** A stored full post begins with the post's opening tag, so a file that
      does not is parsed again in every cycle. */
  lemma StoredPostDiffersFromSource(path: string, rpCats: string, st0: Post, lines: seq<string>, file: string)
    requires st0 == Init(st0.head.dates, st0.head.cats, st0.head.titles)
    requires !HasPrefix(file, FullOpen)
    ensures ParseFrom(path, rpCats, st0, lines).full + PostClose != file
  {
    ParseShape(path, rpCats, st0, lines);
    var stored := ParseFrom(path, rpCats, st0, lines).full + PostClose;
    assert stored[..|FullOpen|] == FullOpen;
  }

  /** The pending maps after `parse_post(path, file)`, where `rpCats` are
      the category links its recent-posts entry received. */
  function ParsedInto(s: Pending, path: string, file: string, rpCats: string): Pending {
    var st := ParseFrom(path, rpCats, Init(s.dates, s.cats, s.titles), Split(file, "\n"));
    Pending(st.head.dates, st.head.cats, st.head.titles, s.shorts[path := st.short], s.content["url:/" + path := st.full + PostClose])
  }

  /** The category links `parse_post` may give the recent-posts entry: those
      of the post's pending categories in some map order once the full block
      started, none otherwise. */
  ghost predicate LinksFor(s: Pending, path: string, file: string, rpCats: string) {
    var st := ParseFrom(path, rpCats, Init(s.dates, s.cats, s.titles), Split(file, "\n"));
    if st.started then exists order :: Enumerates(order, CatsWith(path, st.head.cats)) && rpCats == CatLinks(order)
    else rpCats == ""
  }

  /** The pending maps after the walk over `entries`: the selected entries
      parsed one after the other in walk order, the j-th with the category
      links `rps[j]`. */
  function Walked(s: Pending, content: map<string, string>, entries: seq<WalkEntry>, rps: seq<string>): Pending
    requires |rps| == |Reparsed(content, entries)|
    decreases |entries|
  {
    if |entries| == 0 then s
    else
      var init, e := entries[..|entries| - 1], entries[|entries| - 1];
      var k := |Reparsed(content, init)|;
      var before := Walked(s, content, init, rps[..k]);
      if Reparse(content, e) then ParsedInto(before, e.path, e.file.value, rps[k]) else before
  }

  /** Every parse of the walk received category links `parse_post` may give. */
  ghost predicate WalkLinks(s: Pending, content: map<string, string>, entries: seq<WalkEntry>, rps: seq<string>)
    requires |rps| == |Reparsed(content, entries)|
    decreases |entries|
  {
    |entries| == 0 ||
    var init, e := entries[..|entries| - 1], entries[|entries| - 1];
    var k := |Reparsed(content, init)|;
    WalkLinks(s, content, init, rps[..k]) &&
    (Reparse(content, e) ==> LinksFor(Walked(s, content, init, rps[..k]), e.path, e.file.value, rps[k]))
  }

  /** Every post the walk parsed keeps its recent-posts entry and a
      non-empty page to the end of the walk. */
  lemma {:induction false} WalkedPages(s: Pending, content: map<string, string>, entries: seq<WalkEntry>, rps: seq<string>)
    requires |rps| == |Reparsed(content, entries)|
    ensures var w := Walked(s, content, entries, rps);
      forall p :: p in Reparsed(content, entries) ==> p in w.shorts && Get(w.content, "url:/" + p, "") != ""
    decreases |entries|
  {
    if |entries| > 0 {
      var init, e := entries[..|entries| - 1], entries[|entries| - 1];
      var k := |Reparsed(content, init)|;
      WalkedPages(s, content, init, rps[..k]);
      var before := Walked(s, content, init, rps[..k]);
      if Reparse(content, e) {
        var w := ParsedInto(before, e.path, e.file.value, rps[k]);
        assert |PostClose| > 0;
        forall p | p in Reparsed(content, entries)
          ensures p in w.shorts && Get(w.content, "url:/" + p, "") != ""
        {
          if "url:/" + p != "url:/" + e.path {
            assert p in Reparsed(content, init);
          }
        }
      }
    }
  }

  /** The walk after its first `i` entries: `parsed` and `rps` are the paths
      parsed and the category links they received, and `cur` the pending
      maps. */
  ghost predicate WalkedSoFar(start: Pending, content: map<string, string>, entries: seq<WalkEntry>, i: int,
                              parsed: seq<string>, rps: seq<string>, cur: Pending)
  {
    0 <= i <= |entries| && parsed == Reparsed(content, entries[..i]) && |rps| == |parsed| &&
    cur == Walked(start, content, entries[..i], rps) && WalkLinks(start, content, entries[..i], rps)
  }

  /** One more entry of the walk: a selected entry is parsed into the
      pending maps, any other leaves them as they are. */
  lemma WalkNext(start: Pending, content: map<string, string>, entries: seq<WalkEntry>, i: int,
                 parsed: seq<string>, rps: seq<string>, cur: Pending, rp: string, next: Pending)
    requires i < |entries| && WalkedSoFar(start, content, entries, i, parsed, rps, cur)
    requires var e := entries[i];
      if Reparse(content, e) then next == ParsedInto(cur, e.path, e.file.value, rp) && LinksFor(cur, e.path, e.file.value, rp)
      else next == cur
    ensures var e := entries[i];
      if Reparse(content, e) then WalkedSoFar(start, content, entries, i + 1, parsed + [e.path], rps + [rp], next)
      else WalkedSoFar(start, content, entries, i + 1, parsed, rps, next)
  {
    var pre, e := entries[..i + 1], entries[i];
    assert pre[..|pre| - 1] == entries[..i] && pre[|pre| - 1] == e;
    var k := |rps|;
    assert Reparsed(content, pre) == parsed + (if Reparse(content, e) then [e.path] else []);
    if Reparse(content, e) {
      var rps' := rps + [rp];
      assert rps'[..k] == rps && rps'[k] == rp;
      assert Walked(start, content, pre, rps') == ParsedInto(cur, e.path, e.file.value, rp);
      assert WalkLinks(start, content, pre, rps');
    } else {
      assert rps[..k] == rps;
      assert Walked(start, content, pre, rps) == cur;
      assert WalkLinks(start, content, pre, rps);
    }
  }


  /** The callback for one entry without an error: parses it when
      `Reparse` selects it. */
  method VisitEntry(store: Store, e: WalkEntry) returns (parsed: bool, ghost rpCats: string)
    modifies store`newPostsByDate, store`newCategories, store`newTitles, store`shortPosts, store`newContent
    ensures parsed == Reparse(store.content, e)
    ensures parsed ==> store.PendingMaps() == ParsedInto(old(store.PendingMaps()), e.path, e.file.value, rpCats)
    ensures parsed ==> LinksFor(old(store.PendingMaps()), e.path, e.file.value, rpCats)
    ensures !parsed ==> unchanged(store`newPostsByDate, store`newCategories, store`newTitles, store`shortPosts, store`newContent)
  {
    parsed, rpCats := false, "";
    if e.path != "posts" && Index(e.path, ".blog") == |e.path| - 5 {
      if e.file.Some? && Get(store.content, "url:/" + e.path, "") != e.file.value {
        ghost var order;
        rpCats, order := ParsePost(store, e.path, e.file.value);
        parsed := true;
      }
    }
  }


  /** The walk over the post files: parses each entry `Reparse` selects, in
      walk order, and stops at the first entry with an error. */
  method Walk(store: Store, entries: seq<WalkEntry>) returns (update: bool, ghost parsed: seq<string>, ghost rps: seq<string>)
    modifies store`newPostsByDate, store`newCategories, store`newTitles, store`shortPosts, store`newContent
    ensures parsed == Reparsed(store.content, entries[..WalkLength(entries)])
    ensures update <==> |parsed| > 0
    ensures |rps| == |parsed|
    ensures store.PendingMaps() == Walked(old(store.PendingMaps()), store.content, entries[..WalkLength(entries)], rps)
    ensures WalkLinks(old(store.PendingMaps()), store.content, entries[..WalkLength(entries)], rps)
    ensures !update ==> unchanged(store`newPostsByDate, store`newCategories, store`newTitles, store`shortPosts, store`newContent)
  {
    update, parsed, rps := false, [], [];
    ghost var n := WalkLength(entries);
    ghost var start := store.PendingMaps();
    var i := 0;
    while i < |entries|
      invariant i <= n
      invariant WalkedSoFar(start, store.content, entries, i, parsed, rps, store.PendingMaps())
      invariant update <==> |parsed| > 0
      invariant !update ==> store.PendingMaps() == start
    {
      var e := entries[i];
      if e.err {
        break;
      }
      ghost var cur := store.PendingMaps();
      ghost var rp;
      var p;
      p, rp := VisitEntry(store, e);
      WalkNext(start, store.content, entries, i, parsed, rps, cur, rp, store.PendingMaps());
      if p {
        update := true;
        parsed := parsed + [e.path];
        rps := rps + [rp];
      }
      i := i + 1;
    }
    assert entries[..i] == entries[..n];
  }

  /** The state after a rebuild and publish from the pending maps `w`: the
      rebuild is the snapshot of `w` and the template `index`; every pending
      map and `short_posts` is drained; each live map holds exactly the
      non-empty entries of its pending map, the pending pages including the
      index page, header and footer. */
  ghost predicate PublishedState(store: Store, w: Pending, index: string,
                                 sorted: seq<string>, keys: seq<string>, stamps: seq<int>, picked: seq<string>,
                                 page: string, header: string, footer: string)
    reads store
  {
    Snapshotted(w.cats, w.dates, w.shorts, w.titles, index, sorted, keys, stamps, picked, page, header, footer) &&
    !store.updatingContent &&
    store.newContent == map[] && store.newCategories == map[] && store.newPostsByDate == map[] &&
    store.newTitles == map[] && store.shortPosts == map[] &&
    store.categories == NonEmpty(w.cats, []) &&
    store.postsByDate == NonEmpty(w.dates, ZeroTime) &&
    store.titles == NonEmpty(w.titles, "") &&
    store.content == NonEmpty(w.content["url:/" := page]["header" := header]["footer" := footer], "")
  }

  /** The pages a publish step makes live: the index page, header and
      footer, and every post page that was pending and non-empty. */
  lemma PublishedPages(pending: map<string, string>, page: string, header: string, footer: string, parsed: seq<string>)
    requires forall p :: p in parsed ==> |p| > 0 && Get(pending, "url:/" + p, "") != ""
    ensures var live := NonEmpty(pending["url:/" := page]["header" := header]["footer" := footer], "");
      Get(live, "url:/", "") == page && Get(live, "header", "") == header && Get(live, "footer", "") == footer &&
      forall p :: p in parsed ==> "url:/" + p in live && live["url:/" + p] == Get(pending, "url:/" + p, "")
  {
    var m := pending["url:/" := page]["header" := header]["footer" := footer];
    EntryKeysDistinct("posts");
    ThreeUpdates(pending, "url:/", "header", "footer", page, header, footer, "");
    GetNonEmpty(m, "url:/", "");
    GetNonEmpty(m, "header", "");
    GetNonEmpty(m, "footer", "");
    forall p | p in parsed
      ensures "url:/" + p in NonEmpty(m, "") && NonEmpty(m, "")["url:/" + p] == Get(pending, "url:/" + p, "")
    {
      EntryKeysDistinct(p);
      GetNonEmpty(m, "url:/" + p, "");
    }
  }

  /** The rebuild and the publish step of a cycle. */
  method RebuildAndPublish(store: Store, index: string)
    returns (ghost page: string, ghost header: string, ghost footer: string,
             ghost sorted: seq<string>, ghost keys: seq<string>, ghost stamps: seq<int>, ghost picked: seq<string>)
    modifies store
    ensures PublishedState(store, old(store.PendingMaps()), index, sorted, keys, stamps, picked, page, header, footer)
  {
    ghost var w := store.PendingMaps();
    page, header, footer, sorted, keys, stamps, picked := Rebuild(store, index);
    assert store.newContent == w.content["url:/" := page]["header" := header]["footer" := footer];
    store.Publish();
  }

  /** One cycle of `content_loop`: the walk, the template read (`None` when
      it fails), the rebuild when the template differs from the live index
      page or a post was parsed, and the publish step after a rebuild. */
  method ContentCycle(store: Store, entries: seq<WalkEntry>, index: Option<string>)
    returns (r: Cycle, ghost parsed: seq<string>, ghost rps: seq<string>, ghost walked: Pending,
             ghost page: string, ghost header: string, ghost footer: string,
             ghost sorted: seq<string>, ghost keys: seq<string>, ghost stamps: seq<int>, ghost picked: seq<string>)
    modifies store
    ensures parsed == Reparsed(old(store.content), entries[..WalkLength(entries)])
    ensures |rps| == |parsed|
    ensures walked == Walked(old(store.PendingMaps()), old(store.content), entries[..WalkLength(entries)], rps)
    ensures WalkLinks(old(store.PendingMaps()), old(store.content), entries[..WalkLength(entries)], rps)
    ensures r == Exited <==> index.None?
    ensures index.Some? ==>
      (r == Published <==> index.value != Get(old(store.content), "url:/", "") || |parsed| > 0)
    ensures r == Kept ==> unchanged(store)
    ensures r != Published ==> store.PendingMaps() == walked
    ensures r == Published ==>
      PublishedState(store, walked, index.value, sorted, keys, stamps, picked, page, header, footer) &&
      Get(store.content, "url:/", "") == page &&
      Get(store.content, "header", "") == header &&
      Get(store.content, "footer", "") == footer &&
      (forall p :: p in parsed ==> "url:/" + p in store.content)
  {
    page, header, footer, sorted, keys, stamps, picked := "", "", "", [], [], [], [];
    var update;
    update, parsed, rps := Walk(store, entries);
    walked := store.PendingMaps();
    if index.None? {
      r := Exited;
      return;
    }
    if index.value != Get(store.content, "url:/", "") || update {
      ReparsedAreBlogFiles(old(store.content), entries[..WalkLength(entries)]);
      WalkedPages(old(store.PendingMaps()), old(store.content), entries[..WalkLength(entries)], rps);
      ghost var pending := store.newContent;
      page, header, footer, sorted, keys, stamps, picked := RebuildAndPublish(store, index.value);
      PublishedPages(pending, page, header, footer, parsed);
      r := Published;
    } else {
      r := Kept;
    }
  }


  // ---------------------------------------------------------------------
  // Requests

  /** One line of a category page: the post's link with its title, and its
      live date in Unix seconds. */
  function CategoryEntry(path: string, title: string, ts: int): string {
    CategoryEntryOpen + path + CategoryLinkClass + title + CategoryDate + FormatInt(ts) + SpanClose + DivClose
  }

  const CategoryEntryOpen: string := "<div class=\"category_post_entry\"><a href=\"/"
  const CategoryLinkClass: string := "\" class=\"category_post_link\">"
  const CategoryDate: string := "</a><span class=\"unix_ts category_post_date\">"
  const CategoryTitleOpen: string := "<span class=\"category_title\">"

  /** The entries of a category page for `posts`, in list order, titles and
      dates read from the live maps (zero values when absent). */
  function CategoryEntries(posts: seq<string>, titles: map<string, string>, dates: map<string, Time>): string {
    if |posts| == 0 then ""
    else
      var p := posts[|posts| - 1];
      CategoryEntries(posts[..|posts| - 1], titles, dates) + CategoryEntry(p, Get(titles, p, ""), Unix(Get(dates, p, ZeroTime)))
  }

  /** A category page lists its posts in order: the entries of a list are
      those of its two parts, one after the other. */
  lemma {:induction false} CategoryEntriesAppend(a: seq<string>, b: seq<string>, titles: map<string, string>, dates: map<string, Time>)
    ensures CategoryEntries(a + b, titles, dates) == CategoryEntries(a, titles, dates) + CategoryEntries(b, titles, dates)
    decreases |b|
  {
    if |b| == 0 {
      assert a + b == a;
    } else {
      var b' := b[..|b| - 1];
      var p := b[|b| - 1];
      assert (a + b)[..|a + b| - 1] == a + b';
      CategoryEntriesAppend(a, b', titles, dates);
      ConcatAssoc(CategoryEntries(a, titles, dates), CategoryEntries(b', titles, dates),
                  CategoryEntry(p, Get(titles, p, ""), Unix(Get(dates, p, ZeroTime))));
    }
  }

  lemma CategoryEntriesSnoc(posts: seq<string>, p: string, titles: map<string, string>, dates: map<string, Time>)
    ensures CategoryEntries(posts + [p], titles, dates) ==
      CategoryEntries(posts, titles, dates) + CategoryEntry(p, Get(titles, p, ""), Unix(Get(dates, p, ZeroTime)))
  {
    assert (posts + [p])[..|posts|] == posts;
  }

  /** The body of an existing category's page, between the live header and
      footer. */
  function CategoryBody(cat: string, posts: seq<string>, titles: map<string, string>, dates: map<string, Time>): string {
    CategoryTitleOpen + cat + SpanClose + CategoryEntries(posts, titles, dates)
  }

  /** The category branch of the handler: a page when the live list of
      `cat` is non-empty, "not found" otherwise. */
  function CategoryResponse(categories: map<string, seq<string>>, titles: map<string, string>, dates: map<string, Time>,
                            content: map<string, string>, cat: string): (r: Response)
    ensures r.status == 200 <==> |Get(categories, cat, [])| > 0
    ensures r.status != 200 ==> r == NotFound()
  {
    var posts := Get(categories, cat, []);
    if |posts| > 0 then
      Response(200, CacheControl, Some("text/html"),
               Text(Get(content, "header", "") + (CategoryBody(cat, posts, titles, dates) + Get(content, "footer", ""))))
    else NotFound()
  }

  /** The category branch as the handler runs it: the entries are built one
      post at a time with the live-map lookups. */
  method CategoryPage(store: Store, cat: string) returns (r: Response)
    ensures r == CategoryResponse(store.categories, store.titles, store.postsByDate, store.content, cat)
  {
    var posts := Get(store.categories, cat, []);
    if |posts| > 0 {
      ghost var titles, dates := store.titles, store.postsByDate;
      var s := CategoryTitleOpen + cat + SpanClose;
      assert s == CategoryBody(cat, posts[..0], titles, dates);
      var i := 0;
      while i < |posts|
        invariant 0 <= i <= |posts|
        invariant s == CategoryBody(cat, posts[..i], titles, dates)
      {
        var postPath := posts[i];
        var title := store.GetPostTitle(postPath);
        var ts := store.GetPostTs(postPath, false);
        CategoryBodyNext(cat, posts, i, titles, dates);
        s := s + CategoryEntry(postPath, title, ts);
        i := i + 1;
      }
      assert posts[..i] == posts;
      r := Response(200, CacheControl, Some("text/html"),
                    Text(Get(store.content, "header", "") + (s + Get(store.content, "footer", ""))));
    } else {
      r := NotFound();
    }
  }

  lemma CategoryBodyNext(cat: string, posts: seq<string>, i: int, titles: map<string, string>, dates: map<string, Time>)
    requires 0 <= i < |posts|
    ensures CategoryBody(cat, posts[..i + 1], titles, dates) ==
      CategoryBody(cat, posts[..i], titles, dates) + CategoryEntry(posts[i], Get(titles, posts[i], ""), Unix(Get(dates, posts[i], ZeroTime)))
  {
    assert posts[..i + 1] == posts[..i] + [posts[i]];
    CategoryEntriesSnoc(posts[..i], posts[i], titles, dates);
    ConcatAssoc(CategoryTitleOpen + cat + SpanClose, CategoryEntries(posts[..i], titles, dates),
                CategoryEntry(posts[i], Get(titles, posts[i], ""), Unix(Get(dates, posts[i], ZeroTime))));
  }

  /** The response to a request for `path` from the live maps; `openable`
      are the files under the main directory that open. */
  function Respond(categories: map<string, seq<string>>, titles: map<string, string>, dates: map<string, Time>,
                   content: map<string, string>, openable: set<string>, path: string): (r: Response)
    ensures r.cacheControl == CacheControl
  {
    match SelectRoute(path)
    case CategoryView(cat) => CategoryResponse(categories, titles, dates, content, cat)
    case _ => CommonResponse(SelectRoute(path), content, openable, path)
  }

  /** `handle_http_request`, once no publish step is running. */
  method HandleRequest(store: Store, path: string, openable: set<string>) returns (r: Response)
    ensures r == Respond(store.categories, store.titles, store.postsByDate, store.content, openable, path)
  {
    if path == "/" {
      r := Response(200, CacheControl, Some("text/html"), Text(Get(store.content, "url:/", "")));
    } else if Index(path, "/categories/") == 0 {
      r := CategoryPage(store, TrimPrefix(path, "/categories/"));
    } else {
      r := CommonResponse(SelectRoute(path), store.content, openable, path);
    }
  }

  /** A post the walk found at `p` (a path under "posts/") is served at
      "/" + p, framed by the live header and footer, once its full page is
      live. */
  lemma PublishedPostServed(categories: map<string, seq<string>>, titles: map<string, string>, dates: map<string, Time>,
                            content: map<string, string>, openable: set<string>, p: string)
    requires HasPrefix(p, "posts/") && Get(content, "url:/" + p, "") != ""
    ensures Respond(categories, titles, dates, content, openable, "/" + p) ==
      Response(200, CacheControl, Some("text/html"),
               Text(Get(content, "header", "") + Get(content, "url:/" + p, "") + Get(content, "footer", "")))
  {
    var path := "/" + p;
    assert path[..|"/posts/"|] == "/" + p[..|"posts/"|];
    PostPrefixWins(path);
    assert "url:" + path == "url:/" + p;
  }

  /** An existing category is served with its entries between the live
      header and footer; any other category name is "not found". */
  lemma CategoryServed(categories: map<string, seq<string>>, titles: map<string, string>, dates: map<string, Time>,
                       content: map<string, string>, openable: set<string>, cat: string)
    ensures var r := Respond(categories, titles, dates, content, openable, "/categories/" + cat);
      var posts := Get(categories, cat, []);
      (|posts| > 0 ==>
         r.status == 200 &&
         r.body == Text(Get(content, "header", "") + (CategoryBody(cat, posts, titles, dates) + Get(content, "footer", "")))) &&
      (|posts| == 0 ==> r == NotFound())
  {
    var path := "/categories/" + cat;
    assert path[..|"/categories/"|] == "/categories/";
    assert path != "/" by { assert |path| > 1; }
    SelectRouteCases(path);
  }

  /** A post without a live date is listed with the zero time's stamp, the
      start of year 1. */
  lemma UndatedPostStamp(p: string, title: string, dates: map<string, Time>)
    requires p !in dates
    ensures CategoryEntries([p], map[p := title], dates) == CategoryEntry(p, title, -62135596800)
  {
    assert [p][..0] == [];
  }

  // ---------------------------------------------------------------------
  // timeago

  /** The count and unit `timeago` gives for `ago` seconds: years of 365
      days, months of 30 days, days, hours, minutes, or seconds. */
  function AgoParts(ago: int): (r: (int, string))
    ensures r.1 == "y" <==> ago >= 31536000
    ensures r.1 == "d" <==> 86400 <= ago < 2592000
    ensures r.1 == "h" <==> 3600 <= ago < 86400
    ensures r.1 == "s" <==> ago < 60
    ensures r.1 == "m" <==> 60 <= ago < 3600 || 2592000 <= ago < 31536000
    ensures r.1 == "s" ==> r.0 == ago
    ensures ago >= 31536000 ==> r.0 * 31536000 <= ago < (r.0 + 1) * 31536000
    ensures 2592000 <= ago < 31536000 ==> r.0 * 2592000 <= ago < (r.0 + 1) * 2592000 && 1 <= r.0 <= 12
    ensures 86400 <= ago < 2592000 ==> r.0 * 86400 <= ago < (r.0 + 1) * 86400 && 1 <= r.0 <= 29
    ensures 3600 <= ago < 86400 ==> r.0 * 3600 <= ago < (r.0 + 1) * 3600 && 1 <= r.0 <= 23
    ensures 60 <= ago < 3600 ==> r.0 * 60 <= ago < (r.0 + 1) * 60 && 1 <= r.0 <= 59
  {
    // Go's division truncates toward zero; every divided value here is
    // positive, where it agrees with Dafny's.
    if ago >= 31536000 then (ago / 31536000, "y")
    else if ago >= 2592000 then (ago / 2592000, "m")
    else if ago >= 86400 then (ago / 86400, "d")
    else if ago >= 3600 then (ago / 3600, "h")
    else if ago >= 60 then (ago / 60, "m")
    else (ago, "s")
  }

  /** `timeago(t)` at the instant `now` (Unix seconds). */
  function TimeAgo(now: int, t: Time): string {
    var parts := AgoParts(now - Unix(t));
    FormatInt(parts.0) + parts.1 + " ago"
  }

  /** Minutes and months share the unit "m": two minutes and two months
      ago read the same. */
  lemma MinutesLookLikeMonths()
    ensures TimeAgo(120, UnixTime(0)) == TimeAgo(5184000, UnixTime(0))
  {
    assert AgoParts(120) == (2, "m");
    assert AgoParts(5184000) == (2, "m");
  }
}

=== FILE: go_sort.dfy ===
/**
 * Go's `sort.Strings` and `sort.Ints`. Both sort in ascending order under a
 * total order, so their result is the unique sorted permutation of the input;
 * it is defined here by insertion and characterised by `SortSorted`,
 * `SortPermutes` and `SortedPermutationUnique`.
 */
module GoSort {

  /** A total order given as its "less than or equal" relation. */
  ghost predicate IsTotalOrder<T(!new)>(le: (T, T) -> bool) {
    (forall a, b :: le(a, b) || le(b, a)) &&
    (forall a, b :: le(a, b) && le(b, a) ==> a == b) &&
    (forall a, b, c :: le(a, b) && le(b, c) ==> le(a, c))
  }

  predicate SortedBy<T>(s: seq<T>, le: (T, T) -> bool) {
    forall i, j :: 0 <= i < j < |s| ==> le(s[i], s[j])
  }

  /** A sorted sequence stays sorted with an element in front that is at most
      each of its elements. */
  lemma SortedCons<T>(h: T, t: seq<T>, le: (T, T) -> bool)
    requires SortedBy(t, le) && forall y | y in multiset(t) :: le(h, y)
    ensures SortedBy([h] + t, le)
  {
    forall i, j | 0 <= i < j < |[h] + t|
      ensures le(([h] + t)[i], ([h] + t)[j])
    {
      if i == 0 {
        assert t[j - 1] in multiset(t);
      }
    }
  }

  /** Every element of a sorted sequence is at least its first element, and
      so at least anything its first element is at least. */
  lemma BelowHead<T(!new)>(x: T, s: seq<T>, le: (T, T) -> bool)
    requires IsTotalOrder(le) && SortedBy(s, le) && |s| > 0 && le(x, s[0])
    ensures forall y | y in multiset(s) :: le(x, y)
  {
    forall y | y in multiset(s) ensures le(x, y) {
      var k :| 0 <= k < |s| && s[k] == y;
      assert k == 0 || le(s[0], s[k]);
    }
  }

  lemma BelowTail<T>(h: T, x: T, rest: seq<T>, tail: seq<T>, le: (T, T) -> bool)
    requires SortedBy([h] + rest, le) && le(h, x)
    requires multiset(tail) == multiset(rest) + multiset{x}
    ensures forall y | y in multiset(tail) :: le(h, y)
  {
    forall y | y in multiset(tail) ensures le(h, y) {
      if y != x {
        assert y in multiset(rest);
        var k :| 0 <= k < |rest| && rest[k] == y;
        assert ([h] + rest)[0] == h && ([h] + rest)[k + 1] == y;
        assert le(([h] + rest)[0], ([h] + rest)[k + 1]);
      }
    }
  }

  /** `x` inserted into sorted `s` in front of the first element it is at most. */
  function Insert<T(!new)>(x: T, s: seq<T>, le: (T, T) -> bool): (r: seq<T>)
    requires IsTotalOrder(le) && SortedBy(s, le)
    ensures SortedBy(r, le)
    ensures multiset(r) == multiset(s) + multiset{x}
  {
    if |s| == 0 then [x]
    else if le(x, s[0]) then
      BelowHead(x, s, le);
      SortedCons(x, s, le);
      [x] + s
    else
      var tail := Insert(x, s[1..], le);
      assert s == [s[0]] + s[1..];
      BelowTail(s[0], x, s[1..], tail, le);
      SortedCons(s[0], tail, le);
      [s[0]] + tail
  }

  /** The elements of `s` in ascending order. */
  function Sort<T(!new)>(s: seq<T>, le: (T, T) -> bool): seq<T>
    requires IsTotalOrder(le)
  {
    if |s| == 0 then [] else Insert(s[0], Sort(s[1..], le), le)
  }

  lemma {:induction false} SortPermutes<T(!new)>(s: seq<T>, le: (T, T) -> bool)
    requires IsTotalOrder(le)
    ensures multiset(Sort(s, le)) == multiset(s)
  {
    if |s| > 0 {
      SortPermutes(s[1..], le);
      assert s == [s[0]] + s[1..];
    }
  }

  lemma {:induction false} SortSorted<T(!new)>(s: seq<T>, le: (T, T) -> bool)
    requires IsTotalOrder(le)
    ensures SortedBy(Sort(s, le), le)
  {
    if |s| > 0 {
      SortSorted(s[1..], le);
    }
  }

  lemma MultisetTail<T>(a: seq<T>, b: seq<T>)
    requires |a| > 0 && |b| > 0 && a[0] == b[0] && multiset(a) == multiset(b)
    ensures multiset(a[1..]) == multiset(b[1..])
  {
    assert a == [a[0]] + a[1..];
    assert b == [b[0]] + b[1..];
    assert multiset(a[1..]) == multiset(a) - multiset{a[0]};
    assert multiset(b[1..]) == multiset(b) - multiset{b[0]};
  }

  /** The first element of a sorted sequence is at most every element. */
  lemma SortedHeadLeast<T>(s: seq<T>, le: (T, T) -> bool, k: int)
    requires SortedBy(s, le) && 0 < k < |s|
    ensures le(s[0], s[k])
  {
  }

  /** A sorted permutation is determined by the multiset it holds, so any
      correct sort, stable or not, returns `Sort(s, le)`. */
  lemma {:induction false} SortedPermutationUnique<T(!new)>(a: seq<T>, b: seq<T>, le: (T, T) -> bool)
    requires IsTotalOrder(le)
    requires SortedBy(a, le) && SortedBy(b, le) && multiset(a) == multiset(b)
    ensures a == b
  {
    if |a| > 0 {
      assert a[0] in multiset(b);
      assert b[0] in multiset(a);
      var i :| 0 <= i < |b| && b[i] == a[0];
      var j :| 0 <= j < |a| && a[j] == b[0];
      if i > 0 {
        SortedHeadLeast(b, le, i);
      }
      if j > 0 {
        SortedHeadLeast(a, le, j);
      }
      assert a[0] == b[0];
      MultisetTail(a, b);
      SortedPermutationUnique(a[1..], b[1..], le);
      assert a == [a[0]] + a[1..] && b == [b[0]] + b[1..];
    } else {
      assert |b| == |multiset(b)| == 0;
    }
  }

  /** Byte-wise lexicographic order, the order of `sort.Strings`. */
  predicate StrLe(a: string, b: string) {
    |a| == 0 || (|b| > 0 && (a[0] < b[0] || (a[0] == b[0] && StrLe(a[1..], b[1..]))))
  }

  lemma {:induction false} StrLeTotal(a: string, b: string)
    ensures StrLe(a, b) || StrLe(b, a)
  {
    if |a| > 0 && |b| > 0 && a[0] == b[0] {
      StrLeTotal(a[1..], b[1..]);
    }
  }

  lemma {:induction false} StrLeAntisymmetric(a: string, b: string)
    requires StrLe(a, b) && StrLe(b, a)
    ensures a == b
  {
    if |a| > 0 && |b| > 0 {
      StrLeAntisymmetric(a[1..], b[1..]);
      assert a == [a[0]] + a[1..] && b == [b[0]] + b[1..];
    }
  }

  lemma {:induction false} StrLeTransitive(a: string, b: string, c: string)
    requires StrLe(a, b) && StrLe(b, c)
    ensures StrLe(a, c)
  {
    if |a| > 0 && a[0] == b[0] && b[0] == c[0] {
      StrLeTransitive(a[1..], b[1..], c[1..]);
    }
  }

  lemma StrLeIsTotalOrder()
    ensures IsTotalOrder(StrLe)
  {
    forall a, b ensures StrLe(a, b) || StrLe(b, a) {
      StrLeTotal(a, b);
    }
    forall a, b | StrLe(a, b) && StrLe(b, a) ensures a == b {
      StrLeAntisymmetric(a, b);
    }
    forall a, b, c | StrLe(a, b) && StrLe(b, c) ensures StrLe(a, c) {
      StrLeTransitive(a, b, c);
    }
  }

  predicate IntLe(a: int, b: int) {
    a <= b
  }

  lemma IntLeIsTotalOrder()
    ensures IsTotalOrder(IntLe)
  {
  }

  /** sort.Strings. */
  function SortStrings(s: seq<string>): (r: seq<string>)
    ensures SortedBy(r, StrLe) && multiset(r) == multiset(s)
  {
    StrLeIsTotalOrder();
    SortSorted(s, StrLe);
    SortPermutes(s, StrLe);
    Sort(s, StrLe)
  }

  /** sort.Ints. */
  function SortInts(s: seq<int>): (r: seq<int>)
    ensures SortedBy(r, IntLe) && multiset(r) == multiset(s)
  {
    IntLeIsTotalOrder();
    SortSorted(s, IntLe);
    SortPermutes(s, IntLe);
    Sort(s, IntLe)
  }
}

=== FILE: go_strings.dfy ===
/**
 * The parts of Go's `strings` and `strconv` packages that the blog server
 * relies on, over Dafny strings. Go strings are byte strings; for valid
 * UTF-8 text, searching and comparing code points gives the same answers as
 * searching and comparing bytes, so `string` (a sequence of `char`) is used.
 */
module GoStrings {

  datatype Option<T> = None | Some(value: T)

  /** `sub` occurs in `s` starting at position `i`. */
  predicate OccursAt(s: string, sub: string, i: int) {
    0 <= i && i + |sub| <= |s| && s[i..i + |sub|] == sub
  }

  lemma ShiftOccurrence(s: string, sub: string)
    requires |s| > 0
    ensures forall i :: 1 <= i ==> (OccursAt(s, sub, i) <==> OccursAt(s[1..], sub, i - 1))
  {
    forall i | 1 <= i
      ensures OccursAt(s, sub, i) <==> OccursAt(s[1..], sub, i - 1)
    {
      if i + |sub| <= |s| {
        assert s[1..][i - 1..i - 1 + |sub|] == s[i..i + |sub|];
      }
    }
  }

  /** strings.Index: the first position at which `sub` occurs in `s`, or -1. */
  function Index(s: string, sub: string): (r: int)
    ensures r == -1 || OccursAt(s, sub, r)
    ensures r == -1 ==> forall i :: !OccursAt(s, sub, i)
    ensures forall i :: 0 <= i < r ==> !OccursAt(s, sub, i)
    decreases |s|
  {
    if |s| < |sub| then -1
    else if s[..|sub|] == sub then 0
    else
      ShiftOccurrence(s, sub);
      var r := Index(s[1..], sub);
      if r == -1 then -1 else r + 1
  }

  /** strings.Contains, i.e. `strings.Index(s, sub) != -1`. */
  predicate Contains(s: string, sub: string) {
    Index(s, sub) != -1
  }

  lemma ContainsIff(s: string, sub: string)
    ensures Contains(s, sub) <==> exists i :: OccursAt(s, sub, i)
  {
  }

  /** `s` holds no copy of the character `c`. */
  predicate Lacks(s: string, c: char) {
    forall i :: 0 <= i < |s| ==> s[i] != c
  }

  lemma LacksNotContains(s: string, c: char)
    requires Lacks(s, c)
    ensures !Contains(s, [c])
  {
    forall i | 0 <= i && i + 1 <= |s|
      ensures !OccursAt(s, [c], i)
    {
      assert s[i..i + 1][0] == s[i];
    }
  }

  /** strings.HasPrefix. */
  predicate HasPrefix(s: string, prefix: string) {
    |prefix| <= |s| && s[..|prefix|] == prefix
  }

  /** strings.HasSuffix. */
  predicate HasSuffix(s: string, suffix: string) {
    |suffix| <= |s| && s[|s| - |suffix|..] == suffix
  }

  /** The source tests prefixes as `strings.Index(s, p) == 0`; that is HasPrefix. */
  lemma IndexZeroIsPrefix(s: string, prefix: string)
    ensures Index(s, prefix) == 0 <==> HasPrefix(s, prefix)
  {
    if HasPrefix(s, prefix) {
      assert OccursAt(s, prefix, 0);
    }
  }

  /** strings.TrimPrefix. */
  function TrimPrefix(s: string, prefix: string): (r: string)
    ensures HasPrefix(s, prefix) ==> prefix + r == s
    ensures !HasPrefix(s, prefix) ==> r == s
  {
    if HasPrefix(s, prefix) then s[|prefix|..] else s
  }

  /** strings.Join. */
  function Join(parts: seq<string>, sep: string): string {
    if |parts| == 0 then ""
    else if |parts| == 1 then parts[0]
    else parts[0] + sep + Join(parts[1..], sep)
  }

  /** strings.Split for a non-empty separator: the pieces between successive
      first occurrences of `sep`, from left to right. */
  function Split(s: string, sep: string): (r: seq<string>)
    requires |sep| > 0
    ensures |r| >= 1
    ensures forall k :: 0 <= k < |r| ==> !Contains(r[k], sep)
    decreases |s|
  {
    var i := Index(s, sep);
    if i == -1 then [s]
    else
      BeforeFirstLacks(s, sep, i);
      [s[..i]] + Split(s[i + |sep|..], sep)
  }

  /** The text before the first occurrence of `sub` does not contain it. */
  lemma BeforeFirstLacks(s: string, sub: string, i: int)
    requires |sub| > 0 && 0 <= i <= |s| && forall j :: 0 <= j < i ==> !OccursAt(s, sub, j)
    ensures !Contains(s[..i], sub)
  {
    if Contains(s[..i], sub) {
      var j := Index(s[..i], sub);
      assert s[..i][j..j + |sub|] == s[j..j + |sub|];
      assert OccursAt(s, sub, j);
      assert false;
    }
  }

  /** Joining the pieces of a split with the separator gives the string back. */
  lemma {:induction false} SplitJoin(s: string, sep: string)
    requires |sep| > 0
    ensures Join(Split(s, sep), sep) == s
    decreases |s|
  {
    var i := Index(s, sep);
    if i != -1 {
      var rest := s[i + |sep|..];
      assert Split(s, sep) == [s[..i]] + Split(rest, sep);
      SplitJoin(rest, sep);
      JoinCons(s[..i], Split(rest, sep), sep);
      AroundOccurrence(s, sep, i);
    }
  }

  lemma JoinCons(a: string, r: seq<string>, sep: string)
    requires |r| >= 1
    ensures Join([a] + r, sep) == a + sep + Join(r, sep)
  {
    assert ([a] + r)[1..] == r;
  }

  lemma SplitStep(s: string, sep: string)
    requires |sep| > 0 && Index(s, sep) != -1
    ensures var i := Index(s, sep);
      Split(s, sep) == [s[..i]] + Split(s[i + |sep|..], sep) && s == s[..i] + sep + s[i + |sep|..]
  {
    var i := Index(s, sep);
    AroundOccurrence(s, sep, i);
  }

  /** A string is the text before an occurrence, the occurrence, and the
      text after it. */
  lemma AroundOccurrence(s: string, sub: string, i: int)
    requires OccursAt(s, sub, i)
    ensures s == s[..i] + sub + s[i + |sub|..]
  {
    assert s == s[..i] + s[i..i + |sub|] + s[i + |sub|..];
  }

  /** When `a` holds no copy of a one-character separator, the first piece of
      `a + sep + b` is `a`. */
  lemma SplitCons(a: string, sep: string, b: string)
    requires |sep| == 1 && Lacks(a, sep[0])
    ensures Split(a + sep + b, sep) == [a] + Split(b, sep)
  {
    LacksNotContains(a, sep[0]);
    assert sep == [sep[0]];
    SplitConsFree(a, sep, b);
  }

  lemma SplitConsFree(a: string, sep: string, b: string)
    requires |sep| == 1 && !Contains(a, sep)
    ensures Split(a + sep + b, sep) == [a] + Split(b, sep)
  {
    var s := a + sep + b;
    assert OccursAt(s, sep, |a|);
    forall i | 0 <= i < |a|
      ensures !OccursAt(s, sep, i)
    {
      assert s[i..i + 1] == a[i..i + 1];
      assert !OccursAt(a, sep, i);
    }
    assert Index(s, sep) == |a|;
    assert s[|a| + 1..] == b;
    assert s[..|a|] == a;
  }

  lemma SplitNoSeparator(s: string, sep: string)
    requires |sep| > 0 && !Contains(s, sep)
    ensures Split(s, sep) == [s]
  {
  }

  /** The first occurrence is the one with no occurrence before it. */
  lemma IndexIs(s: string, sub: string, i: int)
    requires OccursAt(s, sub, i)
    requires forall j :: 0 <= j < i ==> !OccursAt(s, sub, j)
    ensures Index(s, sub) == i
  {
  }

  /** A first occurrence inside `a` stays the first occurrence once more text
      is appended. */
  lemma IndexOfExtension(a: string, c: string, sub: string)
    requires Index(a, sub) != -1
    ensures Index(a + c, sub) == Index(a, sub)
  {
    var i := Index(a, sub);
    assert (a + c)[i..i + |sub|] == a[i..i + |sub|];
    forall j | 0 <= j < i
      ensures !OccursAt(a + c, sub, j)
    {
      assert !OccursAt(a, sub, j);
      assert j + |sub| <= |a|;
      assert (a + c)[j..j + |sub|] == a[j..j + |sub|];
    }
    IndexIs(a + c, sub, i);
  }

  lemma SliceOfConcat(a: string, c: string, i: int)
    requires 0 <= i <= |a|
    ensures (a + c)[..i] == a[..i] && (a + c)[i..] == a[i..] + c
  {
  }

  /** Splitting `a + sep + b` where `a` holds a separator at `i` first. */
  lemma SplitAppendStep(a: string, sep: string, b: string)
    requires |sep| == 1 && Contains(a, sep)
    ensures var i := Index(a, sep);
      Split(a + sep + b, sep) == [a[..i]] + Split(a[i + 1..] + sep + b, sep)
  {
    var i := Index(a, sep);
    var s := a + sep + b;
    assert Index(s, sep) == i by {
      assert s == a + (sep + b);
      IndexOfExtension(a, sep + b, sep);
    }
    assert s[..i] == a[..i] && s[i + 1..] == a[i + 1..] + sep + b by {
      assert OccursAt(a, sep, i);
      assert s == a + (sep + b);
      SliceOfConcat(a, sep + b, i + 1);
      SliceOfConcat(a, sep + b, i);
      assert a[i + 1..] + (sep + b) == a[i + 1..] + sep + b;
    }
    SplitAt(s, sep, i, a[..i], a[i + 1..] + sep + b);
  }

  /** Splitting at a known first separator. */
  lemma SplitAt(s: string, sep: string, i: int, before: string, after: string)
    requires |sep| > 0 && i >= 0 && Index(s, sep) == i
    requires before == s[..i] && after == s[i + |sep|..]
    ensures Split(s, sep) == [before] + Split(after, sep)
  {
  }

  /** The last piece of a split is what follows the last separator. */
  lemma SplitLast(a: string, sep: string, b: string)
    requires |sep| == 1 && Lacks(b, sep[0])
    ensures var r := Split(a + sep + b, sep); |r| >= 2 && r[|r| - 1] == b
  {
    LacksNotContains(b, sep[0]);
    assert sep == [sep[0]];
    SplitLastFree(a, sep, b);
  }

  lemma {:induction false} SplitLastFree(a: string, sep: string, b: string)
    requires |sep| == 1 && !Contains(b, sep)
    ensures var r := Split(a + sep + b, sep); |r| >= 2 && r[|r| - 1] == b
    decreases |a|
  {
    if !Contains(a, sep) {
      SplitConsFree(a, sep, b);
      SplitNoSeparator(b, sep);
    } else {
      var i := Index(a, sep);
      SplitAppendStep(a, sep, b);
      SplitLastFree(a[i + 1..], sep, b);
    }
  }

  /** A string-building loop `acc += part + term` over `parts`: with `term`
      = "\n" it writes lines, with `term` = "" it concatenates pieces. */
  function Terminated(parts: seq<string>, term: string): string {
    if |parts| == 0 then "" else parts[0] + term + Terminated(parts[1..], term)
  }

  lemma {:induction false} TerminatedAppend(a: seq<string>, b: seq<string>, term: string)
    ensures Terminated(a + b, term) == Terminated(a, term) + Terminated(b, term)
  {
    if |a| == 0 {
      assert a + b == b;
    } else {
      assert (a + b)[1..] == a[1..] + b;
      TerminatedAppend(a[1..], b, term);
    }
  }

  /** One more iteration of a string-building loop. */
  lemma TerminatedSnoc(parts: seq<string>, part: string, term: string)
    ensures Terminated(parts + [part], term) == Terminated(parts, term) + part + term
  {
    TerminatedAppend(parts, [part], term);
  }

  lemma {:induction false} TerminatedIsJoin(parts: seq<string>, sep: string)
    requires |parts| >= 1
    ensures Terminated(parts, sep) == Join(parts, sep) + sep
  {
    if |parts| > 1 {
      TerminatedIsJoin(parts[1..], sep);
    }
  }

  /** Writing every piece of a split string followed by the separator gives
      back the string with one more separator at the end. */
  lemma TerminatedOfSplit(s: string, sep: string)
    requires |sep| > 0
    ensures Terminated(Split(s, sep), sep) == s + sep
  {
    TerminatedIsJoin(Split(s, sep), sep);
    SplitJoin(s, sep);
  }

  /** strings.Replace(s, target, replacement, 1): the first occurrence of `target` replaced. */
  function ReplaceFirst(s: string, target: string, replacement: string): (r: string)
    ensures !Contains(s, target) ==> r == s
    ensures Contains(s, target) ==>
      exists i :: OccursAt(s, target, i) && (forall j :: 0 <= j < i ==> !OccursAt(s, target, j)) &&
        r == s[..i] + replacement + s[i + |target|..]
  {
    var i := Index(s, target);
    if i == -1 then s else s[..i] + replacement + s[i + |target|..]
  }

  // ---------------------------------------------------------------------
  // strconv.ParseInt(s, 10, 64) and strconv.FormatInt(n, 10)

  const MinInt64: int := -0x8000_0000_0000_0000
  const MaxInt64: int := 0x7FFF_FFFF_FFFF_FFFF

  predicate IsDigit(c: char) {
    '0' <= c <= '9'
  }

  predicate AllDigits(s: string) {
    forall i :: 0 <= i < |s| ==> IsDigit(s[i])
  }

  /** The value of a string of decimal digits. */
  function DigitsValue(s: string): nat
    requires AllDigits(s)
  {
    if |s| == 0 then 0
    else DigitsValue(s[..|s| - 1]) * 10 + (s[|s| - 1] as int - '0' as int)
  }

  /** strconv.ParseInt(s, 10, 64): an optional sign followed by at least one
      decimal digit, within the int64 range; anything else is an error. */
  function ParseInt64(s: string): (r: Option<int>)
    ensures r.Some? ==> MinInt64 <= r.value <= MaxInt64
    ensures r.Some? ==> |s| > 0
  {
    if |s| == 0 then None
    else
      var signed := s[0] == '+' || s[0] == '-';
      var digits := if signed then s[1..] else s;
      if |digits| == 0 || !AllDigits(digits) then None
      else
        var magnitude: int := DigitsValue(digits);
        var v := if s[0] == '-' then -magnitude else magnitude;
        if MinInt64 <= v <= MaxInt64 then Some(v) else None
  }

  function DigitChar(d: nat): (c: char)
    requires d < 10
    ensures IsDigit(c) && c as int - '0' as int == d
  {
    ('0' as int + d) as char
  }

  /** The decimal digits of a natural number, without leading zeros. */
  function Digits(n: nat): (r: string)
    ensures |r| > 0 && AllDigits(r)
  {
    if n < 10 then [DigitChar(n)] else Digits(n / 10) + [DigitChar(n % 10)]
  }

  /** strconv.FormatInt(n, 10). */
  function FormatInt(n: int): (r: string)
    ensures |r| > 0
  {
    if n < 0 then "-" + Digits(-n) else Digits(n)
  }

  lemma {:induction false} DigitsValueOfDigits(n: nat)
    ensures DigitsValue(Digits(n)) == n
  {
    if n >= 10 {
      DigitsValueOfDigits(n / 10);
      var d := Digits(n / 10) + [DigitChar(n % 10)];
      assert d[..|d| - 1] == Digits(n / 10);
    }
  }

  lemma ParseUnsigned(d: string)
    requires |d| > 0 && AllDigits(d) && DigitsValue(d) <= MaxInt64
    ensures ParseInt64(d) == Some(DigitsValue(d))
  {
    assert IsDigit(d[0]);
  }

  lemma ParseNegative(d: string)
    requires |d| > 0 && AllDigits(d) && DigitsValue(d) <= -MinInt64
    ensures ParseInt64("-" + d) == Some(-(DigitsValue(d) as int))
  {
    assert ("-" + d)[1..] == d;
  }

  /** Parsing what FormatInt printed gives the number back, for every int64. */
  lemma ParseFormatRoundTrip(n: int)
    requires MinInt64 <= n <= MaxInt64
    ensures ParseInt64(FormatInt(n)) == Some(n)
  {
    if n < 0 {
      DigitsValueOfDigits(-n);
      ParseNegative(Digits(-n));
    } else {
      DigitsValueOfDigits(n);
      ParseUnsigned(Digits(n));
    }
  }
}

=== FILE: http_common.dfy ===
/**
 * The request-handling pieces both server variants share word for word: the
 * choice of route from the URL path, the Content-Type of a static file, the
 * responses of the routes other than the category page, and the HTTP error
 * log writer that picks the client IP out of TLS handshake errors.
 */
module HttpCommon {
  import opened GoStrings
  import opened ContentStore

  /** The Cache-Control header set on every response. */
  const CacheControl: string := "max-age=604800"

  /** The branches of `handle_http_request`, in the order they are tested. */
  datatype Route =
    | MainView                   // exactly "/"
    | CategoryView(cat: string)  // "/categories/" + cat
    | PostView(key: string)      // a post, looked up under "url:" + path
    | Traversal                  // any other path containing "/.."
    | StaticFile(file: string)   // a file under the main directory

  function SelectRoute(path: string): Route {
    if path == "/" then MainView
    else if Index(path, "/categories/") == 0 then CategoryView(TrimPrefix(path, "/categories/"))
    else if Index(path, "/posts/") == 0 then PostView("url:" + path)
    else if Index(path, "/..") != -1 then Traversal
    else StaticFile("main" + path)
  }

  /** The route priority: "/" first, then the category prefix, then the post
      prefix, then the traversal test, and every other path is a static file,
      which therefore never contains "/..". */
  lemma SelectRouteCases(path: string)
    ensures SelectRoute(path) == MainView <==> path == "/"
    ensures SelectRoute(path).CategoryView? <==> path != "/" && HasPrefix(path, "/categories/")
    ensures SelectRoute(path).CategoryView? ==> "/categories/" + SelectRoute(path).cat == path
    ensures SelectRoute(path).PostView? <==>
      path != "/" && !HasPrefix(path, "/categories/") && HasPrefix(path, "/posts/")
    ensures SelectRoute(path).PostView? ==> SelectRoute(path).key == "url:" + path
    ensures SelectRoute(path) == Traversal <==>
      path != "/" && !HasPrefix(path, "/categories/") && !HasPrefix(path, "/posts/") && Contains(path, "/..")
    ensures SelectRoute(path).StaticFile? ==>
      SelectRoute(path).file == "main" + path && !Contains(path, "/..")
  {
    IndexZeroIsPrefix(path, "/categories/");
    IndexZeroIsPrefix(path, "/posts/");
  }

  /** Any path under "/posts/", even one holding "/..", is served from the
      post map and never refused. */
  lemma PostPrefixWins(path: string)
    requires HasPrefix(path, "/posts/")
    ensures SelectRoute(path) == PostView("url:" + path)
  {
    SelectRouteCases(path);
    assert path[1] == 'p';
  }

  /** The extension table set up at start-up. */
  const MimeTypes: map<string, string> := map[
    "txt" := "text/plain",
    "html" := "text/html",
    "jpeg" := "image/jpeg",
    "jpg" := "image/jpeg",
    "png" := "image/png",
    "gif" := "image/gif",
    "webp" := "image/webp",
    "json" := "application/json",
    "xml" := "text/xml",
    "svg" := "image/svg+xml",
    "js" := "text/javascript",
    "css" := "text/css"
  ]

  const OctetStream: string := "application/octet-stream"

  /** The Content-Type of a static file: the table entry of the last
      "."-separated piece of the URL path ("" when the table has none), or
      the octet-stream type when there is no "." or the last piece is empty. */
  function ContentType(path: string): string {
    var parts := Split(path, ".");
    var ext := if |parts| >= 2 then parts[|parts| - 1] else "";
    if ext == "" then OctetStream else Get(MimeTypes, ext, "")
  }

  lemma ContentTypeWithoutDot(path: string)
    requires Lacks(path, '.')
    ensures ContentType(path) == OctetStream
  {
    LacksNotContains(path, '.');
    SplitNoSeparator(path, ".");
  }

  /** The type is decided by what follows the last ".", wherever it is. */
  lemma ContentTypeOfExtension(stem: string, ext: string)
    requires Lacks(ext, '.')
    ensures ContentType(stem + "." + ext) ==
      if ext == "" then OctetStream else Get(MimeTypes, ext, "")
  {
    SplitLast(stem, ".", ext);
  }

  /** What a handler sends: a file is streamed from disk, not held in memory.
      A Content-Type set after the status line was written is not sent, so it
      is not recorded. */
  datatype Body = Text(text: string) | FileContents(file: string)
  datatype Response = Response(status: int, cacheControl: string, contentType: Option<string>, body: Body)

  function NotFound(): Response {
    Response(404, CacheControl, None, Text("not found"))
  }

  /** The responses of the branches that do not read a category list:
      `header`, `footer` and the post keys come from the live content map,
      and `openable` tells which files under the main directory open. */
  function CommonResponse(route: Route, content: map<string, string>, openable: set<string>, path: string): (r: Response)
    requires !route.CategoryView?
    ensures r.cacheControl == CacheControl
    ensures route == Traversal ==> r.status == 403 && r.body == Text("")
    ensures route.PostView? ==>
      (r.status == 200 <==> Get(content, route.key, "") != "")
  {
    match route
    case MainView => Response(200, CacheControl, Some("text/html"), Text(Get(content, "url:/", "")))
    case PostView(key) =>
      var post := Get(content, key, "");
      if post == "" then NotFound()
      else Response(200, CacheControl, Some("text/html"),
                    Text(Get(content, "header", "") + post + Get(content, "footer", "")))
    case Traversal => Response(403, CacheControl, None, Text(""))
    case StaticFile(file) =>
      if file !in openable then NotFound()
      else Response(200, CacheControl, Some(ContentType(path)), FileContents(file))
  }

  /** What the error log writer returns, and the IP it passes to the
      connection-rate limiter, if any. */
  datatype WriteResult = WriteResult(n: int, testedIp: Option<string>)

  const HandshakeError: string := "TLS handshake error"

  /** The log writer's `Write`: for a line mentioning a TLS handshake error,
      the sixth space-separated word split on ":" must give exactly three
      pieces, and the first is the IP. */
  function LogWrite(p: string): (r: WriteResult)
    ensures r.n == |p|
    ensures r.testedIp.Some? ==> Contains(p, HandshakeError)
  {
    var ip :=
      if !Contains(p, HandshakeError) then None
      else
        var words := Split(p, " ");
        if |words| < 6 then None
        else
          var info := Split(words[5], ":");
          if |info| == 3 then Some(info[0]) else None;
    WriteResult(|p|, ip)
  }

  /** The line the HTTP server logs for a failed handshake from `ip:port`;
      `err` is the text of the handshake error. */
  function HandshakeLine(ip: string, port: string, err: string): string {
    "http: " + HandshakeError + " from " + ip + ":" + port + ": " + err
  }

  lemma LacksConcat(a: string, b: string, c: char)
    requires Lacks(a, c) && Lacks(b, c)
    ensures Lacks(a + b, c)
  {
    forall i | 0 <= i < |a + b| ensures (a + b)[i] != c {
      if i >= |a| {
        assert (a + b)[i] == b[i - |a|];
      }
    }
  }

  /** The words `ws`, each followed by a space, then `rest`. */
  function Words(ws: seq<string>, rest: string): string {
    if |ws| == 0 then rest else ws[0] + " " + Words(ws[1..], rest)
  }

  predicate AllLack(ws: seq<string>, c: char) {
    forall i :: 0 <= i < |ws| ==> Lacks(ws[i], c)
  }

  /** Splitting on spaces gives back words that hold no space. */
  lemma {:induction false} SplitWords(ws: seq<string>, rest: string)
    requires AllLack(ws, ' ')
    ensures Split(Words(ws, rest), " ") == ws + Split(rest, " ")
  {
    if |ws| > 0 {
      var tail := Words(ws[1..], rest);
      var r := Split(rest, " ");
      assert Split(Words(ws, rest), " ") == [ws[0]] + (ws[1..] + r) by {
        assert Words(ws, rest) == ws[0] + " " + tail;
        assert Split(tail, " ") == ws[1..] + r by {
          assert AllLack(ws[1..], ' ') by {
            assert forall i :: 0 <= i < |ws[1..]| ==> ws[1..][i] == ws[i + 1];
          }
          SplitWords(ws[1..], rest);
        }
        assert Split(ws[0] + " " + tail, " ") == [ws[0]] + Split(tail, " ") by {
          assert Lacks(ws[0], ' ');
          SplitCons(ws[0], " ", tail);
        }
      }
      assert [ws[0]] + (ws[1..] + r) == ws + r by {
        assert ws == [ws[0]] + ws[1..];
      }
    }
  }

  lemma HandshakePrefixText()
    ensures "http: " + HandshakeError + " from " ==
      "http:" + " " + ("TLS" + " " + ("handshake" + " " + ("error" + " " + ("from" + " "))))
  {
  }

  /** A handshake error line is five fixed words, the address word
      "ip:port:" and the error text. */
  lemma HandshakeLineWords(ip: string, port: string, err: string)
    ensures HandshakeLine(ip, port, err) ==
      Words(["http:", "TLS", "handshake", "error", "from", ip + ":" + port + ":"], err)
  {
    var addr := ip + ":" + port + ":";
    var ws := ["http:", "TLS", "handshake", "error", "from", addr];
    var w6 := Words(ws[5..], err);
    assert ws[5..] == [addr] && ws[5..][1..] == [];
    assert Words([], err) == err;
    assert w6 == addr + " " + err;
    var w5 := Words(ws[4..], err);
    assert ws[4..][1..] == ws[5..];
    assert w5 == "from" + " " + w6;
    var w4 := Words(ws[3..], err);
    assert ws[3..][1..] == ws[4..];
    assert w4 == "error" + " " + w5;
    var w3 := Words(ws[2..], err);
    assert ws[2..][1..] == ws[3..];
    assert w3 == "handshake" + " " + w4;
    var w2 := Words(ws[1..], err);
    assert ws[1..][1..] == ws[2..];
    assert w2 == "TLS" + " " + w3;
    assert Words(ws, err) == "http:" + " " + w2;
    HandshakePrefixText();
    assert HandshakeLine(ip, port, err) == "http: " + HandshakeError + " from " + (addr + " " + err);
  }

  /** The address word "ip:port:" splits on ":" into three pieces. */
  lemma AddressPieces(ip: string, port: string)
    requires Lacks(ip, ':') && Lacks(port, ':')
    ensures Split(ip + ":" + port + ":", ":") == [ip, port, ""]
  {
    assert ip + ":" + port + ":" == ip + ":" + (port + ":" + "");
    SplitCons(ip, ":", port + ":" + "");
    SplitCons(port, ":", "");
    SplitNoSeparator("", ":");
  }

  lemma HandshakeLineMentionsError(ip: string, port: string, err: string)
    ensures Contains(HandshakeLine(ip, port, err), HandshakeError)
  {
    var pre := "http: ";
    var post := " from " + ip + ":" + port + ": " + err;
    var p := pre + HandshakeError + post;
    assert HandshakeLine(ip, port, err) == p;
    assert p[|pre|..|pre| + |HandshakeError|] == HandshakeError;
    assert OccursAt(p, HandshakeError, |pre|);
  }

  /** The sixth word of a handshake error line is "ip:port:". */
  lemma HandshakeSixthWord(ip: string, port: string, err: string)
    requires Lacks(ip, ' ') && Lacks(port, ' ')
    ensures var words := Split(HandshakeLine(ip, port, err), " ");
      |words| >= 6 && words[5] == ip + ":" + port + ":"
  {
    var addr := ip + ":" + port + ":";
    var ws := ["http:", "TLS", "handshake", "error", "from", addr];
    LacksConcat(ip, ":", ' ');
    LacksConcat(ip + ":", port, ' ');
    LacksConcat(ip + ":" + port, ":", ' ');
    HandshakeLineWords(ip, port, err);
    SplitWords(ws, err);
  }

  /** For an IPv4 address and a port, the writer hands exactly that address
      to the limiter, whatever the error text. */
  lemma HandshakeIpRoundTrip(ip: string, port: string, err: string)
    requires Lacks(ip, ' ') && Lacks(ip, ':') && Lacks(port, ' ') && Lacks(port, ':')
    ensures LogWrite(HandshakeLine(ip, port, err)).testedIp == Some(ip)
  {
    HandshakeLineMentionsError(ip, port, err);
    HandshakeSixthWord(ip, port, err);
    AddressPieces(ip, port);
  }
}

=== FILE: index_template.dfy ===
/**
 * The split of the site template `main/index.html` that both server variants
 * perform when they rebuild the site: every template line is copied into the
 * index page with the three marker lines replaced by generated fragments,
 * and the lines other than the posts marker are collected into a header
 * (before the first posts marker) and a footer (after it), which frame every
 * post and category page.
 *
 * The variants differ only in the marker names and in what follows each
 * line (a "\n" or nothing), so both are given by a `Markers` value.
 */
module IndexTemplate {
  import opened GoStrings

  /** The three marker lines of a variant and the text written after each line. */
  datatype Markers = Markers(categories: string, posts: string, titles: string, eol: string)

  /** The generated fragments that replace the three marker lines. */
  datatype Fragments = Fragments(categories: string, posts: string, titles: string)

  /** A template line as it appears in the index page. */
  function RenderLine(m: Markers, f: Fragments, line: string): string {
    if line == m.categories then f.categories
    else if line == m.posts then f.posts
    else if line == m.titles then f.titles
    else line
  }

  function RenderLines(m: Markers, f: Fragments, lines: seq<string>): (r: seq<string>)
    ensures |r| == |lines|
    ensures forall i :: 0 <= i < |lines| ==> r[i] == RenderLine(m, f, lines[i])
  {
    seq(|lines|, i requires 0 <= i < |lines| => RenderLine(m, f, lines[i]))
  }

  /** The position of the first `x` in `lines`, or `|lines|` when there is none. */
  function FirstIndex<T(==)>(x: T, lines: seq<T>): (r: nat)
    ensures r <= |lines| && x !in lines[..r]
    ensures r < |lines| ==> lines[r] == x
    ensures r == |lines| <==> x !in lines
  {
    if |lines| == 0 then 0
    else if lines[0] == x then 0
    else
      var r := FirstIndex(x, lines[1..]);
      assert lines[..r + 1] == [lines[0]] + lines[1..][..r];
      r + 1
  }

  /** The header before its marker fragments are filled in: the lines before
      the first posts marker, each followed by the line terminator. */
  function RawHeader(m: Markers, lines: seq<string>): string {
    Terminated(lines[..FirstIndex(m.posts, lines)], m.eol)
  }

  /** The footer before its marker fragments are filled in: the lines after
      the first posts marker that are not posts markers themselves, or
      nothing when there is no posts marker. */
  function RawFooter(m: Markers, lines: seq<string>): string {
    var k := FirstIndex(m.posts, lines);
    if k == |lines| then "" else Terminated(Without(m.posts, lines[k + 1..]), m.eol)
  }

  /** The first occurrence of the categories marker and then of the titles
      marker, anywhere in the text, replaced by their fragments. */
  function Fill(m: Markers, f: Fragments, s: string): string {
    ReplaceFirst(ReplaceFirst(s, m.categories, f.categories), m.titles, f.titles)
  }

  /** The lines of `lines` other than `x`, in order. */
  function Without<T(==)>(x: T, lines: seq<T>): seq<T> {
    if |lines| == 0 then []
    else (if lines[0] == x then [] else [lines[0]]) + Without(x, lines[1..])
  }

  lemma WithoutSnoc<T>(x: T, lines: seq<T>, line: T)
    ensures Without(x, lines + [line]) == Without(x, lines) + (if line == x then [] else [line])
  {
    WithoutAppend(x, lines, [line]);
  }

  lemma RenderSnoc(m: Markers, f: Fragments, lines: seq<string>, line: string)
    ensures Terminated(RenderLines(m, f, lines + [line]), m.eol) ==
      Terminated(RenderLines(m, f, lines), m.eol) + RenderLine(m, f, line) + m.eol
  {
    assert RenderLines(m, f, lines + [line]) == RenderLines(m, f, lines) + [RenderLine(m, f, line)];
    TerminatedSnoc(RenderLines(m, f, lines), RenderLine(m, f, line), m.eol);
  }

  /** The first `x` in `lines` is the one with no `x` before it. */
  lemma FirstIndexIs<T>(x: T, lines: seq<T>, k: int)
    requires 0 <= k < |lines| && lines[k] == x && x !in lines[..k]
    ensures FirstIndex(x, lines) == k
  {
  }

  /** What the header and footer hold after the first `i` template lines;
      `k` is the position of the first posts marker once `flip` is set. */
  ghost predicate HeadFoot(m: Markers, lines: seq<string>, i: int, flip: bool, k: int, header: string, footer: string)
    requires 0 <= i <= |lines|
  {
    (!flip ==> m.posts !in lines[..i] && header == Terminated(lines[..i], m.eol) && footer == "") &&
    (flip ==> 0 <= k < i && lines[k] == m.posts && m.posts !in lines[..k] &&
              header == Terminated(lines[..k], m.eol) &&
              footer == Terminated(Without(m.posts, lines[k + 1..i]), m.eol))
  }

  lemma HeadFootStep(m: Markers, lines: seq<string>, i: int, flip: bool, k: int, header: string, footer: string)
    requires 0 <= i < |lines| && HeadFoot(m, lines, i, flip, k, header, footer)
    ensures var line := lines[i];
      var flip' := flip || line == m.posts;
      HeadFoot(m, lines, i + 1, flip',
               if !flip && line == m.posts then i else k,
               if line != m.posts && !flip' then header + line + m.eol else header,
               if line != m.posts && flip' then footer + line + m.eol else footer)
  {
    var line := lines[i];
    assert lines[..i + 1] == lines[..i] + [line];
    if line != m.posts {
      if !flip {
        TerminatedSnoc(lines[..i], line, m.eol);
      } else {
        assert lines[k + 1..i + 1] == lines[k + 1..i] + [line];
        WithoutSnoc(m.posts, lines[k + 1..i], line);
        TerminatedSnoc(Without(m.posts, lines[k + 1..i]), line, m.eol);
      }
    } else if flip {
      assert lines[k + 1..i + 1] == lines[k + 1..i] + [line];
      WithoutSnoc(m.posts, lines[k + 1..i], line);
      assert Without(m.posts, lines[k + 1..i]) + [] == Without(m.posts, lines[k + 1..i]);
    } else {
      assert lines[i + 1..i + 1] == [];
      assert Without(m.posts, lines[i + 1..i + 1]) == [];
    }
  }

  /** The index page after the first `i` template lines. */
  ghost predicate PageSoFar(m: Markers, f: Fragments, lines: seq<string>, i: int, page: string)
    requires 0 <= i <= |lines|
  {
    page == Terminated(RenderLines(m, f, lines[..i]), m.eol)
  }

  lemma PageStep(m: Markers, f: Fragments, lines: seq<string>, i: int, page: string)
    requires 0 <= i < |lines| && PageSoFar(m, f, lines, i, page)
    ensures PageSoFar(m, f, lines, i + 1, page + RenderLine(m, f, lines[i]) + m.eol)
  {
    assert lines[..i + 1] == lines[..i] + [lines[i]];
    RenderSnoc(m, f, lines[..i], lines[i]);
  }

  /** The template loop over the lines of `main/index.html`: the index page,
      and the header and footer before their fragments are filled in. */
  method SplitLines(m: Markers, f: Fragments, lines: seq<string>) returns (page: string, header: string, footer: string)
    requires m.categories != m.posts
    ensures page == Terminated(RenderLines(m, f, lines), m.eol)
    ensures header == RawHeader(m, lines) && footer == RawFooter(m, lines)
  {
    page, header, footer := "", "", "";
    var flip := false;
    ghost var k := 0;
    var i := 0;
    while i < |lines|
      invariant 0 <= i <= |lines|
      invariant PageSoFar(m, f, lines, i, page)
      invariant HeadFoot(m, lines, i, flip, k, header, footer)
    {
      var line := lines[i];
      PageStep(m, f, lines, i, page);
      HeadFootStep(m, lines, i, flip, k, header, footer);
      var rendered := line;
      if line == m.categories {
        rendered := f.categories;
      } else if line == m.posts {
        rendered := f.posts;
        if !flip {
          k := i;
        }
        flip := true;
      } else if line == m.titles {
        rendered := f.titles;
      }
      if line != m.posts {
        if !flip {
          header := header + line + m.eol;
        } else {
          footer := footer + line + m.eol;
        }
      }
      assert rendered == RenderLine(m, f, line);
      page := page + rendered + m.eol;
      i := i + 1;
    }
    assert lines[..i] == lines;
    if flip {
      FirstIndexIs(m.posts, lines, k);
    }
  }

  /** The template step of a rebuild: the index page, and the header and
      footer with the first categories and titles markers filled in. */
  method SplitTemplate(m: Markers, f: Fragments, index: string) returns (page: string, header: string, footer: string)
    requires m.categories != m.posts
    ensures var lines := Split(index, "\n");
      page == Terminated(RenderLines(m, f, lines), m.eol) &&
      header == Fill(m, f, RawHeader(m, lines)) &&
      footer == Fill(m, f, RawFooter(m, lines))
  {
    var lines := Split(index, "\n");
    page, header, footer := SplitLines(m, f, lines);
    header := ReplaceFirst(header, m.categories, f.categories);
    header := ReplaceFirst(header, m.titles, f.titles);
    footer := ReplaceFirst(footer, m.categories, f.categories);
    footer := ReplaceFirst(footer, m.titles, f.titles);
  }

  /** Every template line other than a posts marker goes to the header or
      the footer, in template order. */
  lemma HeaderFooterPartition(m: Markers, lines: seq<string>)
    ensures var k := FirstIndex(m.posts, lines);
      k < |lines| ==>
        Without(m.posts, lines) == lines[..k] + Without(m.posts, lines[k + 1..])
  {
    SplitAtFirst(m.posts, lines);
  }

  lemma SplitAtFirst<T>(x: T, lines: seq<T>)
    ensures var k := FirstIndex(x, lines);
      k < |lines| ==> Without(x, lines) == lines[..k] + Without(x, lines[k + 1..])
  {
    var k := FirstIndex(x, lines);
    if k < |lines| {
      SeqAround(lines, k);
      WithoutAround(x, lines[..k], lines[k + 1..]);
    }
  }

  lemma SeqAround<T>(s: seq<T>, k: int)
    requires 0 <= k < |s|
    ensures s == s[..k] + ([s[k]] + s[k + 1..])
  {
    assert s[k..] == [s[k]] + s[k + 1..];
    assert s == s[..k] + s[k..];
  }

  lemma WithoutAround<T>(x: T, a: seq<T>, b: seq<T>)
    requires x !in a
    ensures Without(x, a + ([x] + b)) == a + Without(x, b)
  {
    WithoutAppend(x, a, [x] + b);
    WithoutOf(x, a);
    assert Without(x, [x] + b) == Without(x, b) by {
      assert ([x] + b)[1..] == b;
    }
  }

  lemma {:induction false} WithoutAppend<T>(x: T, a: seq<T>, b: seq<T>)
    ensures Without(x, a + b) == Without(x, a) + Without(x, b)
  {
    if |a| == 0 {
      assert a + b == b;
    } else {
      var h, t := a[0], a[1..];
      assert a == [h] + t;
      assert a + b == [h] + (t + b);
      WithoutCons(x, h, t + b);
      WithoutCons(x, h, t);
      WithoutAppend(x, t, b);
      var head := if h == x then [] else [h];
      assert head + (Without(x, t) + Without(x, b)) == (head + Without(x, t)) + Without(x, b);
    }
  }

  lemma WithoutCons<T>(x: T, h: T, t: seq<T>)
    ensures Without(x, [h] + t) == (if h == x then [] else [h]) + Without(x, t)
  {
    assert ([h] + t)[0] == h && ([h] + t)[1..] == t;
  }

  /** Lines without `x` are kept as they are. */
  lemma {:induction false} WithoutOf<T>(x: T, a: seq<T>)
    requires x !in a
    ensures Without(x, a) == a
  {
    if |a| > 0 {
      WithoutOf(x, a[1..]);
      assert a == [a[0]] + a[1..];
    }
  }

  /** Without a posts marker every line goes to the header and the footer
      stays empty. */
  lemma NoPostsMarker(m: Markers, lines: seq<string>)
    requires m.posts !in lines
    ensures RawHeader(m, lines) == Terminated(lines, m.eol)
    ensures RawFooter(m, lines) == ""
  {
    assert lines[..|lines|] == lines;
  }

  /** A template without marker lines is copied to the index page unchanged,
      each line followed by the terminator. */
  lemma PlainTemplate(m: Markers, f: Fragments, index: string)
    requires var lines := Split(index, "\n");
      m.categories !in lines && m.posts !in lines && m.titles !in lines
    ensures Terminated(RenderLines(m, f, Split(index, "\n")), m.eol) ==
      Terminated(Split(index, "\n"), m.eol)
  {
    var lines := Split(index, "\n");
    assert RenderLines(m, f, lines) == lines;
  }
}

=== FILE: post_format.dfy ===
/**
 * What the two server variants share beyond the store and the request
 * routes: the syntax of a post's header lines, the category lists a
 * categories line extends, the HTML of the site-wide category list, the
 * lookups of the date-ordering step, the shape of a walk over the post
 * files and of a content cycle, and a few facts about strings and maps the
 * proofs of both variants use.
 */
module PostFormat {
  import opened GoStrings
  import opened ContentStore

  // Fixed pieces of the generated HTML, named so that proofs handle them
  // as whole strings.
  const SpanClose: string := "</span>"
  const LinkClose: string := "</a>"
  const DivClose: string := "</div>"
  const CatLinkOpen: string := "<a href=\"/categories/"
  const RootLinkOpen: string := "<a href=\"/"
  const TagEnd: string := "\">"

  /** A line `strings.Index(line, "//") == 0` skips. */
  predicate IsComment(line: string) {
    Index(line, "//") == 0
  }

  function Min(a: int, b: int): int {
    if a <= b then a else b
  }

  /** `new_categories[cat] = append(new_categories[cat], path)` for each label in order. */
  function AddToCategories(cats: map<string, seq<string>>, path: string, labels: seq<string>): map<string, seq<string>> {
    if |labels| == 0 then cats
    else
      var c := AddToCategories(cats, path, labels[..|labels| - 1]);
      var cat := labels[|labels| - 1];
      c[cat := Get(c, cat, []) + [path]]
  }

  lemma {:induction false} AddToCategoriesAppend(cats: map<string, seq<string>>, path: string, a: seq<string>, b: seq<string>)
    ensures AddToCategories(cats, path, a + b) == AddToCategories(AddToCategories(cats, path, a), path, b)
  {
    if |b| == 0 {
      assert a + b == a;
    } else {
      var b' := b[..|b| - 1];
      assert (a + b)[..|a + b| - 1] == a + b';
      assert (a + b)[|a + b| - 1] == b[|b| - 1];
      AddToCategoriesAppend(cats, path, a, b');
    }
  }

  /** `x` repeated `n` times. */
  function Repeat(x: string, n: nat): seq<string> {
    if n == 0 then [] else Repeat(x, n - 1) + [x]
  }

  /** A category exists afterwards when it existed or is labelled, and its
      list is the old one with the post appended once per label naming it. */
  lemma {:induction false} AddToCategoriesSpec(cats: map<string, seq<string>>, path: string, labels: seq<string>)
    ensures var r := AddToCategories(cats, path, labels);
      (forall c :: c in r <==> c in cats || c in labels) &&
      (forall c :: Get(r, c, []) == Get(cats, c, []) + Repeat(path, multiset(labels)[c]))
  {
    if |labels| > 0 {
      var init := labels[..|labels| - 1];
      var last := labels[|labels| - 1];
      AddToCategoriesSpec(cats, path, init);
      assert labels == init + [last];
      assert multiset(labels) == multiset(init) + multiset{last};
      var r := AddToCategories(cats, path, labels);
      var r0 := AddToCategories(cats, path, init);
      forall c ensures Get(r, c, []) == Get(cats, c, []) + Repeat(path, multiset(labels)[c]) {
        if c == last {
          assert Repeat(path, multiset(labels)[c]) == Repeat(path, multiset(init)[c]) + [path];
        }
      }
    }
  }

  /** The kinds of header line, tested in this order by their prefix. */
  datatype HeaderLine =
    | DateLine(value: string)
    | CategoriesLine(list: string)
    | TitleLine(title: string)
    | OtherLine

  function Classify(line: string): HeaderLine {
    if Index(line, "date: ") == 0 then DateLine(TrimPrefix(line, "date: "))
    else if Index(line, "categories: ") == 0 then CategoriesLine(TrimPrefix(line, "categories: "))
    else if Index(line, "title: ") == 0 then TitleLine(TrimPrefix(line, "title: "))
    else OtherLine
  }

  /** A link in the site-wide category list. */
  function CategoriesEntry(cat: string): string {
    CatLinkOpen + cat + CategoriesEntryClass + cat + LinkClose
  }

  const CategoriesEntryClass: string := "\" class=\"categories_entry\">"

  function CategoriesEntries(cats: seq<string>): string {
    if |cats| == 0 then "" else CategoriesEntries(cats[..|cats| - 1]) + CategoriesEntry(cats[|cats| - 1])
  }

  lemma CategoriesEntriesNext(cats: seq<string>, k: int)
    requires 0 <= k < |cats|
    ensures CategoriesEntries(cats[..k + 1]) == CategoriesEntries(cats[..k]) + CategoriesEntry(cats[k])
  {
    assert cats[..k + 1][..k] == cats[..k];
  }

  /** The Unix seconds of the posts `keys`, in that order. */
  function Stamps(dates: map<string, Time>, keys: seq<string>): (r: seq<int>)
    ensures |r| == |keys|
    ensures forall i :: 0 <= i < |keys| ==> r[i] == Unix(Get(dates, keys[i], ZeroTime))
  {
    seq(|keys|, i requires 0 <= i < |keys| => Unix(Get(dates, keys[i], ZeroTime)))
  }

  /** The loop that collects the Unix seconds of every pending date. */
  method CollectStamps(dates: map<string, Time>) returns (sr: seq<int>, ghost keys: seq<string>)
    ensures Enumerates(keys, dates.Keys)
    ensures sr == Stamps(dates, keys)
  {
    sr, keys := [], [];
    var rest := dates.Keys;
    while rest != {}
      invariant rest <= dates.Keys
      invariant Distinct(keys)
      invariant forall k :: k in keys ==> k in dates && k !in rest
      invariant forall k :: k in dates && k !in rest ==> k in keys
      invariant sr == Stamps(dates, keys)
      decreases |rest|
    {
      var k :| k in rest;
      sr := sr + [Unix(dates[k])];
      keys := keys + [k];
      rest := rest - {k};
    }
  }

  /** The loop over the pending dates that stops at the first post, in map
      order, stamped `ts`. */
  method FindByStamp(dates: map<string, Time>, ts: int) returns (found: Option<string>)
    ensures found.Some? ==> found.value in dates && Unix(dates[found.value]) == ts
    ensures found.None? ==> forall k :: k in dates ==> Unix(dates[k]) != ts
  {
    var rest := dates.Keys;
    while rest != {}
      invariant rest <= dates.Keys
      invariant forall k :: k in dates && k !in rest ==> Unix(dates[k]) != ts
      decreases |rest|
    {
      var d :| d in rest;
      if Unix(dates[d]) == ts {
        return Some(d);
      }
      rest := rest - {d};
    }
    return None;
  }

  /** Every stamp in a reordering of the stamps belongs to some post. */
  lemma StampOwner(dates: map<string, Time>, keys: seq<string>, s: seq<int>, i: int)
    requires Enumerates(keys, dates.Keys)
    requires multiset(s) == multiset(Stamps(dates, keys)) && 0 <= i < |s|
    ensures exists k :: k in dates && Unix(dates[k]) == s[i]
  {
    assert s[i] in multiset(Stamps(dates, keys));
    var j :| 0 <= j < |keys| && Stamps(dates, keys)[j] == s[i];
    assert keys[j] in dates;
  }

  /** The recent-posts entries of `paths`; a path without one adds nothing. */
  function ShortsOf(shortPosts: map<string, string>, paths: seq<string>): string {
    if |paths| == 0 then ""
    else ShortsOf(shortPosts, paths[..|paths| - 1]) + Get(shortPosts, paths[|paths| - 1], "")
  }

  lemma ShortsOfSnoc(shortPosts: map<string, string>, paths: seq<string>, path: string)
    ensures ShortsOf(shortPosts, paths + [path]) == ShortsOf(shortPosts, paths) + Get(shortPosts, path, "")
  {
    assert (paths + [path])[..|paths|] == paths;
  }

  /** One visit of the walk callback: the path, whether the walk reported an
      error for it, and the file's bytes when reading it succeeded. */
  datatype WalkEntry = WalkEntry(path: string, err: bool, file: Option<string>)

  /** The test `strings.Index(path, ".blog") == len(path) - 5`: the first
      ".blog" in the path is at its very end. */
  predicate IsBlogPath(path: string) {
    Index(path, ".blog") == |path| - 5
  }

  /** The test accepts a path exactly when its first ".blog" ends it, or
      when the path has four characters: there `Index` finds nothing and
      gives -1, which is the length minus 5. */
  lemma BlogPathCases(path: string)
    ensures IsBlogPath(path) <==>
      |path| == 4 ||
      (OccursAt(path, ".blog", |path| - 5) && forall i :: 0 <= i < |path| - 5 ==> !OccursAt(path, ".blog", i))
  {
    if |path| >= 5 && OccursAt(path, ".blog", |path| - 5) && forall i :: 0 <= i < |path| - 5 ==> !OccursAt(path, ".blog", i) {
      IndexIs(path, ".blog", |path| - 5);
    }
  }

  /** A path whose name holds ".blog" before its final ".blog" is not taken
      for a post file. */
  lemma DoubleExtensionSkipped(stem: string)
    ensures !IsBlogPath(stem + ".blog.blog")
  {
    var p := stem + ".blog.blog";
    assert p[|stem|..|stem| + 5] == ".blog";
    assert OccursAt(p, ".blog", |stem|);
  }

  /** How a cycle of `content_loop` ends: the process exits because the
      template cannot be read, or the pending content is published, or
      nothing changed. */
  datatype Cycle = Exited | Published | Kept

  /** The page, header and footer entries are distinct from each other and
      from every post key. */
  lemma EntryKeysDistinct(p: string)
    requires |p| > 0
    ensures "url:/" != "header" && "url:/" != "footer" && "header" != "footer"
    ensures "url:/" + p != "url:/" && "url:/" + p != "header" && "url:/" + p != "footer"
  {
    assert "url:/"[0] == 'u' && "header"[0] == 'h' && "footer"[0] == 'f';
    assert |"url:/" + p| > |"url:/"|;
    assert ("url:/" + p)[0] == 'u';
  }

  /** Reading a map after three updates of distinct keys. */
  lemma ThreeUpdates<V>(m: map<string, V>, a: string, b: string, c: string, va: V, vb: V, vc: V, zero: V)
    requires a != b && a != c && b != c
    ensures var m' := m[a := va][b := vb][c := vc];
      Get(m', a, zero) == va && Get(m', b, zero) == vb && Get(m', c, zero) == vc &&
      forall k :: k != a && k != b && k != c ==> Get(m', k, zero) == Get(m, k, zero)
  {
  }

  /** Publishing keeps every non-empty pending value readable. */
  lemma GetNonEmpty<V>(m: map<string, V>, k: string, zero: V)
    ensures Get(NonEmpty(m, zero), k, zero) == Get(m, k, zero)
    ensures Get(m, k, zero) != zero ==> k in NonEmpty(m, zero)
  {
  }

  lemma ConcatAssoc(x: string, y: string, z: string)
    ensures x + y + z == x + (y + z)
  {
  }

  /** The non-comment lines. */
  function NonComment(lines: seq<string>): seq<string> {
    if |lines| == 0 then []
    else NonComment(lines[..|lines| - 1]) + (if IsComment(lines[|lines| - 1]) then [] else [lines[|lines| - 1]])
  }

  lemma {:induction false} NonCommentAppend(a: seq<string>, b: seq<string>)
    ensures NonComment(a + b) == NonComment(a) + NonComment(b)
    decreases |b|
  {
    if |b| == 0 {
      assert a + b == a;
    } else {
      var b' := b[..|b| - 1];
      assert (a + b)[..|a + b| - 1] == a + b';
      NonCommentAppend(a, b');
    }
  }

  /** The loop over the labels of a categories line. */
  method FileUnder(cats: map<string, seq<string>>, path: string, labels: seq<string>) returns (cats': map<string, seq<string>>)
    ensures cats' == AddToCategories(cats, path, labels)
  {
    cats' := cats;
    for i := 0 to |labels|
      invariant cats' == AddToCategories(cats, path, labels[..i])
    {
      var cat := labels[i];
      assert labels[..i + 1][..i] == labels[..i];
      cats' := cats'[cat := Get(cats', cat, []) + [path]];
    }
    assert labels[..|labels|] == labels;
  }
}
